=== FILE: README.md ===
# GolixirDB core, modelled in Dafny

GolixirDB is a Redis-compatible key-value server written in Go. This project
models its core and proves properties of the model:

- the RESP2 protocol: the replies and their wire encodings (`Replies`), and
  the streaming parser that reads them back (`Parser`, `ParserProperties`);
- the decimal conversions of Go's `strconv` that the codec, the append-only
  file and SELECT rely on, and lower-casing of ASCII names (`Wire`);
- the key dictionary (`Dict`), the command table (`Command`), the key
  commands DEL, EXISTS, KEYS, FLUSHDB, TYPE, RENAME and RENAMENX (`Database`),
  and the glob patterns that KEYS uses (`Wildcard`);
- the client connection's selected database (`Connection`);
- the append-only file (AOF): queueing, the writer that inserts SELECT frames,
  and the replay at start-up (`Aof`);
- the standalone server: a list of databases, SELECT, dispatch, and start-up
  with AOF replay (`Standalone`);
- the cluster node: a consistent-hash ring (`ConsistentHash`), relaying to
  peers, broadcast, the cluster RENAME and FLUSHDB, and the cluster's `Exec`
  (`Cluster`).

Byte strings are `seq<Byte>`, where a `Byte` is a `char` below 256. Go
objects whose fields change are classes: `SyncDict`, `DB`, `AofHandler`,
`Connection`, `NodeMap`, `StandaloneDatabase`, `ClusterDatabase` and
`CommandTable`. Loops that build a value are methods proved against a
specification function. Examples: `ParseStream` against `Parse`, `IsMatch`
against `Matches`, `CompilePattern` against `Compiled`, `HandleAof` against
`WriteLog`, and `ReplayLines` against `Place`.

The main results:

- **Parser round trip.** The parser reads back every reply the server writes
  as one payload and then starts afresh. The only exceptions come from this
  encoder and parser, not from RESP itself, and each has a lemma: a body
  starting with `$`, an empty element, an empty bulk, and a body too long to
  allocate.
- **AOF writer and replay.** The writer keeps only the records whose command
  frame reached the file. Replaying a log written in one run puts each kept
  record back in the database it first ran in. Across a restart this holds
  only with the corrected writer, which starts with currentDB -1 (see
  "## Findings"). A replayed line that gets a nil reply stops the
  start-up with a panic.
- **The ring.** `PickNode` returns the node on the ring after the key's hash.
- **Cluster commands.** A cluster RENAME goes to the node that owns both keys.
  A cluster FLUSHDB never answers OK when a peer fails.

## Model

| member | source | states |
|---|---|---|
| Wire.FormatInt | aof/aof.go:71 | strconv.Itoa gives a non-empty string with no CR or LF, so it can sit inside a RESP line |
| Wire.DecimalRoundTrip | resp/reply/reply.go:30-35 | the digits Itoa prints for n spell the number n |
| Wire.ParseUintOfDecimal | resp/parser/parser.go:184 | ParseUint reads back every number Itoa printed, up to the bound |
| Wire.ParseIntOfFormat | resp/parser/parser.go:205 | ParseInt(FormatInt(i)) == i for every int64, negatives included |
| Wire.ToLower | database/command.go:20 | on ASCII input: the length is kept, no capital letter remains, every byte that is not a capital is kept, and a capital becomes its lower-case letter |
| Wire.ToLowerMatches | database/standalone_database.go:67 | two names lower-case to the same name exactly when they differ only in the case of their letters |
| Wire.ToLowerIdempotent | database/standalone_database.go:67 | lower-casing twice is lower-casing once |
| Wire.DecimalLength | resp/reply/reply.go:100-102 | Itoa of a number below 10^k needs at most k digits, so an int64 index needs at most 19 |
| Replies.ToBytes | resp/reply/reply.go:30-136 | only NoReply serialises to nothing; the first byte is '-' exactly for error replies and '+' exactly for status, PONG and OK |
| Replies.IsErrorReply | resp/reply/reply.go:134-136 | true exactly for error replies; asking it of a reply that serialises to nothing is excluded, as the source indexes the first byte |
| Replies.ErrorText | resp/reply/reply.go:118-124 | an error reply is '-', its text, then CRLF |
| Replies.MakeOkReply | resp/reply/consts.go:16-28 | the shared OK reply serialises to "+OK\r\n" |
| Replies.Elements | resp/reply/reply.go:45-49 | a command line becomes a multi-bulk reply of the same length whose elements are its words, none nil |
| Replies.ElementFramesAppend | resp/reply/reply.go:52-64 | framing the elements of two lists is framing each list in turn |
| Replies.ElementFrameCases | resp/reply/reply.go:56-61 | a nil element is written "$-1\r\n" and an empty one "$0\r\n\r\n" |
| Replies.EmptyMultiBulkBytes | resp/reply/consts.go:45-53 | EmptyMultiBulkReply is the same bytes as a multi-bulk reply with no elements |
| Replies.EmptyBulkIsNotNullBulk | resp/reply/reply.go:30-35 | an empty BulkReply is "$-1" with no CRLF, unlike NullBulkReply |
| Parser.NewlineIndex | resp/parser/parser.go:158 | finds the first '\n', or the end of input when there is none |
| Parser.ReadLine | resp/parser/parser.go:154-179 | a line read in line mode ends at its first '\n' with CRLF; a body read is exactly bulkLen+2 bytes; a line without CR before LF is a protocol error; an I/O error is io.EOF when a line is read or no byte is left, otherwise a short body read (unexpected EOF) |
| Parser.ParseMultiBulkHeader | resp/parser/parser.go:181-201 | accepted exactly when the count parses as a uint32; a positive count starts a multi-bulk reply expecting that many elements |
| Parser.ParseBulkHeader | resp/parser/parser.go:203-220 | -1 is a null bulk, a positive length announces a body of one element, and any other value is an error |
| Parser.ReadBody | resp/parser/parser.go:241-258 | a line not starting with '$' is appended as one element; a '$' line appends at most one empty element |
| Parser.HandleLine | resp/parser/parser.go:78-149 | a payload sent for a line is never an I/O error and resets the state |
| Parser.Step | resp/parser/parser.go:58-150 | one turn crashes exactly on the inputs that panic (the line "\n", a body length `make` cannot allocate, an empty body line), otherwise uses some input; it stops only with an I/O error payload |
| Parser.DrainIsRun | resp/parser/parser.go:58-150 | the loop's accumulated payloads followed by the rest of the run are the payloads already sent, then the run |
| Parser.ParseStream | resp/parser/parser.go:28-151 | the loop of parse0 sends exactly the payloads Parse describes |
| Parser.ParseStep | resp/parser/parser.go:58-76 | one turn of the loop behaves as Step |
| Parser.ParseLine | resp/parser/parser.go:78-149 | the dispatch on state and first byte behaves as HandleLine |
| ParserProperties.IoPayloadIsLast | resp/parser/parser.go:62-69 | an I/O error payload is the last payload sent |
| ParserProperties.EndOfInputEnds | resp/parser/parser.go:158-169 | with no input left the parser sends io.EOF and stops, whatever it was reading, unless it awaits a body too long to allocate: then `make` panics and nothing is sent |
| ParserProperties.HugeBulkCrashes | resp/parser/parser.go:165-166 | the header "$9223372036854775807" is accepted, and the allocation of its body panics before anything is read: nothing more is sent |
| ParserProperties.MalformedLineResets | resp/parser/parser.go:70-75 | a line without CR before LF gives one protocol error, and the next line is parsed from scratch |
| ParserProperties.EmptyMultiBulkFrame | resp/parser/parser.go:91-96 | "*0\r\n" gives EmptyMultiBulkReply and resets the parser |
| ParserProperties.NullBulkFrame | resp/parser/parser.go:107-113 | "$-1\r\n" gives NullBulkReply and resets the parser |
| ParserProperties.ReadLineInLineMode | resp/parser/parser.go:157-164 | a CRLF-terminated line is read whole |
| ParserProperties.ReadLineInBodyMode | resp/parser/parser.go:165-177 | a body is read as exactly its bytes and CRLF, whatever they contain |
| ParserProperties.TextLineRoundTrip | resp/parser/parser.go:222-238 | a status or error line is read back unchanged |
| ParserProperties.IntRoundTrip | resp/parser/parser.go:230-235 | an integer line is read back as the same int64 |
| ParserProperties.BulkRoundTrip | resp/parser/parser.go:98-148 | a non-empty bulk not starting with '$' is read back unchanged |
| ParserProperties.ElementsRead | resp/parser/parser.go:124-148 | the elements of a multi-bulk reply, read in turn, complete it with the elements received |
| ParserProperties.MultiBulkRoundTrip | resp/parser/parser.go:81-148 | a transmissible multi-bulk reply is read back as one reply, with nil elements read back as empty |
| ParserProperties.RoundTrip | resp/parser/parser.go:48-151 | decode after encode: every transmissible reply comes back as one payload, and the parser starts afresh after it |
| ParserProperties.DollarBodyIsReadAsHeader | resp/parser/parser.go:244 | the bulk "$1" is not read back: its body is taken for a header, and the stream ends waiting |
| ParserProperties.EmptyElementCrashes | resp/parser/parser.go:242-251 | an empty element before the last one of a multi-bulk reply makes readBody panic, and nothing more is sent |
| ParserProperties.LastEmptyElement | resp/parser/parser.go:114-148 | an empty last element completes the reply; its CRLF then comes out as an extra payload with neither data nor error |
| ParserProperties.LastZeroHeaderCompletes | resp/parser/parser.go:124-148 | "$0" for the last element completes the multi-bulk reply at once |
| ParserProperties.StrayLineEnd | resp/parser/parser.go:114-122 | a bare CRLF between replies is a payload with neither data nor error |
| ParserProperties.EmptyBodyLineCrashes | resp/parser/parser.go:242-244 | an empty line while reading a body is the panic |
| ParserProperties.ZeroHeaderAppendsEmpty | resp/parser/parser.go:250-253 | inside a multi-bulk reply, "$0" appends an empty element at once |
| Dict.Added | datastruct/dict/sync_dict.go:32-39 | an insertion adds 1 exactly for a new key |
| Dict.DistinctListCovers | datastruct/dict/sync_dict.go:72-81 | a list holding each key once, as many entries as keys, holds every key |
| Dict.DistinctCard | datastruct/dict/sync_dict.go:22-29 | a list of distinct keys has as many entries as its set |
| Dict.SyncDict.constructor | datastruct/dict/sync_dict.go:11-13 | MakeSyncDict is empty |
| Dict.SyncDict.Get | datastruct/dict/sync_dict.go:16-19 | a value exactly for a bound key, and it is the bound one |
| Dict.SyncDict.Len | datastruct/dict/sync_dict.go:22-29 | counting the keys one by one gives the number of keys |
| Dict.SyncDict.Put | datastruct/dict/sync_dict.go:32-39 | always stores; returns 1 exactly for a new key |
| Dict.SyncDict.PutIfAbsent | datastruct/dict/sync_dict.go:42-49 | stores and returns 1 only for a new key; otherwise nothing changes and 0 |
| Dict.SyncDict.PutIfExists | datastruct/dict/sync_dict.go:52-59 | stores and returns 1 only for a bound key; otherwise nothing changes and 0 |
| Dict.SyncDict.Remove | datastruct/dict/sync_dict.go:62-69 | the key is gone; returns 1 exactly when it was there |
| Dict.SyncDict.Keys | datastruct/dict/sync_dict.go:72-81 | every key exactly once, nothing else |
| Dict.SyncDict.Clear | datastruct/dict/sync_dict.go:119-121 | the dictionary is empty |
| Command.CommandTable.constructor | database/command.go:8 | the table starts empty |
| Command.CommandTable.RegisterCommand | database/command.go:19-25 | binds the lower-cased name to the executor and arity, replacing an earlier entry |
| Command.CommandTable.RegisterAll | database/keys.go:113-122 | the init functions register in order, ping last |
| Command.RegisteredBinding | database/command.go:19-25 | a name is bound exactly when some registration lower-cases to it, and then to the last such one; other entries are kept |
| Command.StartupTable | database/keys.go:113-122 | the table after start-up binds the seven key commands and ping, lower-cased, with their arities |
| Database.KeySetStep | database/keys.go:13-17 | removing one more argument's key: the map shrinks by that key, and the count grows exactly when it was there |
| Database.CountPresent | database/keys.go:26-36 | EXISTS counts at most one per argument |
| Database.CountPresentAppend | database/keys.go:28-34 | counting over two argument lists adds the counts |
| Database.CountPresentAll | database/keys.go:26-36 | the count is the number of arguments exactly when all name keys, and 0 exactly when none does |
| Database.RenameMoves | database/keys.go:61-77 | RENAME moves the entity to dest and removes src, and keeps every other key; renaming a key to itself deletes it |
| Database.RenameNxAgrees | database/keys.go:80-98 | with dest free and distinct from src, RENAMENX leaves the same dictionary as RENAME |
| Database.MatchesListed | database/keys.go:101-111 | distinct matching keys covering every match list each match once |
| Database.DB.constructor | database/standalone_database.go:28-31 | a new DB has its index, an empty dictionary of its own, and the no-op AOF callback |
| Database.DB.AddAof | database/standalone_database.go:48-51 | forwards the line to the handler under the DB's own index |
| Database.DB.Removes | database/keys.go:13-17 | removes every argument key and returns how many distinct keys were there |
| Database.DB.Exec | database/command.go:11-14 | an unknown name, or a word count the arity refuses, is an error that changes nothing; PING answers PONG and changes nothing |
| Database.ExecDel | database/keys.go:11-23 | removes the keys, returns how many were there, and logs the line only when that is more than 0 |
| Database.ExecExists | database/keys.go:26-36 | counts the arguments that name a key, repeats included, and changes nothing |
| Database.ExecFlushDB | database/keys.go:39-43 | empties the DB, always logs, answers OK |
| Database.ExecType | database/keys.go:47-58 | "none" for a missing key, "string" for bytes, the unknown error for any other kind |
| Database.ExecRename | database/keys.go:61-77 | a wrong argument count or a missing source is an error that changes nothing; otherwise the entity moves and the line is logged |
| Database.ExecRenameNx | database/keys.go:80-98 | 0 if dest exists, even when it is src; an error if src is missing; otherwise the entity moves, 1, and the line is logged |
| Database.ExecKeys | database/keys.go:101-111 | the reply lists every key the pattern matches, each once, and nothing else |
| Connection.Connection.constructor | resp/connection/conn.go:22-26 | a new connection has DB 0 selected and nothing written |
| Connection.Connection.SelectDB | resp/connection/conn.go:62-64 | stores the index, including a negative one, and changes nothing else |
| Connection.Connection.Write | resp/connection/conn.go:41-54 | an empty slice returns nil without writing; any other slice is written and the socket's error returned |
| Wildcard.Bounds | lib/wildcard/wildcard.go:31-42 | the least and greatest member, or 255 and 0 for an empty set |
| Wildcard.Contains | lib/wildcard/wildcard.go:20-49 | set membership; for a range, membership or lying between two members; for a negation, non-membership |
| Wildcard.CloseSet | lib/wildcard/wildcard.go:84-95 | "-" makes a range and "^" a negation, which wins; both markers leave the set |
| Wildcard.CompileFromAppend | lib/wildcard/wildcard.go:62-107 | compiling two texts in turn is compiling the first, then the second from where it stopped |
| Wildcard.CompilePattern | lib/wildcard/wildcard.go:57-111 | the loop produces the items Compiled describes |
| Wildcard.MatchesPrefix | lib/wildcard/wildcard.go:130-142 | the table recurrence of IsMatch is glob matching on prefixes |
| Wildcard.FillRow | lib/wildcard/wildcard.go:131-141 | filling a row keeps the table equal to matching of prefixes |
| Wildcard.IsMatch | lib/wildcard/wildcard.go:114-144 | the answer is whether the string matches the pattern |
| Wildcard.EmptyPatternMatchesOnlyEmpty | lib/wildcard/wildcard.go:115-117 | the empty pattern matches exactly the empty string |
| Wildcard.StarsMatchEverything | lib/wildcard/wildcard.go:127-134 | a pattern of stars matches every string |
| Wildcard.LiteralMatchesExactly | lib/wildcard/wildcard.go:136-138 | a pattern of normal items matches exactly the string it spells |
| Wildcard.AnyConsumesOne | lib/wildcard/wildcard.go:136-137 | '?' consumes exactly one byte |
| Wildcard.StarAbsorbs | lib/wildcard/wildcard.go:133-134 | a star can stand for any run of bytes |
| Wildcard.PlainTextCompiles | lib/wildcard/wildcard.go:99-105 | text with no special byte compiles to the normal items that spell it |
| Wildcard.PlainPatternMatchesItself | lib/wildcard/wildcard.go:57-144 | plain text as a pattern matches exactly itself |
| Wildcard.StarPatternMatchesEverything | lib/wildcard/wildcard.go:68-69 | "*" is one star and matches every string |
| Wildcard.EscapeCompiles | lib/wildcard/wildcard.go:64-73 | a backslash makes the next rune a normal item; a trailing one adds nothing |
| Wildcard.BracketCompiles | lib/wildcard/wildcard.go:74-98 | a closed bracket makes one set, range or negation item of its members |
| Wildcard.InBracket | lib/wildcard/wildcard.go:100-103 | inside a bracket plain runes are collected as members |
| Wildcard.UnclosedBracketAddsNothing | lib/wildcard/wildcard.go:74-81 | a '[' that is never closed adds no item |
| ConsistentHash.ChecksumIEEECheckValues | lib/consistenthash/consistenthash.go:24-26 | the default hash has the CRC-32/IEEE check values for "" and "a" |
| ConsistentHash.HashesOf | lib/consistenthash/consistenthash.go:37-44 | AddNode appends at most one hash per name |
| ConsistentHash.Search | lib/consistenthash/consistenthash.go:57-59 | sort.Search returns an index within the range |
| ConsistentHash.SearchFindsFirst | lib/consistenthash/consistenthash.go:57-59 | on a sorted list, Search finds the first hash at least h |
| ConsistentHash.SortInts | lib/consistenthash/consistenthash.go:45 | sort.Ints leaves the hashes sorted and a permutation of what they were |
| ConsistentHash.InsertAt | lib/consistenthash/consistenthash.go:45 | one insertion step extends the sorted prefix and permutes the array |
| ConsistentHash.NodeMap.constructor | lib/consistenthash/consistenthash.go:19-28 | an empty ring; a nil hash function means CRC-32 |
| ConsistentHash.NodeMap.IsEmpty | lib/consistenthash/consistenthash.go:31-33 | true exactly when no hash is on the ring, which on a valid ring means no node is bound |
| ConsistentHash.NodeMap.AddNode | lib/consistenthash/consistenthash.go:36-46 | the ring stays valid; the hash list gains the hashes of the non-empty names, sorted; the map binds them |
| ConsistentHash.NodeMap.PickNode | lib/consistenthash/consistenthash.go:49-67 | "" on an empty ring; otherwise the node bound to the successor of the key's hash |
| ConsistentHash.EmptyRingBindsNothing | lib/consistenthash/consistenthash.go:31-33 | a valid ring with no hash binds no node |
| ConsistentHash.PickNodeLandsOnSuccessor | lib/consistenthash/consistenthash.go:57-66 | the index PickNode uses, wrapped to 0 at the end, holds the ring successor of the hash |
| ConsistentHash.BindKeys | lib/consistenthash/consistenthash.go:37-44 | the map keeps its keys and gains exactly the appended hashes |
| ConsistentHash.EmptyNamesAddNothing | lib/consistenthash/consistenthash.go:38-40 | empty names change nothing |
| ConsistentHash.LaterNameWins | lib/consistenthash/consistenthash.go:43 | on a hash collision the later name stays bound |
| ConsistentHash.PickOwnName | lib/consistenthash/consistenthash.go:49-67 | a node's own name, when bound to it, picks that node |
| Aof.FramesAppend | aof/aof.go:71-80 | the frames of two lists of lines are the frames of each in turn |
| Aof.AofHandler.constructor | aof/aof.go:39-41 | a handler over the existing file, with no queue yet |
| Aof.AofHandler.AddAof | aof/aof.go:55-62 | queues the record exactly when append-only is on and the queue exists; nothing else changes |
| Aof.AofHandler.StartWriting | aof/aof.go:48-52 | the queue is created and the writer starts with currentDB 0 |
| Aof.AofHandler.StartWritingSelected | aof/aof.go:48-52 | the same, with currentDB -1, so the first record is preceded by a SELECT |
| Aof.AofHandler.HandleAof | aof/aof.go:65-85 | the file grows by the frames WriteLog gives for the queue, the queue drains, and currentDB follows WriteLog |
| Aof.AofHandler.WriteRecordToFile | aof/aof.go:69-83 | one record: a SELECT first when its DB differs, skipped if that write fails |
| Aof.AofHandler.LoadAof | aof/aof.go:88-122 | nothing when the file cannot be opened; otherwise the multi-bulk lines parsed from the file, in order, up to io.EOF; the loop ends exactly when the parser closes its channel |
| Aof.ReplayPayload | aof/aof.go:100-117 | one payload: the line of a multi-bulk reply; io.EOF ends; other errors and replies are skipped |
| Aof.WriteLogStep | aof/aof.go:68-84 | the writer over one more record |
| Aof.LogAdvance | aof/aof.go:68-84 | the loop invariant of handleAof carried past one record |
| Aof.FramesExtend | aof/aof.go:72-80 | appending frames to a file that holds frames |
| Aof.FramesOfWritten | aof/aof.go:71-79 | a record writes the frame of its line, after a SELECT frame when needed |
| Aof.ReplayStep | aof/aof.go:99-106 | replay of one payload then the rest, unless it is io.EOF |
| Aof.ReplayAdvance | aof/aof.go:99-121 | the loop invariant of LoadAof carried past one payload |
| Aof.EofCloses | aof/aof.go:101-103 | an io.EOF payload closes the channel |
| Aof.FrameParsed | aof/aof.go:71-79 | the frame of a replayable line parses back as one multi-bulk payload holding the line |
| Aof.LinePayloadReplayed | aof/aof.go:111-117 | LoadAof executes the line of a multi-bulk payload, which does not close the channel |
| Aof.ReplayThrough | aof/aof.go:99-121 | replay over the payload of a line, then the rest |
| Aof.FramesCons | aof/aof.go:71-79 | the frames of a non-empty list of lines |
| Aof.FramesReplayed | aof/aof.go:88-122 | LoadAof executes the lines of a log of replayable lines, then whatever follows |
| Aof.FramesKeepOpen | aof/aof.go:99-103 | frames of replayable lines do not close the channel |
| Aof.LogReplayed | aof/aof.go:88-122 | replaying a log of replayable lines executes exactly those lines, in order, and the loop ends |
| Aof.SelectLineReplayable | aof/aof.go:71 | the SELECT line of a DB index is replayable |
| Aof.RecordReplayable | aof/aof.go:69-80 | the lines the writer makes of a replayable record are replayable |
| Aof.WrittenReplayable | aof/aof.go:65-85 | everything the writer appends from replayable records is replayable |
| Standalone.PlaceAppend | database/standalone_database.go:60-79 | a replay of two logs in turn: the second starts on the DB the first left the connection on |
| Standalone.SelectLineSelects | database/standalone_database.go:69-73 | the writer's SELECT line moves the replaying connection to that DB |
| Standalone.RecordPlaced | aof/aof.go:69-83 | one record written and replayed lands in its own DB, and writer and connection still agree |
| Standalone.WriterPlaced | aof/aof.go:65-85 | a log the writer appends, replayed from an agreeing connection, places exactly the records whose frame reached the file, each in its own DB |
| Standalone.NoFaultKeepsAll | aof/aof.go:79-83 | without write failures every record is kept |
| Standalone.FreshLogPlaced | aof/aof.go:67 | a fresh log, written from currentDB 0, replays each record in its own DB |
| Standalone.RestartMisplaces | aof/aof.go:67 | after a restart with currentDB 0 a DB 0 record is replayed in DB 1 |
| Standalone.OldLogPlaced | aof/aof.go:69-77 | an old log ending in a SELECT of DB 1 leaves the connection on DB 1 |
| Standalone.AppendedLinePlaced | database/standalone_database.go:76-78 | a line replayed with the connection on DB 1 runs in DB 1 |
| Standalone.OneRecordWritten | aof/aof.go:69 | the writer at currentDB 0 appends a DB 0 record without a SELECT |
| Standalone.RestartPlaced | aof/aof.go:65-85 | with currentDB -1, records appended after a restart replay in their own DBs, whatever the old log leaves the connection on |
| Standalone.RestartReplayed | aof/aof.go:88-122 | an old log plus the new records: every line is parsed back, and each new record replays in its own DB after the old ones |
| Standalone.DatabaseCount | database/standalone_database.go:24-26 | a configured count of 0 means 16; any other count is kept, and the count is positive exactly when the configured one is not negative |
| Standalone.StandaloneDatabase.constructor | database/standalone_database.go:23-32 | the server holds its DBs, no AOF handler, and nothing dispatched |
| Standalone.StandaloneDatabase.Exec | database/standalone_database.go:60-79 | an empty line panics; SELECT is answered on the connection; any other line runs in the selected DB, or panics when the index is not a DB; the other DBs are unchanged, and the empty line, SELECT and a bad index change no DB and queue nothing |
| Standalone.StandaloneDatabase.ReplayLines | aof/aof.go:98-121 | the replayed lines go through Exec with one connection, placed as Place says, up to the first nil reply, where IsErrorReply panics and the replay stops |
| Standalone.ReplayedBeforeNil | aof/aof.go:116-118 | at most the whole log is replayed before a nil reply |
| Standalone.NilStopsReplay | aof/aof.go:116-118 | every line before the count gets a reply from Exec, and the line at the count gets nil |
| Standalone.ReplayStopsAt | aof/aof.go:116-118 | a replay that stops in a prefix of the log stops at the same line for the whole log |
| Standalone.NegativeSelectStopsReplay | aof/aof.go:116-118 | the log "SELECT -1; DEL a" parses back to its two lines, and the replay stops at the DEL |
| Standalone.NegativeSelectTaken | database/standalone_database.go:89-98 | SELECT -1 is accepted and moves the connection to -1 |
| Standalone.ExecSelect | database/standalone_database.go:89-99 | the reply, and the connection moves to the index only when it is accepted |
| Standalone.SelectReplyAgrees | database/standalone_database.go:89-99 | OK exactly when the argument is an int64 below the count, and then that index is selected; after an error the index is kept |
| Standalone.NewStandaloneDatabase | database/standalone_database.go:22-56 | a negative configured count panics in `make`; otherwise the DB count with 0 as 16, each DB at its index; with append-only on the log is replayed into the DBs up to the first nil reply, before the handler is installed; the boot panics on that nil reply, deadlocks (and Go aborts the process) when the parser never closes its channel, panics when the append open fails; a ready writer starts with currentDB 0 |
| Standalone.NewStandaloneDatabaseSelected | aof/aof.go:38-53 | the same boot, with the writer started at currentDB -1 so that records appended after a restart replay in their own DB |
| Standalone.LoadDatabases | aof/aof.go:38-47 | a panic on a negative count; otherwise the DBs, the log replayed into them, and the boot outcome, with the handler not yet writing and not yet installed |
| Standalone.MakeDBs | database/standalone_database.go:27-32 | DB i at position i, each with a fresh dictionary of its own |
| Standalone.InstallHandler | database/standalone_database.go:38-52 | every DB forwards to the handler under its own index |
| Cluster.PeerReply | cluster/com.go:48-56 | "connection factory not found" for an unknown peer, the borrow error if borrowing fails, otherwise the peer's answer |
| Cluster.NodeList | cluster/cluster_database.go:41-45 | the peers in order, then self |
| Cluster.PlanRename | cluster/rename.go:8-24 | three words are needed; keys owned by different nodes are refused; otherwise the line goes to the owner of both |
| Cluster.RenameOwnsBoth | cluster/rename.go:13-23 | on a non-empty ring the rename goes to a node on the ring |
| Cluster.AggregateFlush | cluster/flushdb.go:9-22 | OK exactly when every reply is answerable and not an error; an error reply gives "error occurs: " and its text; a panic only when some reply is unanswerable |
| Cluster.RelayedLinesPlaced | cluster/com.go:55-56 | a peer that replays the relayed SELECT and command runs the command in the relaying connection's DB |
| Cluster.SelfOnRing | cluster/cluster_database.go:45-46 | self, added last, is bound to itself on the ring |
| Cluster.EveryNodeOnRing | cluster/cluster_database.go:46 | every non-empty node name has its hash on the ring |
| Cluster.LastSameHash | lib/consistenthash/consistenthash.go:43 | the last node with the same hash as a given one, which stays bound |
| Cluster.ClusterDatabase.constructor | cluster/cluster_database.go:34-40 | the node's fields, and nothing relayed |
| Cluster.ClusterDatabase.GetPeerClient | cluster/com.go:16-30 | an unknown peer is an error, a borrow failure is returned, otherwise one more client is borrowed |
| Cluster.ClusterDatabase.ReturnPeerClient | cluster/com.go:33-39 | an unknown peer is an error; otherwise one client goes back to its pool |
| Cluster.ClusterDatabase.Send | resp/client/client.go:121-140 | the line is sent over the peer's pool and the peer's answer returned |
| Cluster.ClusterDatabase.Relay | cluster/com.go:43-57 | to self the local server runs the line, and the reply is nil exactly when that Exec panics, never an empty reply; to a peer the SELECT of the connection's index and the line are sent, the answer is PeerReply, and no local DB or AOF queue changes |
| Cluster.ClusterDatabase.Broadcast | cluster/com.go:60-67 | one relay per node in list order; the result has one entry per node, the peer's reply for each peer; for a line other than SELECT the connection keeps its DB, and self's entry is nil exactly when the local Exec panics |
| Cluster.ClusterDatabase.FlushDB | cluster/flushdb.go:9-22 | never OK when some peer answers with an error or cannot be reached; the result is OK or an "error occurs" error, never UnknownErrReply; it panics only when the local Exec gives nil or a peer's reply is empty, and surely does when the local Exec gives nil and no peer answers an error |
| Cluster.ClusterDatabase.Rename | cluster/rename.go:8-24 | a refused rename relays nothing and changes no pool, connection, DB or AOF queue; otherwise exactly one relay, to the owner of both keys, with Relay's outcome: the local Exec when that is self, else the peer's reply, with SELECT and the line sent on its pool |
| Cluster.ClusterDatabase.Exec | cluster/cluster_database.go:69-83 | the empty line gives UnknownErrReply; an unknown name is the "not supported in cluster mode" error; a local line has the standalone server's SELECT replies and dispatch; a refused rename has its refusal; FLUSHDB answers OK or an error, never OK when a peer fails, and UnknownErrReply (the recovered panic) exactly in the cases FlushDB panics in; the empty line, an unknown name and a refused rename change no pool, connection DB, dispatched line, DB or AOF queue |
| Cluster.MakeClusterDatabase | cluster/cluster_database.go:33-56 | the local server, booted as NewStandaloneDatabase boots (a panic on a negative count), a CRC-32 ring over the peers and self, and one fresh pool per peer |
| Cluster.AppendSelf | cluster/cluster_database.go:41-45 | the node list loop gives the peers, then self |
| Cluster.NewPools | cluster/cluster_database.go:48-53 | one fresh pool per peer, none for any other name |

## Left out

- Concurrency is not modelled. The AOF writer goroutine, the channel between
  the parser and its reader, and the connection's lock and wait group are
  left out. The writer drains the whole queue in one call to `HandleAof`.
  A parser panic, after which the channel is never closed, is the `Deadlocked`
  start-up outcome. Go's deadlock detector, which then aborts the process,
  is not modelled.
- I/O is not modelled. Files, sockets, logging and `config.Properties` are
  out. The file is a byte sequence. Whether a read, write or open fails is
  a parameter. A partial write is treated as a failed one.
- `aofQueueSize` is not modelled: the queue has no bound, so `AddAof` never
  blocks.
- `database/db.go` is not part of this model. `DB.Exec` is reconstructed from
  the command table and its arity convention. Its unknown-command text,
  `Removes`, and the `ToCmdLine2` line the DB logs (the command name followed
  by the arguments) follow how `keys.go` uses them.
- `resp/reply/errors.go` is not part of this model. `UnknownErrReply` and
  `MakeArgNumErrReply` are error replies, with the texts `ERR unknown` and
  `ERR wrong number of arguments for '<cmd>' command`.
- `makeRouter` is not part of this model. The router is a parameter of
  `Cluster.ClusterDatabase.Exec`, mapping names to three kinds of handler:
  the local server (ping, select), RENAME and FLUSHDB.
- The connection pool and the peer client are not modelled beyond what
  `relay` observes. A pool records the lines sent and the clients borrowed.
  The peer's answers and a borrow failure come from an environment function.
  The "connection factory make wrong type" error cannot happen, because a
  pool only makes clients. Returning a client to a pool with none borrowed
  is excluded by a precondition.
- Peers are not modelled as servers with state. `Cluster.RelayedLinesPlaced`
  states what a standalone peer does with a relayed line.
- `Close` and `AfterClientClose` are not modelled. Their bodies are empty on
  the standalone server, and the cluster only delegates to it.
- `SyncDict.ForEach`, `RandomKeys` and `RandomDistinctKeys` are not modelled:
  they depend on `sync.Map`'s iteration order and on randomness. `Keys` and
  the loops over the dictionary pick any key not yet visited.
- `CompilePattern` ranges over the runes of its Go string, truncating each to
  a byte. Decoding UTF-8 is not modelled: the pattern is a sequence of
  `char`, each already a rune.
- Floating point, the `time` package and the heartbeat of the peer client do
  not occur in the modelled code.
- Parser.Step: the inputs on which `parse0` panics are a `Crash` result,
  not a precondition. Those inputs are the one-byte line "\n", an empty
  line in a multi-bulk body, and a body length whose `bulkLen+2` is above
  2^48 (the largest slice `make` accepts on a 64-bit platform) or wraps
  negative. `recover` logs the panic and sends nothing more.
- A body length below 2^48 whose allocation exhausts memory is a fatal,
  unrecoverable error of the Go runtime. It is not modelled: such a body is
  read like any other.
- Wire.ToLower: folds ASCII capitals only. Go's `strings.ToLower` decodes
  UTF-8, also folds non-ASCII letters (the Kelvin sign U+212A becomes `k`),
  and replaces invalid UTF-8 bytes with U+FFFD, which can change the length.
  Command names with such bytes are not modelled.
- ParserProperties.RoundTrip: a body starting with `$` is excluded. It is read
  as a header (`DollarBodyIsReadAsHeader`). An empty element is also excluded:
  before the last element it crashes the parser (`EmptyElementCrashes`); as
  the last element it completes the reply, and its CRLF then comes out as an
  extra empty payload (`LastEmptyElement`). An empty bulk is excluded too: it
  is written as "$-1" without CRLF. A bulk or element longer than 2^48 - 2
  bytes is excluded, because its allocation panics (`HugeBulkCrashes`).
- Standalone.StandaloneDatabase.Exec: when a line reaches a DB, the reply is
  whatever `DB.Exec` returns; this contract does not restate it.
  - A negative SELECT index is accepted and stored.
  - The next command then panics when indexing the DB list. The model
    answers `None`, the nil result of `recover`.
- Database.DB.Exec: states the unknown-name and arity cases and PING. Any
  other command that is run is specified by the contract of its `Exec*`
  method.
- Database.ExecKeys: the order of the listed keys is not stated, because it
  is the iteration order of `sync.Map`.
- Cluster.ClusterDatabase.Broadcast: the value of self's entry is stated
  only as nil or not. Its full value is the local `Exec` result, which
  `Relay` describes through `PlaceLine`.
- Cluster.ClusterDatabase.FlushDB: which error a flush with several failing
  replies returns is not stated, because `flushDB` visits the replies in map
  order. For the same reason, a local nil reply beside an erroring peer may
  panic or give the error.
- Cluster.ClusterDatabase.Exec: a relayed rename is stated by `Rename`, not
  by this contract. For a local line other than SELECT, the reply is only
  known to be nil exactly when the connection's index is not a DB; the
  reply itself is `DB.Exec`'s.
- Some loop bodies are extracted as helper methods so that each proof stays
  small: `ReplayPayload`, `WriteRecordToFile`, `MakeDBs`, `InstallHandler`,
  `AppendSelf`, `NewPools`, `SwapDown`, `Bounds` and `FillRow`.
- `ConsistentHash.ChecksumIEEE` is computed bit by bit from the reflected
  polynomial. Go's table-driven implementation is not modelled.

## Findings

| source | as written | input that shows it | evidently intended | confidence | as-written member | corrected member |
|---|---|---|---|---|---|---|
| aof/aof.go:67 | The writer starts with `currentDB = 0` after the old log has been replayed. It writes no SELECT before a record for DB 0. | An existing log "SELECT 1; DEL a", then DEL b run in DB 0 and appended. On the next start DEL b replays in DB 1. | Records appended after a restart replay in the DB they ran in. For that, the writer must emit a SELECT before its first record (start with `currentDB = -1`). | not executed | Aof.AofHandler.StartWriting, Standalone.NewStandaloneDatabase, Standalone.RestartMisplaces | Aof.AofHandler.StartWritingSelected, Standalone.NewStandaloneDatabaseSelected, Standalone.RestartPlaced |

=== FILE: aof.dfy ===
/**
 * The append-only file of aof/aof.go. AddAof queues (dbIndex, cmdLine)
 * records; the writer turns the queue into the log, inserting a SELECT
 * frame whenever a record's database differs from the one it last selected;
 * LoadAof parses the log back into the command lines that replay executes.
 * The file is a byte sequence, the channel a sequence of records, and the
 * outcome of each file write a parameter.
 */
module Aof {
  import opened Wrappers
  import opened Wire
  import opened Replies
  import opened Parser
  import opened ParserProperties

  /** payload of aof.go: a command line and the index of the database it ran in. */
  datatype Record = Record(cmdLine: CmdLine, dbIndex: int)

  /** Whether the file write of a record's SELECT frame fails, and whether that of its command frame fails. */
  datatype Fault = Fault(selectFails: bool, cmdFails: bool)

  /** The fault of the i-th record drained; records past the list write without error. */
  function FaultAt(faults: seq<Fault>, i: nat): Fault
  {
    if i < |faults| then faults[i] else Fault(false, false)
  }

  /** utils.ToCmdLine("SELECT", strconv.Itoa(db)). */
  function SelectLine(db: int): CmdLine
  {
    ["SELECT", FormatInt(db)]
  }

  /**
   * What the writer has produced: the command lines whose frames reached
   * the file, the records whose command frame reached it, and currentDB.
   */
  datatype Written = Written(lines: seq<CmdLine>, kept: seq<Record>, db: int)

  /** One turn of handleAof's loop on record rec with currentDB db. */
  function WriteRecord(rec: Record, fault: Fault, db: int): Written
  {
    if rec.dbIndex != db then
      if fault.selectFails then Written([], [], db)
      else if fault.cmdFails then Written([SelectLine(rec.dbIndex)], [], rec.dbIndex)
      else Written([SelectLine(rec.dbIndex), rec.cmdLine], [rec], rec.dbIndex)
    else if fault.cmdFails then Written([], [], db)
    else Written([rec.cmdLine], [rec], db)
  }

  /** handleAof over the records recs, in queue order, starting with currentDB db. */
  function WriteLog(recs: seq<Record>, faults: seq<Fault>, db: int): Written
    decreases |recs|
  {
    if recs == [] then Written([], [], db)
    else
      var w := WriteLog(recs[..|recs| - 1], faults, db);
      var r := WriteRecord(recs[|recs| - 1], FaultAt(faults, |recs| - 1), w.db);
      Written(w.lines + r.lines, w.kept + r.kept, r.db)
  }

  /** The frames of command lines, one after another. */
  function Frames(lines: seq<CmdLine>): Bytes
  {
    if lines == [] then [] else CmdFrame(lines[0]) + Frames(lines[1..])
  }

  lemma {:induction false} FramesAppend(a: seq<CmdLine>, b: seq<CmdLine>)
    ensures Frames(a + b) == Frames(a) + Frames(b)
    decreases |a|
  {
    if a == [] {
      assert a + b == b;
    } else {
      assert (a + b)[1..] == a[1..] + b;
      FramesAppend(a[1..], b);
    }
  }

  /** A drained payload's contribution to replay: the arguments of a multi-bulk reply. */
  function Replayed(p: Payload): seq<CmdLine>
  {
    if p.err.Some? || p.data.None? then []
    else
      match p.data.value
      case MultiBulk(args) => [ReceivedAll(args)]
      case _ => []
  }

  /**
   * The command lines LoadAof executes for the payloads ps, in order: it
   * stops at io.EOF and skips other errors, empty payloads and replies
   * other than multi-bulk ones.
   */
  function Replay(ps: seq<Payload>): seq<CmdLine>
  {
    if ps == [] then []
    else if ps[0].err == Some(Io(EOF)) then []
    else Replayed(ps[0]) + Replay(ps[1..])
  }

  /** parse0 closes its channel right after an I/O error payload, and only then. */
  predicate ClosesChannel(ps: seq<Payload>)
  {
    exists i :: 0 <= i < |ps| && IsIoPayload(ps[i])
  }

  class AofHandler {
    /** config.Properties.AppendOnly. */
    var appendOnly: bool
    /** aofChan != nil. */
    var queueOpen: bool
    /** The records in aofChan, oldest first. */
    var queue: seq<Record>
    /** The contents of the append-only file. */
    var file: Bytes
    var currentDB: int

    /** &AofHandler{} over an existing file: no queue yet. */
    constructor (appendOnly: bool, file: Bytes)
      ensures this.appendOnly == appendOnly && this.file == file
      ensures !queueOpen && queue == [] && currentDB == 0
    {
      this.appendOnly := appendOnly;
      this.file := file;
      queueOpen := false;
      queue := [];
      currentDB := 0;
    }

    /** The queue once AddAof(dbIndex, cmdLine) has run. */
    function Queued(dbIndex: int, cmdLine: CmdLine): seq<Record>
      reads this
    {
      if appendOnly && queueOpen then queue + [Record(cmdLine, dbIndex)] else queue
    }

    /** Everything but the queue. */
    function Settings(): (bool, bool, Bytes, int)
      reads this
    {
      (appendOnly, queueOpen, file, currentDB)
    }

    /** AddAof: queue the record only when append-only is on and the queue exists. */
    method AddAof(dbIndex: int, cmdLine: CmdLine)
      modifies this
      ensures queue == old(Queued(dbIndex, cmdLine)) && Settings() == old(Settings())
    {
      if appendOnly && queueOpen {
        queue := queue + [Record(cmdLine, dbIndex)];
      }
    }

    /**
     * The end of NewAOFHandler, after the replay: the queue is created and
     * the writer starts with currentDB 0.
     */
    method StartWriting()
      modifies this
      ensures queueOpen && queue == [] && currentDB == 0
      ensures appendOnly == old(appendOnly) && file == old(file)
    {
      queueOpen := true;
      queue := [];
      currentDB := 0;
    }

    /**
     * StartWriting with the writer's first record always preceded by a
     * SELECT frame: currentDB starts at -1, which no record's index equals.
     */
    method StartWritingSelected()
      modifies this
      ensures queueOpen && queue == [] && currentDB == -1
      ensures appendOnly == old(appendOnly) && file == old(file)
    {
      queueOpen := true;
      queue := [];
      currentDB := -1;
    }

    /**
     * handleAof over every queued record: a record for another database
     * gets a SELECT frame first, and is skipped if that write fails; a
     * failed write of the command frame is only logged.
     */
    method HandleAof(faults: seq<Fault>)
      modifies this
      ensures var w := WriteLog(old(queue), faults, old(currentDB));
              file == old(file) + Frames(w.lines) && currentDB == w.db
      ensures queue == [] && appendOnly == old(appendOnly) && queueOpen == old(queueOpen)
    {
      var q := queue;
      ghost var start := currentDB;
      var i := 0;
      while i < |q|
        invariant 0 <= i <= |q|
        invariant file == old(file) + Frames(WriteLog(q[..i], faults, start).lines)
        invariant currentDB == WriteLog(q[..i], faults, start).db
        invariant appendOnly == old(appendOnly) && queueOpen == old(queueOpen)
      {
        ghost var before := file;
        WriteRecordToFile(q[i], FaultAt(faults, i));
        LogAdvance(q, faults, start, i, old(file), before, file);
        i := i + 1;
      }
      assert q[..i] == q;
      queue := [];
    }

    /** The body of handleAof's loop for one record p. */
    method WriteRecordToFile(p: Record, fault: Fault)
      modifies this
      ensures var r := WriteRecord(p, fault, old(currentDB));
              file == old(file) + Frames(r.lines) && currentDB == r.db
      ensures queue == old(queue) && appendOnly == old(appendOnly) && queueOpen == old(queueOpen)
    {
      ghost var r := WriteRecord(p, fault, currentDB);
      if p.dbIndex != currentDB {
        if fault.selectFails {
          return;
        }
        file := file + CmdFrame(SelectLine(p.dbIndex));
        currentDB := p.dbIndex;
      }
      if !fault.cmdFails {
        file := file + CmdFrame(p.cmdLine);
      }
      FramesOfWritten(r.lines);
    }

    /**
     * LoadAof: replays nothing when the file cannot be opened; otherwise
     * the command lines parsed from the file, in order. closed says whether
     * the loop ends: the channel is only closed after an I/O error, so
     * after a parser panic the loop blocks on a channel nobody closes.
     */
    method LoadAof(openFails: bool) returns (cmds: seq<CmdLine>, closed: bool)
      ensures openFails ==> cmds == [] && closed
      ensures !openFails ==> cmds == Replay(Parse(file)) && (closed <==> ClosesChannel(Parse(file)))
    {
      cmds, closed := [], true;
      if openFails {
        return;
      }
      var ps := ParseStream(file);
      closed := false;
      var i := 0;
      while i < |ps|
        invariant 0 <= i <= |ps|
        invariant cmds + Replay(ps[i..]) == Replay(ps)
        invariant closed <==> ClosesChannel(ps[..i])
      {
        var lines, io, eof := ReplayPayload(ps[i]);
        ReplayStep(ps, i);
        if eof {
          closed := true;
          EofCloses(ps, i);
          return;
        }
        ReplayAdvance(ps, i, cmds, lines);
        cmds := cmds + lines;
        closed := closed || io;
        i := i + 1;
      }
      assert ps[..i] == ps;
    }
  }

  /** The body of LoadAof's loop for one payload p: the lines it replays, whether it is an I/O error, and whether that error is io.EOF. */
  method ReplayPayload(p: Payload) returns (lines: seq<CmdLine>, io: bool, eof: bool)
    ensures lines == Replayed(p) && io == IsIoPayload(p) && eof == (p.err == Some(Io(EOF)))
  {
    lines, io, eof := [], false, false;
    if p.err.Some? {
      io := p.err.value.Io?;
      eof := p.err.value == Io(EOF);
    } else if p.data.Some? {
      match p.data.value {
        case MultiBulk(args) =>
          lines := [ReceivedAll(args)];
        case _ =>
      }
    }
  }

  /** The writer's output over one more record. */
  lemma WriteLogStep(q: seq<Record>, faults: seq<Fault>, start: int, i: nat)
    requires i < |q|
    ensures var w := WriteLog(q[..i], faults, start);
            var r := WriteRecord(q[i], FaultAt(faults, i), w.db);
            WriteLog(q[..i + 1], faults, start) == Written(w.lines + r.lines, w.kept + r.kept, r.db)
  {
    assert q[..i + 1][..i] == q[..i];
  }

  /** The loop invariant of handleAof carried past record i: the file grows by that record's frames. */
  lemma LogAdvance(q: seq<Record>, faults: seq<Fault>, start: int, i: nat, base: Bytes, before: Bytes, after: Bytes)
    requires i < |q|
    requires before == base + Frames(WriteLog(q[..i], faults, start).lines)
    requires after == before + Frames(WriteRecord(q[i], FaultAt(faults, i), WriteLog(q[..i], faults, start).db).lines)
    ensures after == base + Frames(WriteLog(q[..i + 1], faults, start).lines)
    ensures WriteLog(q[..i + 1], faults, start).db == WriteRecord(q[i], FaultAt(faults, i), WriteLog(q[..i], faults, start).db).db
  {
    var w := WriteLog(q[..i], faults, start);
    var r := WriteRecord(q[i], FaultAt(faults, i), w.db);
    WriteLogStep(q, faults, start, i);
    FramesExtend(base, w.lines, r.lines, before, after);
  }

  /** Appending the frames of b to a file holding base and the frames of a. */
  lemma FramesExtend(base: Bytes, a: seq<CmdLine>, b: seq<CmdLine>, before: Bytes, after: Bytes)
    requires before == base + Frames(a) && after == before + Frames(b)
    ensures after == base + Frames(a + b)
  {
    FramesAppend(a, b);
    Associative(base, Frames(a), Frames(b));
  }

  /** A proof helper, not a property of the source: sequence concatenation is associative. */
  lemma Associative<T>(x: seq<T>, y: seq<T>, z: seq<T>)
    ensures (x + y) + z == x + (y + z)
  {
  }

  /** Frames of the one or two lines a record writes. */
  lemma FramesOfWritten(lines: seq<CmdLine>)
    ensures |lines| == 1 ==> Frames(lines) == CmdFrame(lines[0])
    ensures |lines| == 2 ==> Frames(lines) == CmdFrame(lines[0]) + CmdFrame(lines[1])
  {
    if |lines| == 2 {
      assert lines[1..][1..] == [];
    }
  }

  /** Replay of the payloads from index i: the i-th payload's lines, then the rest, unless it is io.EOF. */
  lemma ReplayStep(ps: seq<Payload>, i: nat)
    requires i < |ps|
    ensures ps[i].err == Some(Io(EOF)) ==> Replay(ps[i..]) == []
    ensures ps[i].err != Some(Io(EOF)) ==> Replay(ps[i..]) == Replayed(ps[i]) + Replay(ps[i + 1..])
    ensures ClosesChannel(ps[..i + 1]) <==> ClosesChannel(ps[..i]) || IsIoPayload(ps[i])
  {
    assert ps[i..][1..] == ps[i + 1..];
    assert ps[..i + 1][..i] == ps[..i];
    if IsIoPayload(ps[i]) {
      assert ps[..i + 1][i] == ps[i];
    }
  }

  /** The loop invariant of LoadAof carried past payload i. */
  lemma ReplayAdvance(ps: seq<Payload>, i: nat, cmds: seq<CmdLine>, lines: seq<CmdLine>)
    requires i < |ps| && ps[i].err != Some(Io(EOF)) && lines == Replayed(ps[i])
    requires cmds + Replay(ps[i..]) == Replay(ps)
    ensures (cmds + lines) + Replay(ps[i + 1..]) == Replay(ps)
  {
    ReplayStep(ps, i);
    assert cmds + (lines + Replay(ps[i + 1..])) == (cmds + lines) + Replay(ps[i + 1..]);
  }

  /** An io.EOF payload closes the channel. */
  lemma EofCloses(ps: seq<Payload>, i: nat)
    requires i < |ps| && ps[i].err == Some(Io(EOF))
    ensures ClosesChannel(ps)
  {
    assert IsIoPayload(ps[i]);
  }

  /** A command line the parser reads back unchanged: non-empty, a count that fits, every argument a RoundTripArg. */
  predicate Replayable(line: CmdLine)
  {
    0 < |line| <= MaxUint32 && forall i :: 0 <= i < |line| ==> RoundTripArg(line[i])
  }

  predicate AllReplayable(lines: seq<CmdLine>)
  {
    forall i :: 0 <= i < |lines| ==> Replayable(lines[i])
  }

  /** The payload the parser sends for the frame of a command line. */
  function LinePayload(line: CmdLine): Payload
  {
    DataPayload(MultiBulk(Elements(line)))
  }

  /** The frame of a replayable line parses back as one multi-bulk payload holding the line. */
  lemma FrameParsed(line: CmdLine, rest: Bytes)
    requires Replayable(line)
    ensures Run(Zero, CmdFrame(line) + rest) == [LinePayload(line)] + Run(Zero, rest)
  {
    var args := Elements(line);
    forall i | 0 <= i < |args|
      ensures RoundTripElement(args[i])
    {
      assert args[i] == Some(line[i]);
    }
    RoundTrip(MultiBulk(args), rest);
    assert ReceivedAll(args) == line;
  }

  /** LoadAof executes the line of a multi-bulk payload; such a payload does not close the channel. */
  lemma LinePayloadReplayed(line: CmdLine, ps: seq<Payload>)
    ensures Replay([LinePayload(line)] + ps) == [line] + Replay(ps)
    ensures ClosesChannel([LinePayload(line)] + ps) <==> ClosesChannel(ps)
  {
    var p := LinePayload(line);
    assert ([p] + ps)[1..] == ps;
    assert ReceivedAll(Elements(line)) == line;
    if ClosesChannel([p] + ps) {
      var i :| 0 <= i < |[p] + ps| && IsIoPayload(([p] + ps)[i]);
      assert IsIoPayload(ps[i - 1]);
    }
    if ClosesChannel(ps) {
      var i :| 0 <= i < |ps| && IsIoPayload(ps[i]);
      assert IsIoPayload(([p] + ps)[i + 1]);
    }
  }

  /** Replay over the payload of the first line, then payloads that replay the other lines. */
  lemma ReplayThrough(lines: seq<CmdLine>, whole: seq<Payload>, ps: seq<Payload>, after: seq<CmdLine>)
    requires lines != [] && whole == [LinePayload(lines[0])] + ps
    requires Replay(ps) == lines[1..] + after
    ensures Replay(whole) == lines + after
  {
    LinePayloadReplayed(lines[0], ps);
    assert lines == [lines[0]] + lines[1..];
    Associative([lines[0]], lines[1..], after);
  }

  /** The frames of a non-empty list of lines, then further bytes. */
  lemma FramesCons(lines: seq<CmdLine>, rest: Bytes)
    requires lines != []
    ensures Frames(lines) + rest == CmdFrame(lines[0]) + (Frames(lines[1..]) + rest)
  {
    Associative(CmdFrame(lines[0]), Frames(lines[1..]), rest);
  }

  /** LoadAof executes the frames of replayable lines, then whatever the further bytes give. */
  lemma {:induction false} FramesReplayed(lines: seq<CmdLine>, rest: Bytes)
    requires AllReplayable(lines)
    ensures Replay(Run(Zero, Frames(lines) + rest)) == lines + Replay(Run(Zero, rest))
    decreases |lines|
  {
    if lines == [] {
      assert Frames(lines) + rest == rest;
    } else {
      var more := Frames(lines[1..]) + rest;
      FramesCons(lines, rest);
      FrameParsed(lines[0], more);
      FramesReplayed(lines[1..], rest);
      ReplayThrough(lines, Run(Zero, Frames(lines) + rest), Run(Zero, more), Replay(Run(Zero, rest)));
    }
  }

  /** The frames of replayable lines leave the channel open; only the further bytes can close it. */
  lemma {:induction false} FramesKeepOpen(lines: seq<CmdLine>, rest: Bytes)
    requires AllReplayable(lines)
    ensures ClosesChannel(Run(Zero, Frames(lines) + rest)) <==> ClosesChannel(Run(Zero, rest))
    decreases |lines|
  {
    if lines == [] {
      assert Frames(lines) + rest == rest;
    } else {
      var more := Frames(lines[1..]) + rest;
      FramesCons(lines, rest);
      FrameParsed(lines[0], more);
      FramesKeepOpen(lines[1..], rest);
      LinePayloadReplayed(lines[0], Run(Zero, more));
    }
  }

  /** Replaying a log of replayable lines executes exactly those lines, and the loop ends. */
  lemma LogReplayed(lines: seq<CmdLine>)
    requires AllReplayable(lines)
    ensures Replay(Parse(Frames(lines))) == lines
    ensures ClosesChannel(Parse(Frames(lines)))
  {
    FramesReplayed(lines, []);
    FramesKeepOpen(lines, []);
    assert Frames(lines) + [] == Frames(lines);
    EndOfInputEnds(Zero);
    assert IsIoPayload(Run(Zero, [])[0]);
  }

  /** The SELECT line of a database index is replayable. */
  lemma SelectLineReplayable(db: int)
    requires 0 <= db < MaxInt64
    ensures Replayable(SelectLine(db))
  {
    assert Pow10(19) > MaxInt64 by {
      assert Pow10(3) == 1000;
      assert Pow10(6) == 1000_000;
      assert Pow10(9) == 1000_000_000;
      assert Pow10(12) == 1000_000_000_000;
      assert Pow10(15) == 1000_000_000_000_000;
      assert Pow10(18) == 1000_000_000_000_000_000;
    }
    DecimalLength(db, 19);
    var line := SelectLine(db);
    assert RoundTripArg(line[0]);
    assert line[1][0] != '$' by { assert IsDigit(line[1][0]); }
  }

  /** The lines one turn of the writer produces from a replayable record are replayable. */
  lemma RecordReplayable(rec: Record, fault: Fault, db: int)
    requires Replayable(rec.cmdLine) && 0 <= rec.dbIndex < MaxInt64
    ensures AllReplayable(WriteRecord(rec, fault, db).lines)
  {
    SelectLineReplayable(rec.dbIndex);
  }

  /** Every line the writer produces from replayable records is replayable. */
  lemma {:induction false} WrittenReplayable(recs: seq<Record>, faults: seq<Fault>, db: int)
    requires forall i :: 0 <= i < |recs| ==> Replayable(recs[i].cmdLine) && 0 <= recs[i].dbIndex < MaxInt64
    ensures AllReplayable(WriteLog(recs, faults, db).lines)
    decreases |recs|
  {
    if recs != [] {
      var last := recs[|recs| - 1];
      var w := WriteLog(recs[..|recs| - 1], faults, db);
      var r := WriteRecord(last, FaultAt(faults, |recs| - 1), w.db);
      WrittenReplayable(recs[..|recs| - 1], faults, db);
      RecordReplayable(last, FaultAt(faults, |recs| - 1), w.db);
      var lines := w.lines + r.lines;
      forall i | 0 <= i < |lines|
        ensures Replayable(lines[i])
      {
        if i < |w.lines| {
          assert lines[i] == w.lines[i];
        } else {
          assert lines[i] == r.lines[i - |w.lines|];
        }
      }
    }
  }
}

=== FILE: cluster.dfy ===
/**
 * The cluster node of cluster/: a local standalone server, a consistent
 * hash ring over every node, and one connection pool per peer. A pool is a
 * value holding the command lines sent over its clients and the number of
 * clients borrowed; what a peer answers, and whether borrowing a client
 * fails, come from an environment function.
 */
module Cluster {
  import opened Wrappers
  import opened Wire
  import opened Replies
  import opened Aof
  import opened Connection
  import opened ConsistentHash
  import opened Standalone

  /** A peer's connection pool: the command lines sent over its clients, in order, and the clients borrowed. */
  datatype Pool = Pool(sent: seq<CmdLine>, active: nat)

  /**
   * What the outside world does when a command is relayed to a peer: the
   * error BorrowObject returns, if any, and the peer's answers to the
   * SELECT line and to the command.
   */
  datatype PeerOutcome = PeerOutcome(borrowErr: Option<Bytes>, selectAnswer: Reply, answer: Reply)

  /** The handlers of the router table: ping and select run on the local server, rename and flushdb as below. */
  datatype Route = LocalRoute | RenameRoute | FlushDBRoute

  /** flushDB's result, or the panic that IsErrorReply raises on a nil reply or one that serialises to nothing. */
  datatype Flushed = Flushed(reply: Reply) | Panic

  const FactoryNotFound: Bytes := "connection factory not found"

  /**
   * Rename's reply for keys owned by different nodes, one text written in
   * pieces short enough for the verifier to check that each is bytes.
   */
  const CrossSlotErr: Bytes := "ERR rename must " + "within one slot " + "in cluster mode"

  /** The reply relay gives for a peer other than self, with known saying whether the peer has a pool. */
  function PeerReply(known: bool, o: PeerOutcome): (r: Reply)
    ensures !known ==> r == Error(FactoryNotFound)
    ensures known && o.borrowErr.Some? ==> r == Error(o.borrowErr.value)
    ensures known && o.borrowErr.None? ==> r == o.answer
  {
    if !known then Error(FactoryNotFound)
    else if o.borrowErr.Some? then Error(o.borrowErr.value)
    else o.answer
  }

  /** The node names: the peers in order, then self. */
  function NodeList(peers: seq<Bytes>, self: Bytes): (nodes: seq<Bytes>)
    ensures |nodes| == |peers| + 1 && nodes[|peers|] == self
    ensures forall i :: 0 <= i < |peers| ==> nodes[i] == peers[i]
  {
    peers + [self]
  }

  /** Rename's decision: refuse with an error reply, or relay the line to one node. */
  datatype RenamePlan = Refuse(reply: Reply) | RelayTo(node: Bytes)

  /**
   * Rename: a line of other than three words is refused with the arity
   * error; two keys owned by different nodes are refused; otherwise the
   * line goes to the node that owns both.
   */
  function PlanRename(ring: NodeMap, args: CmdLine): (p: RenamePlan)
    reads ring
    ensures |args| != 3 ==> p == Refuse(ArgNumErr("rename"))
    ensures p.RelayTo? <==> |args| == 3 && ring.PickNode(args[1]) == ring.PickNode(args[2])
    ensures p.RelayTo? ==> p.node == ring.PickNode(args[1]) && p.node == ring.PickNode(args[2])
    ensures p.Refuse? && |args| == 3 ==> p.reply == Error(CrossSlotErr)
  {
    if |args| != 3 then Refuse(ArgNumErr("rename"))
    else
      var srcPeer := ring.PickNode(args[1]);
      var destPeer := ring.PickNode(args[2]);
      if srcPeer != destPeer then Refuse(Error(CrossSlotErr))
      else RelayTo(srcPeer)
  }

  /**
   * On a valid non-empty ring a rename is relayed to a node of the ring,
   * the successor of the hashes of both keys.
   */
  lemma RenameOwnsBoth(ring: NodeMap, args: CmdLine)
    requires ring.Valid() && ring.nodeHashs != []
    ensures var p := PlanRename(ring, args);
            p.RelayTo? ==>
              p.node != [] && p.node in ring.nodehashMap.Values
              && IsSuccessor(ring.nodeHashs, ring.hashFunc(args[1]), ring.hashFunc(p.node))
              && IsSuccessor(ring.nodeHashs, ring.hashFunc(args[2]), ring.hashFunc(p.node))
  {
  }

  /** Whether IsErrorReply can be asked of a relay result without a panic. */
  predicate Answerable(v: Option<Reply>)
  {
    v.Some? && ToBytes(v.value) != []
  }

  /**
   * flushDB's loop over the broadcast replies, visiting them in map order:
   * the first erroring reply makes the result, an unanswerable reply before
   * it panics, and with no erroring reply the result is OK.
   */
  method AggregateFlush(replies: map<Bytes, Option<Reply>>) returns (r: Flushed)
    ensures r == Flushed(Ok) <==> forall n :: n in replies ==> Answerable(replies[n]) && !replies[n].value.Error?
    ensures r.Flushed? && r.reply != Ok ==>
              exists n :: n in replies && replies[n].Some? && replies[n].value.Error?
                && r.reply == Error("error occurs: " + ErrorText(replies[n].value))
    ensures r == Panic ==> exists n :: n in replies && !Answerable(replies[n])
  {
    var unvisited := replies.Keys;
    while unvisited != {}
      invariant unvisited <= replies.Keys
      invariant forall n :: n in replies && n !in unvisited ==> Answerable(replies[n]) && !replies[n].value.Error?
      decreases unvisited
    {
      var n :| n in unvisited;
      var v := replies[n];
      if v.None? || |ToBytes(v.value)| == 0 {
        return Panic;
      }
      if IsErrorReply(v.value) {
        return Flushed(Error("error occurs: " + ErrorText(v.value)));
      }
      unvisited := unvisited - {n};
    }
    r := Flushed(Ok);
  }

  /**
   * A relayed command, as a peer running the standalone server replays it:
   * the SELECT line moves the peer's connection to the relaying
   * connection's index, so the command runs in the DB with that index,
   * whatever the peer's connection held before.
   */
  lemma RelayedLinesPlaced(db: int, x: int, count: int, args: CmdLine)
    requires 0 <= db < count <= MaxInt64 && args != [] && !IsSelect(args)
    ensures Place([SelectLine(db), args], x, count) == Placement([Record(args, db)], db)
  {
    var lines: seq<CmdLine> := [SelectLine(db), args];
    var first: seq<CmdLine> := lines[..1];
    assert first == [SelectLine(db)] && first[..0] == [];
    SelectLineSelects(db, x, count);
    assert Place(first, x, count) == Placement([], db);
  }

  /** The last name AddNode binds, self in the cluster's node list, is bound to itself, so a key named after self lands on self. */
  lemma SelfOnRing(f: HashFunc, peers: seq<Bytes>, self: Bytes)
    requires self != []
    ensures var m := Bind(map[], f, NodeList(peers, self));
            f(self) in m && m[f(self)] == self
  {
    LaterNameWins(map[], f, NodeList(peers, self), |peers|);
  }

  /** Every non-empty node name has its hash on the ring. */
  lemma EveryNodeOnRing(f: HashFunc, nodes: seq<Bytes>)
    ensures forall i :: 0 <= i < |nodes| && nodes[i] != [] ==> f(nodes[i]) in Bind(map[], f, nodes)
  {
    forall i | 0 <= i < |nodes| && nodes[i] != []
      ensures f(nodes[i]) in Bind(map[], f, nodes)
    {
      var j := LastSameHash(f, nodes, i);
      LaterNameWins(map[], f, nodes, j);
    }
  }

  /** The last node at or after i whose hash equals that of node i. */
  function LastSameHash(f: HashFunc, nodes: seq<Bytes>, i: nat): (j: nat)
    requires i < |nodes| && nodes[i] != []
    ensures i <= j < |nodes| && nodes[j] != [] && f(nodes[j]) == f(nodes[i])
    ensures forall k :: j < k < |nodes| && nodes[k] != [] ==> f(nodes[k]) != f(nodes[j])
    decreases |nodes| - i
  {
    if exists k :: i < k < |nodes| && nodes[k] != [] && f(nodes[k]) == f(nodes[i]) then
      var k :| i < k < |nodes| && nodes[k] != [] && f(nodes[k]) == f(nodes[i]);
      LastSameHash(f, nodes, k)
    else i
  }

  class ClusterDatabase {
    const self: Bytes
    const nodes: seq<Bytes>
    const peerPicker: NodeMap
    /** peerConnection: one pool per configured peer. */
    var pools: map<Bytes, Pool>
    const db: StandaloneDatabase
    /** The nodes relay was called for, in order. */
    ghost var relays: seq<Bytes>

    ghost predicate Valid()
      reads this, peerPicker, db, db.dbSet
    {
      peerPicker.Valid() && db.Valid()
    }

    constructor (self: Bytes, nodes: seq<Bytes>, peerPicker: NodeMap, pools: map<Bytes, Pool>, db: StandaloneDatabase)
      ensures this.self == self && this.nodes == nodes && this.peerPicker == peerPicker
      ensures this.pools == pools && this.db == db && relays == []
    {
      this.self := self;
      this.nodes := nodes;
      this.peerPicker := peerPicker;
      this.pools := pools;
      this.db := db;
      relays := [];
    }

    /** getPeerClient: borrows a client of the peer's pool. */
    method GetPeerClient(peer: Bytes, borrowErr: Option<Bytes>) returns (err: Option<Bytes>)
      modifies this`pools
      ensures peer !in old(pools) ==> err == Some(FactoryNotFound) && pools == old(pools)
      ensures peer in old(pools) && borrowErr.Some? ==> err == borrowErr && pools == old(pools)
      ensures peer in old(pools) && borrowErr.None? ==>
                err.None? && pools == old(pools)[peer := old(pools)[peer].(active := old(pools)[peer].active + 1)]
    {
      if peer !in pools {
        return Some(FactoryNotFound);
      }
      if borrowErr.Some? {
        return borrowErr;
      }
      var p := pools[peer];
      pools := pools[peer := p.(active := p.active + 1)];
      err := None;
    }

    /** returnPeerClient: gives a borrowed client back to the peer's pool. */
    method ReturnPeerClient(peer: Bytes) returns (err: Option<Bytes>)
      requires peer in pools ==> pools[peer].active > 0
      modifies this`pools
      ensures peer !in old(pools) ==> err == Some(FactoryNotFound) && pools == old(pools)
      ensures peer in old(pools) ==>
                err.None? && pools == old(pools)[peer := old(pools)[peer].(active := old(pools)[peer].active - 1)]
    {
      if peer !in pools {
        return Some(FactoryNotFound);
      }
      var p := pools[peer];
      pools := pools[peer := p.(active := p.active - 1)];
      err := None;
    }

    /** Client.Send over a client of the peer's pool: the line is sent, and the peer's answer returned. */
    method Send(peer: Bytes, line: CmdLine, answer: Reply) returns (r: Reply)
      requires peer in pools
      modifies this`pools
      ensures r == answer
      ensures pools == old(pools)[peer := old(pools)[peer].(sent := old(pools)[peer].sent + [line])]
    {
      var p := pools[peer];
      pools := pools[peer := p.(sent := p.sent + [line])];
      r := answer;
    }

    /**
     * relay: to self, the local server executes the line on the caller's
     * connection; to a peer, a client is borrowed, SELECT of the
     * connection's index and then the line are sent on it, the client is
     * given back, and the answer to the line is the reply. None is the nil
     * reply of a local Exec that panicked.
     */
    method Relay(peer: Bytes, c: Connection, args: CmdLine, env: Bytes -> PeerOutcome) returns (r: Option<Reply>)
      requires Valid()
      modifies this`pools, this`relays, c, db`dispatched, db.Dicts(), db.aofHandler
      ensures Valid() && relays == old(relays) + [peer] && pools.Keys == old(pools).Keys
      ensures peer == self ==>
                pools == old(pools) && (r.None? <==> ExecNil(args, old(c.selectedDB), |db.dbSet|))
                && r != Some(NoReply)
                && var p := PlaceLine(args, old(c.selectedDB), |db.dbSet|);
                   db.dispatched == old(db.dispatched) + p.placed && c.selectedDB == p.db
      ensures peer != self ==>
                r == Some(PeerReply(peer in old(pools), env(peer)))
                && c.selectedDB == old(c.selectedDB) && db.dispatched == old(db.dispatched)
                && pools == (if peer in old(pools) && env(peer).borrowErr.None? then
                               old(pools)[peer := old(pools)[peer].(sent := old(pools)[peer].sent + [SelectLine(old(c.selectedDB)), args])]
                             else old(pools))
      ensures peer != self ==>
                (forall j :: 0 <= j < |db.dbSet| ==> db.dbSet[j].data.m == old(db.dbSet[j].data.m))
                && (db.aofHandler != null ==> db.aofHandler.queue == old(db.aofHandler.queue))
    {
      relays := relays + [peer];
      if peer == self {
        r := db.Exec(c, args);
        return;
      }
      var o := env(peer);
      var err := GetPeerClient(peer, o.borrowErr);
      if err.Some? {
        return Some(Error(err.value));
      }
      var dbIndex := c.GetDBIndex();
      ghost var before := pools[peer].sent;
      var _ := Send(peer, SelectLine(dbIndex), o.selectAnswer);
      var answer := Send(peer, args, o.answer);
      assert pools[peer].sent == before + [SelectLine(dbIndex), args];
      var _ := ReturnPeerClient(peer);
      r := Some(answer);
    }

    /**
     * broadcast: relays the line to every node in list order; the map has
     * one entry per node, the last relay's result for that node.
     */
    method Broadcast(c: Connection, args: CmdLine, env: Bytes -> PeerOutcome) returns (result: map<Bytes, Option<Reply>>)
      requires Valid()
      modifies this`pools, this`relays, c, db`dispatched, db.Dicts(), db.aofHandler
      ensures Valid() && relays == old(relays) + nodes && pools.Keys == old(pools).Keys
      ensures forall n :: n in result <==> n in nodes
      ensures forall n :: n in result && n != self ==> result[n] == Some(PeerReply(n in old(pools), env(n)))
      ensures !IsSelect(args) ==>
                c.selectedDB == old(c.selectedDB)
                && (self in result ==>
                      result[self] != Some(NoReply) && (result[self].None? <==> ExecNil(args, old(c.selectedDB), |db.dbSet|)))
    {
      result := map[];
      var i := 0;
      while i < |nodes|
        invariant 0 <= i <= |nodes| && Valid()
        invariant relays == old(relays) + nodes[..i] && pools.Keys == old(pools).Keys
        invariant forall n :: n in result <==> n in nodes[..i]
        invariant forall n :: n in result && n != self ==> result[n] == Some(PeerReply(n in old(pools), env(n)))
        invariant !IsSelect(args) ==>
                    c.selectedDB == old(c.selectedDB)
                    && (self in result ==>
                      result[self] != Some(NoReply) && (result[self].None? <==> ExecNil(args, old(c.selectedDB), |db.dbSet|)))
      {
        var node := nodes[i];
        var reply := Relay(node, c, args, env);
        result := result[node := reply];
        assert nodes[..i + 1] == nodes[..i] + [node];
        i := i + 1;
      }
      assert nodes[..i] == nodes;
    }

    /**
     * flushDB: broadcasts the line and aggregates the replies; a peer that
     * answers with an error, or cannot be reached, makes the result an
     * error or a panic, never OK. The result is OK or an "error occurs"
     * error; it panics (IsErrorReply on nil or on an empty reply) only when
     * the local Exec gives nil or a peer's reply is empty, and it surely
     * panics when the local Exec gives nil and no peer answers an error.
     */
    method FlushDB(c: Connection, args: CmdLine, env: Bytes -> PeerOutcome) returns (r: Flushed)
      requires Valid()
      modifies this`pools, this`relays, c, db`dispatched, db.Dicts(), db.aofHandler
      ensures Valid() && relays == old(relays) + nodes && pools.Keys == old(pools).Keys
      ensures (exists n :: n in nodes && n != self && PeerReply(n in old(pools), env(n)).Error?) ==> r != Flushed(Ok)
      ensures r.Flushed? ==> (r.reply == Ok || r.reply.Error?) && r.reply != UnknownErr
      ensures !IsSelect(args) && r == Panic ==>
                ExecNil(args, old(c.selectedDB), |db.dbSet|)
                || exists n :: n in nodes && n != self && PeerReply(n in old(pools), env(n)) == NoReply
      ensures !IsSelect(args) && self in nodes && ExecNil(args, old(c.selectedDB), |db.dbSet|)
              && (forall n :: n in nodes && n != self ==> !PeerReply(n in old(pools), env(n)).Error?) ==>
                r == Panic
    {
      var replies := Broadcast(c, args, env);
      r := AggregateFlush(replies);
      if r.Flushed? && r.reply != Ok {
        var n :| n in replies && replies[n].Some? && replies[n].value.Error?
                 && r.reply == Error("error occurs: " + ErrorText(replies[n].value));
        assert r.reply.status[0] == 'e';
      }
      if r == Panic && !IsSelect(args) {
        var n :| n in replies && !Answerable(replies[n]);
        assert n in nodes;
        if n != self {
          assert PeerReply(n in old(pools), env(n)) == NoReply;
        } else {
          assert replies[n].Some? ==> ToBytes(replies[n].value) == [];
        }
      }
    }

    /** Rename: relays the line to the node owning both keys, or refuses it. */
    method Rename(c: Connection, args: CmdLine, env: Bytes -> PeerOutcome) returns (r: Option<Reply>)
      requires Valid()
      modifies this`pools, this`relays, c, db`dispatched, db.Dicts(), db.aofHandler
      ensures Valid() && pools.Keys == old(pools).Keys
      ensures PlanRename(peerPicker, args).Refuse? ==>
                r == Some(PlanRename(peerPicker, args).reply) && relays == old(relays) && pools == old(pools)
                && c.selectedDB == old(c.selectedDB) && db.dispatched == old(db.dispatched)
      ensures PlanRename(peerPicker, args).Refuse? || PlanRename(peerPicker, args).node != self ==>
                (forall j :: 0 <= j < |db.dbSet| ==> db.dbSet[j].data.m == old(db.dbSet[j].data.m))
                && (db.aofHandler != null ==> db.aofHandler.queue == old(db.aofHandler.queue))
      ensures PlanRename(peerPicker, args).RelayTo? ==> relays == old(relays) + [PlanRename(peerPicker, args).node]
      ensures var plan := PlanRename(peerPicker, args);
              plan.RelayTo? && plan.node == self ==>
                pools == old(pools) && (r.None? <==> ExecNil(args, old(c.selectedDB), |db.dbSet|))
                && var p := PlaceLine(args, old(c.selectedDB), |db.dbSet|);
                   db.dispatched == old(db.dispatched) + p.placed && c.selectedDB == p.db
      ensures var plan := PlanRename(peerPicker, args);
              plan.RelayTo? && plan.node != self ==>
                var peer := plan.node;
                r == Some(PeerReply(peer in old(pools), env(peer)))
                && c.selectedDB == old(c.selectedDB) && db.dispatched == old(db.dispatched)
                && pools == (if peer in old(pools) && env(peer).borrowErr.None? then
                               old(pools)[peer := old(pools)[peer].(sent := old(pools)[peer].sent + [SelectLine(old(c.selectedDB)), args])]
                             else old(pools))
    {
      var plan := PlanRename(peerPicker, args);
      match plan {
        case Refuse(reply) =>
          r := Some(reply);
        case RelayTo(node) =>
          r := Relay(node, c, args, env);
      }
    }

    /**
     * Exec: looks the lower-cased name up in the router; an unknown name is
     * an error; a panic in a handler, or the empty line, gives the
     * UnknownErrReply.
     */
    method Exec(c: Connection, cmdLine: CmdLine, router: map<Bytes, Route>, env: Bytes -> PeerOutcome)
      returns (result: Option<Reply>)
      requires Valid()
      modifies this`pools, this`relays, c, db`dispatched, db.Dicts(), db.aofHandler
      ensures Valid()
      ensures cmdLine == [] ==> result == Some(UnknownErr) && relays == old(relays)
      ensures cmdLine != [] && ToLower(cmdLine[0]) !in router ==>
                result == Some(Error("ERR unknown command '" + ToLower(cmdLine[0]) + "', or not supported in cluster mode"))
                && relays == old(relays) && pools == old(pools)
      ensures cmdLine != [] && ToLower(cmdLine[0]) in router && router[ToLower(cmdLine[0])] == FlushDBRoute ==>
                relays == old(relays) + nodes
                && ((exists n :: n in nodes && n != self && PeerReply(n in old(pools), env(n)).Error?) ==> result != Some(Ok))
                && result.Some? && (result.value == Ok || result.value.Error?)
      ensures cmdLine != [] && ToLower(cmdLine[0]) in router && router[ToLower(cmdLine[0])] == FlushDBRoute
              && !IsSelect(cmdLine) ==>
                (result == Some(UnknownErr) ==>
                   ExecNil(cmdLine, old(c.selectedDB), |db.dbSet|)
                   || exists n :: n in nodes && n != self && PeerReply(n in old(pools), env(n)) == NoReply)
                && (self in nodes && ExecNil(cmdLine, old(c.selectedDB), |db.dbSet|)
                    && (forall n :: n in nodes && n != self ==> !PeerReply(n in old(pools), env(n)).Error?) ==>
                      result == Some(UnknownErr))
      ensures cmdLine != [] && ToLower(cmdLine[0]) in router && router[ToLower(cmdLine[0])] == LocalRoute ==>
                relays == old(relays) && pools == old(pools)
                && var p := PlaceLine(cmdLine, old(c.selectedDB), |db.dbSet|);
                   db.dispatched == old(db.dispatched) + p.placed && c.selectedDB == p.db
      ensures cmdLine != [] && ToLower(cmdLine[0]) in router && router[ToLower(cmdLine[0])] == LocalRoute ==>
                (IsSelect(cmdLine) && |cmdLine| != 2 ==> result == Some(ArgNumErr("select")))
                && (IsSelect(cmdLine) && |cmdLine| == 2 ==> result == Some(SelectReply(cmdLine[1], |db.dbSet|)))
                && (!IsSelect(cmdLine) ==> (result.Some? <==> 0 <= old(c.selectedDB) < |db.dbSet|))
      ensures cmdLine != [] && ToLower(cmdLine[0]) in router && router[ToLower(cmdLine[0])] == RenameRoute
              && PlanRename(peerPicker, cmdLine).Refuse? ==>
                result == Some(PlanRename(peerPicker, cmdLine).reply) && relays == old(relays)
      ensures cmdLine == [] || ToLower(cmdLine[0]) !in router
              || (router[ToLower(cmdLine[0])] == RenameRoute && PlanRename(peerPicker, cmdLine).Refuse?) ==>
                pools == old(pools) && c.selectedDB == old(c.selectedDB) && db.dispatched == old(db.dispatched)
                && (forall j :: 0 <= j < |db.dbSet| ==> db.dbSet[j].data.m == old(db.dbSet[j].data.m))
                && (db.aofHandler != null ==> db.aofHandler.queue == old(db.aofHandler.queue))
    {
      if |cmdLine| == 0 {
        return Some(UnknownErr);
      }
      var cmdName := ToLower(cmdLine[0]);
      if cmdName !in router {
        return Some(Error("ERR unknown command '" + cmdName + "', or not supported in cluster mode"));
      }
      match router[cmdName] {
        case LocalRoute =>
          result := db.Exec(c, cmdLine);
        case RenameRoute =>
          result := Rename(c, cmdLine, env);
        case FlushDBRoute =>
          var flushed := FlushDB(c, cmdLine, env);
          result := if flushed.Panic? then Some(UnknownErr) else Some(flushed.reply);
      }
    }
  }

  /**
   * MakeClusterDatabase: the local standalone server, a ring over the peers
   * and self with the default CRC-32 hash, and one fresh pool per peer.
   */
  method MakeClusterDatabase(self: Bytes, peers: seq<Bytes>, databases: int, appendOnly: bool, file: Bytes,
                             readFails: bool, appendFails: bool)
    returns (cluster: ClusterDatabase, boot: Boot)
    ensures cluster.Valid() && cluster.self == self && cluster.nodes == NodeList(peers, self)
    ensures cluster.peerPicker.hashFunc == ChecksumIEEE
    ensures cluster.peerPicker.nodehashMap == Bind(map[], ChecksumIEEE, cluster.nodes)
    ensures multiset(cluster.peerPicker.nodeHashs) == multiset(HashesOf(ChecksumIEEE, cluster.nodes))
    ensures forall n :: n in cluster.pools <==> n in peers
    ensures forall n :: n in cluster.pools ==> cluster.pools[n] == Pool([], 0)
    ensures cluster.relays == [] && (databases < 0 ==> boot == Panicked)
    ensures databases >= 0 ==>
              |cluster.db.dbSet| == DatabaseCount(databases) && Booted(cluster.db, boot, appendOnly, file, readFails, appendFails)
  {
    var db;
    db, boot := NewStandaloneDatabase(databases, appendOnly, file, readFails, appendFails);
    var peerPicker := new NodeMap(None);
    var nodes := AppendSelf(peers, self);
    peerPicker.AddNode(nodes);
    var pools := NewPools(peers);
    cluster := new ClusterDatabase(self, nodes, peerPicker, pools, db);
  }

  /** The node list loop of MakeClusterDatabase. */
  method AppendSelf(peers: seq<Bytes>, self: Bytes) returns (nodes: seq<Bytes>)
    ensures nodes == NodeList(peers, self)
  {
    nodes := [];
    var i := 0;
    while i < |peers|
      invariant 0 <= i <= |peers| && nodes == peers[..i]
    {
      nodes := nodes + [peers[i]];
      i := i + 1;
    }
    assert peers[..i] == peers;
    nodes := nodes + [self];
  }

  /** The pool loop of MakeClusterDatabase: a fresh pool per peer, none for any other name. */
  method NewPools(peers: seq<Bytes>) returns (pools: map<Bytes, Pool>)
    ensures forall n :: n in pools <==> n in peers
    ensures forall n :: n in pools ==> pools[n] == Pool([], 0)
  {
    pools := map[];
    var i := 0;
    while i < |peers|
      invariant 0 <= i <= |peers|
      invariant forall n :: n in pools <==> n in peers[..i]
      invariant forall n :: n in pools ==> pools[n] == Pool([], 0)
    {
      pools := pools[peers[i] := Pool([], 0)];
      assert peers[..i + 1] == peers[..i] + [peers[i]];
      i := i + 1;
    }
    assert peers[..i] == peers;
  }
}

=== FILE: command.dfy ===
/**
 * The command table of database/command.go. The global cmdTable is a
 * CommandTable object; an executor is named by a tag rather than held as a
 * Go function value, and the database dispatches on the tag.
 */
module Command {
  import opened Wire

  /** The executors registered by the init functions of database/keys.go and database/ping.go. */
  datatype ExecFunc = Del | Exists | Keys | FlushDB | Type | Rename | RenameNx | Ping

  /** command: an executor and its arity. */
  datatype Command = Command(executor: ExecFunc, arity: int)

  /**
   * The arity convention of command.go: arity >= 0 asks for exactly that
   * many words (the name included), arity < 0 for at least -arity words.
   */
  predicate ArityOk(arity: int, words: int)
  {
    if arity >= 0 then words == arity else words >= -arity
  }

  /** The registrations keys.go makes at start-up, as (name, executor, arity). */
  const KeyCommands: seq<(Bytes, ExecFunc, int)> := [
    ("Del", Del, -2), ("Exists", Exists, -2), ("Keys", Keys, 2), ("FlushDB", FlushDB, -1),
    ("Type", Type, 2), ("Rename", Rename, 3), ("RenameNx", RenameNx, 3)]

  /** cmdTable once every init function has run. */
  const Startup: map<Bytes, Command> :=
    map["del" := Command(Del, -2), "exists" := Command(Exists, -2), "keys" := Command(Keys, 2),
        "flushdb" := Command(FlushDB, -1), "type" := Command(Type, 2), "rename" := Command(Rename, 3),
        "renamenx" := Command(RenameNx, 3), "ping" := Command(Ping, -1)]

  class CommandTable {
    /** cmdTable: lower-cased name to command. */
    var table: map<Bytes, Command>

    /** make(map[string]*command). */
    constructor ()
      ensures table == map[]
    {
      table := map[];
    }

    /** RegisterCommand: stores a fresh entry under the lower-cased name, replacing any earlier one. */
    method RegisterCommand(name: Bytes, executor: ExecFunc, arity: int)
      modifies this
      ensures table == old(table)[ToLower(name) := Command(executor, arity)]
    {
      var lower := ToLower(name);
      table := table[lower := Command(executor, arity)];
    }

    /** The init functions of keys.go and ping.go, one registration after another. */
    method RegisterAll()
      modifies this
      ensures table == Registered(KeyCommands, old(table))["ping" := Command(Ping, -1)]
    {
      var i := 0;
      while i < |KeyCommands|
        invariant 0 <= i <= |KeyCommands|
        invariant table == Registered(KeyCommands[..i], old(table))
      {
        var (name, executor, arity) := KeyCommands[i];
        assert KeyCommands[..i + 1][..i] == KeyCommands[..i];
        RegisterCommand(name, executor, arity);
        i := i + 1;
      }
      assert KeyCommands[..i] == KeyCommands;
      RegisterCommand("ping", Ping, -1);
      assert ToLower("ping") == "ping";
    }
  }

  /** The table after registering regs in order, over table t. */
  function Registered(regs: seq<(Bytes, ExecFunc, int)>, t: map<Bytes, Command>): map<Bytes, Command>
  {
    if regs == [] then t
    else
      var r := regs[|regs| - 1];
      Registered(regs[..|regs| - 1], t)[ToLower(r.0) := Command(r.1, r.2)]
  }

  /**
   * After registration, a name is bound exactly when some registration has
   * that lower-cased name, and then to the LAST such registration: a later
   * one, in any case, replaces an earlier one; other entries are kept.
   */
  lemma {:induction false} RegisteredBinding(regs: seq<(Bytes, ExecFunc, int)>, t: map<Bytes, Command>, k: Bytes)
    ensures k in Registered(regs, t) <==> k in t || exists i :: 0 <= i < |regs| && ToLower(regs[i].0) == k
    ensures forall i :: (0 <= i < |regs| && ToLower(regs[i].0) == k
              && (forall j :: i < j < |regs| ==> ToLower(regs[j].0) != k)) ==>
              k in Registered(regs, t) && Registered(regs, t)[k] == Command(regs[i].1, regs[i].2)
    ensures (forall i :: 0 <= i < |regs| ==> ToLower(regs[i].0) != k) ==>
              (k in Registered(regs, t) <==> k in t) && (k in t ==> Registered(regs, t)[k] == t[k])
    decreases |regs|
  {
    if regs != [] {
      var n := |regs| - 1;
      var init := regs[..n];
      RegisteredBinding(init, t, k);
      if k in Registered(regs, t) && k !in t && ToLower(regs[n].0) != k {
        var i :| 0 <= i < |init| && ToLower(init[i].0) == k;
        assert regs[i] == init[i];
      }
      if exists i :: 0 <= i < |regs| && ToLower(regs[i].0) == k {
        var i :| 0 <= i < |regs| && ToLower(regs[i].0) == k;
        if i < n {
          assert init[i] == regs[i];
        }
      }
      forall i | 0 <= i < |regs| && ToLower(regs[i].0) == k
          && (forall j :: i < j < |regs| ==> ToLower(regs[j].0) != k)
        ensures k in Registered(regs, t) && Registered(regs, t)[k] == Command(regs[i].1, regs[i].2)
      {
        if i < n {
          assert init[i] == regs[i];
          assert forall j :: i < j < |init| ==> init[j] == regs[j];
        }
      }
      if forall i :: 0 <= i < |regs| ==> ToLower(regs[i].0) != k {
        assert forall i :: 0 <= i < |init| ==> init[i] == regs[i];
      }
    }
  }

  lemma LowerNames()
    ensures ToLower("Del") == "del" && ToLower("Exists") == "exists" && ToLower("Keys") == "keys"
    ensures ToLower("FlushDB") == "flushdb" && ToLower("Type") == "type"
    ensures ToLower("Rename") == "rename" && ToLower("RenameNx") == "renamenx"
  {
    assert ToLower("Del") == "del";
    assert ToLower("Exists") == "exists";
    assert ToLower("Keys") == "keys";
    assert ToLower("FlushDB") == "flushdb";
    assert ToLower("Type") == "type";
    assert ToLower("Rename") == "rename";
    assert ToLower("RenameNx") == "renamenx";
  }

  /** The table keys.go and ping.go build: every name lower-cased, with its executor and arity. */
  lemma StartupTable()
    ensures Registered(KeyCommands, map[])["ping" := Command(Ping, -1)] == Startup
  {
    LowerNames();
    var regs: seq<(Bytes, ExecFunc, int)> := KeyCommands;
    var e: map<Bytes, Command> := map[];
    assert regs[..1][..0] == [];
    assert Registered(regs[..1], e) == e["del" := Command(Del, -2)];
    assert regs[..2][..1] == regs[..1];
    assert Registered(regs[..2], e) == e["del" := Command(Del, -2)]["exists" := Command(Exists, -2)];
    assert regs[..3][..2] == regs[..2];
    assert Registered(regs[..3], e) == e["del" := Command(Del, -2)]["exists" := Command(Exists, -2)]["keys" := Command(Keys, 2)];
    assert regs[..4][..3] == regs[..3];
    assert Registered(regs[..4], e) == e["del" := Command(Del, -2)]["exists" := Command(Exists, -2)]["keys" := Command(Keys, 2)]
      ["flushdb" := Command(FlushDB, -1)];
    assert regs[..5][..4] == regs[..4];
    assert Registered(regs[..5], e) == e["del" := Command(Del, -2)]["exists" := Command(Exists, -2)]["keys" := Command(Keys, 2)]
      ["flushdb" := Command(FlushDB, -1)]["type" := Command(Type, 2)];
    assert regs[..6][..5] == regs[..5];
    assert Registered(regs[..6], e) == e["del" := Command(Del, -2)]["exists" := Command(Exists, -2)]["keys" := Command(Keys, 2)]
      ["flushdb" := Command(FlushDB, -1)]["type" := Command(Type, 2)]["rename" := Command(Rename, 3)];
    assert regs[..7][..6] == regs[..6];
    assert Registered(regs[..7], e) == e["del" := Command(Del, -2)]["exists" := Command(Exists, -2)]["keys" := Command(Keys, 2)]
      ["flushdb" := Command(FlushDB, -1)]["type" := Command(Type, 2)]["rename" := Command(Rename, 3)]
      ["renamenx" := Command(RenameNx, 3)];
    assert regs[..7] == regs;
  }
}

=== FILE: connection.dfy ===
/**
 * The client connection of resp/connection/conn.go: the selected database
 * index, and the bytes written back to the client. The socket itself, the
 * write lock and the wait group are not modelled; a socket write error is
 * a parameter of Write.
 */
module Connection {
  import opened Wrappers
  import opened Wire

  class Connection {
    /** selectedDB: the zero value until SELECT changes it; negative values are kept. */
    var selectedDB: int
    /** The byte slices handed to the socket, in order. */
    var written: seq<Bytes>

    /** NewConn, and also the bare &Connection{} that AOF replay uses. */
    constructor ()
      ensures selectedDB == 0 && written == []
    {
      selectedDB := 0;
      written := [];
    }

    function GetDBIndex(): int
      reads this
    {
      selectedDB
    }

    /** SelectDB stores n and changes nothing else. */
    method SelectDB(n: int)
      modifies this
      ensures GetDBIndex() == n
      ensures written == old(written)
    {
      selectedDB := n;
    }

    /**
     * Write: an empty slice returns nil at once, without touching the
     * socket; any other slice is written, and the socket's error (socketErr)
     * is returned.
     */
    method Write(b: Bytes, socketErr: Option<Bytes>) returns (err: Option<Bytes>)
      modifies this
      ensures selectedDB == old(selectedDB)
      ensures b == [] ==> err.None? && written == old(written)
      ensures b != [] ==> err == socketErr && written == old(written) + [b]
    {
      if |b| == 0 {
        return None;
      }
      written := written + [b];
      err := socketErr;
    }
  }
}

=== FILE: consistenthash.dfy ===
/**
 * The consistent-hash ring of lib/consistenthash/consistenthash.go: node
 * hashes kept in a sorted list, a map from each hash back to the node name,
 * and a successor lookup on the ring that wraps around to the first hash.
 */
module ConsistentHash {
  import opened Wrappers
  import opened Wire

  /** A Go uint32 hash widened to int, as int(m.hashFunc(...)) does on a 64-bit platform. */
  type Hash = h: int | 0 <= h < 0x1_0000_0000

  /** HashFunc: a hash of the bytes of a name or key. */
  type HashFunc = Bytes -> Hash

  // ---------------------------------------------------------------------
  // CRC-32 (IEEE), the default hash
  // ---------------------------------------------------------------------

  /** k rounds of the reflected CRC-32 shift with the IEEE polynomial 0xEDB88320. */
  function CrcShift(crc: bv32, k: nat): bv32
    decreases k
  {
    if k == 0 then crc
    else CrcShift(if crc & 1 == 1 then (crc >> 1) ^ 0xEDB8_8320 else crc >> 1, k - 1)
  }

  /** The CRC register after feeding it the bytes of data, first byte first. */
  function CrcUpdate(crc: bv32, data: Bytes): bv32
    decreases |data|
  {
    if data == [] then crc
    else CrcUpdate(CrcShift(crc ^ (data[0] as int as bv32), 8), data[1..])
  }

  /** crc32.ChecksumIEEE: start from all ones, feed the data, invert the result. */
  function ChecksumIEEE(data: Bytes): (h: Hash)
  {
    (CrcUpdate(0xFFFF_FFFF, data) ^ 0xFFFF_FFFF) as int
  }

  /** The eight shifts the byte "a" causes on the initial register. */
  lemma ShiftsForA()
    ensures CrcShift(0xFFFF_FF9E, 8) == 0x1748_41BC
  {
    assert CrcShift(0xFFFF_FF9E, 8) == CrcShift(0x7FFF_FFCF, 7);
    assert CrcShift(0x7FFF_FFCF, 7) == CrcShift(0xD247_7CC7, 6);
    assert CrcShift(0xD247_7CC7, 6) == CrcShift(0x849B_3D43, 5);
    assert CrcShift(0x849B_3D43, 5) == CrcShift(0xAFF5_1D81, 4);
    assert CrcShift(0xAFF5_1D81, 4) == CrcShift(0xBA42_0DE0, 3);
    assert CrcShift(0xBA42_0DE0, 3) == CrcShift(0x5D21_06F0, 2);
    assert CrcShift(0x5D21_06F0, 2) == CrcShift(0x2E90_8378, 1);
  }

  /** The check values of CRC-32/IEEE for the empty input and for "a". */
  lemma ChecksumIEEECheckValues()
    ensures ChecksumIEEE([]) == 0
    ensures ChecksumIEEE("a") == 0xE8B7_BE43
  {
    assert CrcUpdate(0xFFFF_FFFF, []) == 0xFFFF_FFFF;
    var a: Bytes := "a";
    assert a[0] as int as bv32 == 0x61 by {
      assert a[0] as int == 0x61;
    }
    assert a[1..] == [];
    ShiftsForA();
    assert CrcUpdate(0xFFFF_FFFF, a) == 0x1748_41BC;
  }

  // ---------------------------------------------------------------------
  // What a ring is made of
  // ---------------------------------------------------------------------

  predicate Sorted(s: seq<int>)
  {
    forall i, j :: 0 <= i < j < |s| ==> s[i] <= s[j]
  }

  /** The hashes AddNode appends for names, in order, skipping empty names. */
  function HashesOf(f: HashFunc, names: seq<Bytes>): (hs: seq<int>)
    ensures |hs| <= |names|
    decreases |names|
  {
    if names == [] then []
    else
      var init := HashesOf(f, names[..|names| - 1]);
      var last := names[|names| - 1];
      if last == [] then init else init + [f(last)]
  }

  /** The hash-to-name map after binding each non-empty name under its hash, in order. */
  function Bind(m: map<int, Bytes>, f: HashFunc, names: seq<Bytes>): map<int, Bytes>
    decreases |names|
  {
    if names == [] then m
    else
      var init := Bind(m, f, names[..|names| - 1]);
      var last := names[|names| - 1];
      if last == [] then init else init[f(last) := last]
  }

  /**
   * v is the ring hash a lookup of h lands on: the smallest ring hash at
   * least h, or, when every ring hash is below h, the smallest ring hash.
   */
  ghost predicate IsSuccessor(hs: seq<int>, h: int, v: int)
  {
    v in hs
    && ((exists i :: 0 <= i < |hs| && hs[i] >= h) ==>
          v >= h && forall i :: 0 <= i < |hs| && hs[i] >= h ==> v <= hs[i])
    && ((forall i :: 0 <= i < |hs| ==> hs[i] < h) ==>
          forall i :: 0 <= i < |hs| ==> v <= hs[i])
  }

  // ---------------------------------------------------------------------
  // sort.Search and sort.Ints
  // ---------------------------------------------------------------------

  /** sort.Search over [lo, hi) with the test hs[i] >= h: halve the range until it is empty. */
  function Search(hs: seq<int>, h: int, lo: nat, hi: nat): (i: nat)
    requires lo <= hi <= |hs|
    ensures lo <= i <= hi
    decreases hi - lo
  {
    if lo < hi then
      var mid := (lo + hi) / 2;
      if !(hs[mid] >= h) then Search(hs, h, mid + 1, hi) else Search(hs, h, lo, mid)
    else lo
  }

  /** On a sorted list, Search finds the first index whose hash is at least h. */
  lemma {:induction false} SearchFindsFirst(hs: seq<int>, h: int, lo: nat, hi: nat)
    requires Sorted(hs) && lo <= hi <= |hs|
    ensures var i := Search(hs, h, lo, hi);
            (forall k :: lo <= k < i ==> hs[k] < h) && (i < hi ==> hs[i] >= h)
    decreases hi - lo
  {
    if lo < hi {
      var mid := (lo + hi) / 2;
      if !(hs[mid] >= h) {
        SearchFindsFirst(hs, h, mid + 1, hi);
      } else {
        SearchFindsFirst(hs, h, lo, mid);
      }
    }
  }

  /** sort.Ints: sorts the array in place by insertion. */
  method SortInts(a: array<int>)
    modifies a
    ensures Sorted(a[..])
    ensures multiset(a[..]) == old(multiset(a[..]))
  {
    var i := 0;
    while i < a.Length
      invariant 0 <= i <= a.Length
      invariant Sorted(a[..i])
      invariant multiset(a[..]) == old(multiset(a[..]))
    {
      InsertAt(a, i);
      i := i + 1;
    }
  }

  /** One insertion step: a[i] moves left past every larger element of the sorted a[..i]. */
  method InsertAt(a: array<int>, i: nat)
    requires i < a.Length && Sorted(a[..i])
    modifies a
    ensures Sorted(a[..i + 1])
    ensures multiset(a[..]) == old(multiset(a[..]))
  {
    var j := i;
    while 0 < j && a[j - 1] > a[j]
      invariant 0 <= j <= i
      invariant forall k, l :: 0 <= k < l <= i && k != j && l != j ==> a[k] <= a[l]
      invariant forall k :: j < k <= i ==> a[j] <= a[k]
      invariant multiset(a[..]) == old(multiset(a[..]))
    {
      SwapDown(a, j);
      j := j - 1;
    }
  }

  /** Exchanges a[j - 1] and a[j]. */
  method SwapDown(a: array<int>, j: nat)
    requires 0 < j < a.Length
    modifies a
    ensures a[j - 1] == old(a[j]) && a[j] == old(a[j - 1])
    ensures forall k :: 0 <= k < a.Length && k != j - 1 && k != j ==> a[k] == old(a[k])
    ensures multiset(a[..]) == old(multiset(a[..]))
  {
    a[j - 1], a[j] := a[j], a[j - 1];
  }

  // ---------------------------------------------------------------------
  // NodeMap
  // ---------------------------------------------------------------------

  class NodeMap {
    var hashFunc: HashFunc
    var nodeHashs: seq<int>
    var nodehashMap: map<int, Bytes>

    /**
     * A ring between calls: the hash list is sorted, holds exactly the
     * hashes the map binds, and each bound name is non-empty and hashes to
     * its key.
     */
    ghost predicate Valid()
      reads this
    {
      Sorted(nodeHashs)
      && (forall h :: h in nodehashMap <==> h in nodeHashs)
      && (forall h :: h in nodehashMap ==> nodehashMap[h] != [] && hashFunc(nodehashMap[h]) == h)
    }

    /** NewNodeMap: an empty ring; a nil hash function means CRC-32 (IEEE). */
    constructor (fn: Option<HashFunc>)
      ensures hashFunc == (if fn.Some? then fn.value else ChecksumIEEE)
      ensures nodeHashs == [] && nodehashMap == map[]
      ensures Valid()
    {
      var f: HashFunc := if fn.Some? then fn.value else ChecksumIEEE;
      hashFunc := f;
      nodeHashs := [];
      nodehashMap := map[];
    }

    /** IsEmpty: no hash on the ring, which on a valid ring means no node bound. */
    function IsEmpty(): (b: bool)
      reads this
      ensures b <==> nodeHashs == []
      ensures Valid() ==> (b <==> nodehashMap == map[])
    {
      assert nodeHashs != [] ==> nodeHashs[0] in nodeHashs;
      EmptyRingBindsNothing(this);
      |nodeHashs| == 0
    }

    /**
     * AddNode: appends the hash of each non-empty name and binds the hash to
     * the name (a later name wins a collision), then sorts the hash list.
     */
    method AddNode(names: seq<Bytes>)
      requires Valid()
      modifies this
      ensures Valid()
      ensures hashFunc == old(hashFunc)
      ensures multiset(nodeHashs) == multiset(old(nodeHashs) + HashesOf(hashFunc, names))
      ensures nodehashMap == Bind(old(nodehashMap), hashFunc, names)
    {
      var i := 0;
      while i < |names|
        invariant 0 <= i <= |names|
        invariant hashFunc == old(hashFunc)
        invariant nodeHashs == old(nodeHashs) + HashesOf(hashFunc, names[..i])
        invariant nodehashMap == Bind(old(nodehashMap), hashFunc, names[..i])
        invariant forall h :: h in nodehashMap <==> h in nodeHashs
        invariant forall h :: h in nodehashMap ==> nodehashMap[h] != [] && hashFunc(nodehashMap[h]) == h
      {
        assert names[..i + 1][..i] == names[..i];
        var name := names[i];
        if name != [] {
          var hash := hashFunc(name);
          nodeHashs := nodeHashs + [hash];
          nodehashMap := nodehashMap[hash := name];
        }
        i := i + 1;
      }
      assert names[..i] == names;
      var s := nodeHashs;
      var a := new int[|s|](k requires 0 <= k < |s| => s[k]);
      assert a[..] == s;
      SortInts(a);
      nodeHashs := a[..];
      assert forall h :: h in nodeHashs <==> h in multiset(s);
    }

    /**
     * PickNode: the node on the ring after the key's hash: the name bound to
     * the first ring hash at least hash(key), wrapping to the first ring
     * hash; "" on an empty ring.
     */
    function PickNode(key: Bytes): (name: Bytes)
      reads this
      ensures nodeHashs == [] ==> name == []
      ensures Valid() && nodeHashs != [] ==>
                name != [] && name in nodehashMap.Values
                && IsSuccessor(nodeHashs, hashFunc(key), hashFunc(name))
    {
      if IsEmpty() then []
      else
        var h := hashFunc(key);
        var found := Search(nodeHashs, h, 0, |nodeHashs|);
        var idx := if found == |nodeHashs| then 0 else found;
        var v := nodeHashs[idx];
        PickNodeLandsOnSuccessor(nodeHashs, h, found);
        if v in nodehashMap then nodehashMap[v] else []
    }
  }

  /** A valid ring with no hash binds no name. */
  lemma EmptyRingBindsNothing(r: NodeMap)
    ensures r.Valid() && r.nodeHashs == [] ==> r.nodehashMap == map[]
  {
    if r.Valid() && r.nodeHashs == [] {
      forall h ensures h !in r.nodehashMap {
        assert h !in r.nodeHashs;
      }
      assert r.nodehashMap.Keys == {};
    }
  }

  /** The index PickNode uses holds the successor of h on a sorted, non-empty ring. */
  lemma PickNodeLandsOnSuccessor(hs: seq<int>, h: int, found: nat)
    requires hs != [] && found == Search(hs, h, 0, |hs|)
    ensures Sorted(hs) ==> IsSuccessor(hs, h, hs[if found == |hs| then 0 else found])
  {
    if Sorted(hs) {
      SearchFindsFirst(hs, h, 0, |hs|);
    }
  }

  // ---------------------------------------------------------------------
  // What AddNode binds
  // ---------------------------------------------------------------------

  /** Bind keeps the old bindings' keys and adds exactly the hashes AddNode appends. */
  lemma {:induction false} BindKeys(m: map<int, Bytes>, f: HashFunc, names: seq<Bytes>)
    ensures forall h :: h in Bind(m, f, names) <==> h in m || h in HashesOf(f, names)
    decreases |names|
  {
    if names != [] {
      BindKeys(m, f, names[..|names| - 1]);
    }
  }

  /** Empty names add nothing. */
  lemma {:induction false} EmptyNamesAddNothing(m: map<int, Bytes>, f: HashFunc, names: seq<Bytes>)
    requires forall i :: 0 <= i < |names| ==> names[i] == []
    ensures Bind(m, f, names) == m && HashesOf(f, names) == []
    decreases |names|
  {
    if names != [] {
      EmptyNamesAddNothing(m, f, names[..|names| - 1]);
    }
  }

  /** On a collision the later name wins: a name no later name collides with stays bound. */
  lemma {:induction false} LaterNameWins(m: map<int, Bytes>, f: HashFunc, names: seq<Bytes>, i: nat)
    requires i < |names| && names[i] != []
    requires forall j :: i < j < |names| && names[j] != [] ==> f(names[j]) != f(names[i])
    ensures f(names[i]) in Bind(m, f, names) && Bind(m, f, names)[f(names[i])] == names[i]
    decreases |names|
  {
    if i < |names| - 1 {
      LaterNameWins(m, f, names[..|names| - 1], i);
    }
  }

  /** A node looked up by its own name lands on itself when its hash is bound to it. */
  lemma PickOwnName(r: NodeMap, name: Bytes)
    requires r.Valid()
    requires r.hashFunc(name) in r.nodehashMap && r.nodehashMap[r.hashFunc(name)] == name
    ensures r.PickNode(name) == name
  {
    var h := r.hashFunc(name);
    assert h in r.nodeHashs;
    var hs := r.nodeHashs;
    var found := Search(hs, h, 0, |hs|);
    SearchFindsFirst(hs, h, 0, |hs|);
    var k :| 0 <= k < |hs| && hs[k] == h;
    assert found <= k;
    assert hs[found] == h;
  }
}

=== FILE: database.dfy ===
/**
 * One database of the standalone server and the key commands of
 * database/keys.go. A DB is a SyncDict of entities, its own index, and the
 * AOF handler its addAof callback forwards to (null for the no-op callback
 * a fresh DB starts with). database/db.go is not part of this model: its
 * GetEntity, PutEntity, Remove, Removes and Flush are the dictionary
 * operations below, and its Exec is the dispatch of DB.Exec.
 */
module Database {
  import opened Wrappers
  import opened Wire
  import opened Replies
  import opened Dict
  import opened Aof
  import opened Command
  import opened Wildcard

  /** DataEntity: execType only tells byte strings from every other kind of value. */
  datatype Entity = StringData(bytes: Bytes) | OtherData

  /** The distinct keys of an argument list. */
  function KeySet(keys: seq<Bytes>): set<Bytes>
  {
    set i | 0 <= i < |keys| :: keys[i]
  }

  /** The distinct keys of an argument list that m binds. */
  function PresentKeys<V>(m: map<Bytes, V>, keys: seq<Bytes>): set<Bytes>
  {
    set k | k in KeySet(keys) && k in m
  }

  /**
   * One more argument, against the map cur left by the arguments before
   * it: removing its key leaves the map of one more argument, and the key
   * joins the present ones exactly when cur binds it.
   */
  lemma KeySetStep<V>(m: map<Bytes, V>, keys: seq<Bytes>, i: nat, cur: map<Bytes, V>)
    requires i < |keys| && cur == m - KeySet(keys[..i])
    ensures cur - {keys[i]} == m - KeySet(keys[..i + 1])
    ensures keys[i] !in cur ==> cur == m - KeySet(keys[..i + 1])
    ensures keys[i] in cur ==> |PresentKeys(m, keys[..i + 1])| == |PresentKeys(m, keys[..i])| + 1
    ensures keys[i] !in cur ==> PresentKeys(m, keys[..i + 1]) == PresentKeys(m, keys[..i])
  {
    assert forall j :: 0 <= j < i ==> keys[..i + 1][j] == keys[..i][j];
    assert keys[..i + 1][i] == keys[i];
    assert KeySet(keys[..i + 1]) == KeySet(keys[..i]) + {keys[i]};
    if keys[i] in cur {
      assert PresentKeys(m, keys[..i + 1]) == PresentKeys(m, keys[..i]) + {keys[i]};
      assert keys[i] !in PresentKeys(m, keys[..i]);
    }
  }

  /** How many arguments name a key of m, a repeated key counting each time. */
  function CountPresent<V>(m: map<Bytes, V>, keys: seq<Bytes>): (n: nat)
    ensures n <= |keys|
  {
    if keys == [] then 0
    else CountPresent(m, keys[..|keys| - 1]) + (if keys[|keys| - 1] in m then 1 else 0)
  }

  /** Counting over two argument lists is adding the counts. */
  lemma {:induction false} CountPresentAppend<V>(m: map<Bytes, V>, a: seq<Bytes>, b: seq<Bytes>)
    ensures CountPresent(m, a + b) == CountPresent(m, a) + CountPresent(m, b)
    decreases |b|
  {
    if b == [] {
      assert a + b == a;
    } else {
      var n := |b| - 1;
      assert (a + b)[..|a + b| - 1] == a + b[..n];
      assert (a + b)[|a + b| - 1] == b[n];
      CountPresentAppend(m, a, b[..n]);
    }
  }

  /** Every argument is counted exactly when every argument names a key. */
  lemma {:induction false} CountPresentAll<V>(m: map<Bytes, V>, keys: seq<Bytes>)
    ensures CountPresent(m, keys) == |keys| <==> forall i :: 0 <= i < |keys| ==> keys[i] in m
    ensures CountPresent(m, keys) == 0 <==> forall i :: 0 <= i < |keys| ==> keys[i] !in m
    decreases |keys|
  {
    if keys != [] {
      var init := keys[..|keys| - 1];
      CountPresentAll(m, init);
      assert forall i :: 0 <= i < |init| ==> init[i] == keys[i];
    }
  }

  /** The dictionary after execRename: dest bound to src's entity, then src removed. */
  function Renamed<V>(m: map<Bytes, V>, src: Bytes, dest: Bytes): map<Bytes, V>
    requires src in m
  {
    m[dest := m[src]] - {src}
  }

  /**
   * Renaming moves the entity and keeps every other key, except that
   * renaming a key to itself deletes it: the put comes before the remove.
   */
  lemma RenameMoves<V>(m: map<Bytes, V>, src: Bytes, dest: Bytes)
    requires src in m
    ensures src != dest ==> dest in Renamed(m, src, dest) && Renamed(m, src, dest)[dest] == m[src]
    ensures src !in Renamed(m, src, dest)
    ensures src == dest ==> Renamed(m, src, dest) == m - {src}
    ensures forall k :: k != src && k != dest ==> (k in Renamed(m, src, dest) <==> k in m)
  {
  }

  /** The dictionary after a successful execRenameNx: src and dest removed, then dest bound. */
  function RenamedNx<V>(m: map<Bytes, V>, src: Bytes, dest: Bytes): map<Bytes, V>
    requires src in m
  {
    (m - {src, dest})[dest := m[src]]
  }

  /** Where dest is free and differs from src, renamenx leaves the same dictionary as rename. */
  lemma RenameNxAgrees<V>(m: map<Bytes, V>, src: Bytes, dest: Bytes)
    requires src in m && dest !in m && src != dest
    ensures RenamedNx(m, src, dest) == Renamed(m, src, dest)
  {
  }

  class DB {
    const index: int
    const data: SyncDict<Entity>
    /** The handler addAof forwards to; null for the no-op callback of a fresh DB. */
    var aof: AofHandler?

    /** makeDB, then the index NewStandaloneDatabase gives it. */
    constructor (index: int)
      ensures this.index == index && fresh(data) && data.m == map[] && aof == null
    {
      this.index := index;
      data := new SyncDict<Entity>();
      aof := null;
    }

    /** addAof: forward the line to the handler, tagged with this DB's own index. */
    method AddAof(line: CmdLine)
      modifies aof
      ensures aof != null ==> aof.queue == old(aof.Queued(index, line)) && aof.Settings() == old(aof.Settings())
    {
      if aof != null {
        aof.AddAof(index, line);
      }
    }

    /** Removes: removes each key in turn and counts those that were there. */
    method Removes(keys: seq<Bytes>) returns (deleted: int)
      modifies data
      ensures data.m == old(data.m) - KeySet(keys)
      ensures deleted == |PresentKeys(old(data.m), keys)|
    {
      deleted := 0;
      var i := 0;
      while i < |keys|
        invariant 0 <= i <= |keys|
        invariant data.m == old(data.m) - KeySet(keys[..i])
        invariant deleted == |PresentKeys(old(data.m), keys[..i])|
      {
        KeySetStep(old(data.m), keys, i, data.m);
        if data.Get(keys[i]).Some? {
          var _ := data.Remove(keys[i]);
          deleted := deleted + 1;
        }
        i := i + 1;
      }
      assert keys[..i] == keys;
    }

    /**
     * Exec of db.go: an unknown name is an error, so is a word count the
     * arity refuses; otherwise the registered executor runs on the
     * arguments after the name.
     */
    method Exec(cmdLine: CmdLine) returns (r: Reply)
      requires |cmdLine| > 0
      modifies data, aof
      ensures var name := ToLower(cmdLine[0]);
              name !in Startup ==> r == Error("ERR unknown command '" + name + "'")
      ensures var name := ToLower(cmdLine[0]);
              name in Startup && !ArityOk(Startup[name].arity, |cmdLine|) ==> r == ArgNumErr(name)
      ensures var name := ToLower(cmdLine[0]);
              !(name in Startup && ArityOk(Startup[name].arity, |cmdLine|)) ==>
                data.m == old(data.m) && (aof != null ==> aof.queue == old(aof.queue))
      ensures r != NoReply
      ensures ToLower(cmdLine[0]) == "ping" ==>
                r == Pong && data.m == old(data.m) && (aof != null ==> aof.queue == old(aof.queue))
    {
      var name := ToLower(cmdLine[0]);
      if name !in Startup {
        return Error("ERR unknown command '" + name + "'");
      }
      var cmd := Startup[name];
      if !ArityOk(cmd.arity, |cmdLine|) {
        return ArgNumErr(name);
      }
      var args := cmdLine[1..];
      match cmd.executor {
        case Del => r := ExecDel(this, args);
        case Exists => r := ExecExists(this, args);
        case Keys => r := ExecKeys(this, args);
        case FlushDB => r := ExecFlushDB(this, args);
        case Type => r := ExecType(this, args);
        case Rename => r := ExecRename(this, args);
        case RenameNx => r := ExecRenameNx(this, args);
        case Ping => r := Pong;
      }
    }
  }

  /** execDel: removes the keys, replies with how many were there, and logs only if some were. */
  method ExecDel(db: DB, args: seq<Bytes>) returns (r: Reply)
    modifies db.data, db.aof
    ensures db.data.m == old(db.data.m) - KeySet(args)
    ensures r == Int(|PresentKeys(old(db.data.m), args)|)
    ensures db.aof != null ==> db.aof.Settings() == old(db.aof.Settings())
    ensures db.aof != null ==>
              db.aof.queue == if |PresentKeys(old(db.data.m), args)| > 0 then old(db.aof.Queued(db.index, ["del"] + args))
                              else old(db.aof.queue)
  {
    var deleted := db.Removes(args);
    if deleted > 0 {
      db.AddAof(["del"] + args);
    }
    r := Int(deleted);
  }

  /** execExists: counts the arguments that name a key, repeats included; nothing changes. */
  method ExecExists(db: DB, args: seq<Bytes>) returns (r: Reply)
    ensures r == Int(CountPresent(db.data.m, args))
  {
    var result := 0;
    var i := 0;
    while i < |args|
      invariant 0 <= i <= |args|
      invariant result == CountPresent(db.data.m, args[..i])
    {
      assert args[..i + 1][..i] == args[..i];
      if db.data.Get(args[i]).Some? {
        result := result + 1;
      }
      i := i + 1;
    }
    assert args[..i] == args;
    r := Int(result);
  }

  /** execFlushDB: empties the DB, always logs, replies OK. */
  method ExecFlushDB(db: DB, args: seq<Bytes>) returns (r: Reply)
    modifies db.data, db.aof
    ensures db.data.m == map[] && r == Ok
    ensures db.aof != null ==>
              db.aof.queue == old(db.aof.Queued(db.index, ["flushdb"] + args)) && db.aof.Settings() == old(db.aof.Settings())
  {
    db.data.Clear();
    db.AddAof(["flushdb"] + args);
    r := Ok;
  }

  /** execType: "none" for a missing key, "string" for bytes, the unknown error otherwise. */
  method ExecType(db: DB, args: seq<Bytes>) returns (r: Reply)
    requires |args| > 0
    ensures args[0] !in db.data.m ==> r == Status("none")
    ensures args[0] in db.data.m && db.data.m[args[0]].StringData? ==> r == Status("string")
    ensures args[0] in db.data.m && !db.data.m[args[0]].StringData? ==> r == UnknownErr
  {
    var entity := db.data.Get(args[0]);
    if entity.None? {
      return Status("none");
    }
    match entity.value {
      case StringData(_) => r := Status("string");
      case OtherData => r := UnknownErr;
    }
  }

  /**
   * execRename: an argument count other than 2 and a missing source are
   * errors that change nothing; otherwise the entity moves and is logged.
   */
  method ExecRename(db: DB, args: seq<Bytes>) returns (r: Reply)
    modifies db.data, db.aof
    ensures |args| != 2 ==> r == ArgNumErr("rename")
    ensures |args| == 2 && args[0] !in old(db.data.m) ==> r == Error("no such key")
    ensures |args| == 2 && args[0] in old(db.data.m) ==>
              r == Ok && db.data.m == Renamed(old(db.data.m), args[0], args[1])
    ensures !(|args| == 2 && args[0] in old(db.data.m)) ==> db.data.m == old(db.data.m)
    ensures db.aof != null ==> db.aof.Settings() == old(db.aof.Settings())
    ensures db.aof != null ==>
              db.aof.queue == if |args| == 2 && args[0] in old(db.data.m) then old(db.aof.Queued(db.index, ["rename"] + args))
                              else old(db.aof.queue)
  {
    if |args| != 2 {
      return ArgNumErr("rename");
    }
    var src, dest := args[0], args[1];
    var entity := db.data.Get(src);
    if entity.None? {
      return Error("no such key");
    }
    var _ := db.data.Put(dest, entity.value);
    var _ := db.data.Remove(src);
    db.AddAof(["rename"] + args);
    r := Ok;
  }

  /**
   * execRenameNx: 0 if dest exists (even when it is src), an error if src is
   * missing, otherwise src and dest are removed, dest bound, logged, and 1.
   */
  method ExecRenameNx(db: DB, args: seq<Bytes>) returns (r: Reply)
    requires |args| >= 2
    modifies db.data, db.aof
    ensures args[1] in old(db.data.m) ==> r == Int(0)
    ensures args[1] !in old(db.data.m) && args[0] !in old(db.data.m) ==> r == Error("no such key")
    ensures args[1] !in old(db.data.m) && args[0] in old(db.data.m) ==>
              r == Int(1) && db.data.m == RenamedNx(old(db.data.m), args[0], args[1])
    ensures !(args[1] !in old(db.data.m) && args[0] in old(db.data.m)) ==> db.data.m == old(db.data.m)
    ensures db.aof != null ==> db.aof.Settings() == old(db.aof.Settings())
    ensures db.aof != null ==>
              db.aof.queue == if args[1] !in old(db.data.m) && args[0] in old(db.data.m) then old(db.aof.Queued(db.index, ["renamenx"] + args))
                              else old(db.aof.queue)
  {
    var src, dest := args[0], args[1];
    if db.data.Get(dest).Some? {
      return Int(0);
    }
    var entity := db.data.Get(src);
    if entity.None? {
      return Error("no such key");
    }
    var _ := db.Removes([src, dest]);
    assert KeySet([src, dest]) == {src, dest} by {
      assert [src, dest][0] == src && [src, dest][1] == dest;
    }
    var _ := db.data.Put(dest, entity.value);
    db.AddAof(["renamenx"] + args);
    r := Int(1);
  }

  /** The keys of m that the compiled pattern matches. */
  function MatchingKeys<V>(m: map<Bytes, V>, pattern: Bytes): set<Bytes>
  {
    set k | k in m && Matches(Compiled(pattern), k)
  }

  /** execKeys: every key the pattern matches, each once, in the dictionary's visiting order. */
  method ExecKeys(db: DB, args: seq<Bytes>) returns (r: Reply)
    requires |args| > 0
    ensures exists keys :: ListsEachOnce(keys, MatchingKeys(db.data.m, args[0])) && r == MultiBulk(Elements(keys))
  {
    var pattern := CompilePattern(args[0]);
    var result: seq<Bytes> := [];
    var unvisited := db.data.m.Keys;
    while unvisited != {}
      invariant unvisited <= db.data.m.Keys
      invariant forall j :: 0 <= j < |result| ==> result[j] in MatchingKeys(db.data.m, args[0]) && result[j] !in unvisited
      invariant forall j, l :: 0 <= j < l < |result| ==> result[j] != result[l]
      invariant forall k :: k in MatchingKeys(db.data.m, args[0]) ==> k in unvisited || k in result
      decreases |unvisited|
    {
      var k :| k in unvisited;
      var matched := IsMatch(pattern, k);
      if matched {
        result := result + [k];
      }
      unvisited := unvisited - {k};
    }
    MatchesListed(result, MatchingKeys(db.data.m, args[0]));
    r := MultiBulk(Elements(result));
  }

  /** A list of distinct members of ks holding every member of ks lists each once. */
  lemma MatchesListed(keys: seq<Bytes>, ks: set<Bytes>)
    requires forall j :: 0 <= j < |keys| ==> keys[j] in ks
    requires forall j, l :: 0 <= j < l < |keys| ==> keys[j] != keys[l]
    requires forall k :: k in ks ==> k in keys
    ensures ListsEachOnce(keys, ks)
  {
    DistinctCard(keys);
    assert (set i | 0 <= i < |keys| :: keys[i]) == ks;
  }
}

=== FILE: dict.dfy ===
/**
 * SyncDict of datastruct/dict/sync_dict.go: a dictionary from string keys
 * to values. The sync.Map it wraps is a map here; its Range visits every
 * key once in an unspecified order, which the loops below take by choosing
 * any key not yet visited.
 */
module Dict {
  import opened Wrappers
  import opened Wire

  /** The number of elements an insertion added: 1 for a new key, 0 otherwise. */
  function Added<V>(m: map<Bytes, V>, key: Bytes): (n: int)
    ensures n == 0 || n == 1
    ensures n == 1 <==> key !in m
  {
    if key in m then 0 else 1
  }

  /** A list that holds every key of ks exactly once. */
  predicate ListsEachOnce(keys: seq<Bytes>, ks: set<Bytes>)
  {
    |keys| == |ks|
    && (forall i :: 0 <= i < |keys| ==> keys[i] in ks)
    && (forall i, j :: 0 <= i < j < |keys| ==> keys[i] != keys[j])
  }

  /** A list of distinct members of ks as long as ks has every member of it. */
  lemma {:induction false} DistinctListCovers(keys: seq<Bytes>, ks: set<Bytes>)
    requires ListsEachOnce(keys, ks)
    ensures forall k :: k in ks ==> k in keys
  {
    var listed := set i | 0 <= i < |keys| :: keys[i];
    assert |listed| == |keys| by { DistinctCard(keys); }
    var missing := ks - listed;
    assert ks == listed + missing && listed !! missing;
    assert |missing| == 0;
    forall k | k in ks ensures k in keys {
      assert k !in missing;
      var i :| 0 <= i < |keys| && keys[i] == k;
    }
  }

  /** The set of a distinct list has as many members as the list. */
  lemma {:induction false} DistinctCard(keys: seq<Bytes>)
    requires forall i, j :: 0 <= i < j < |keys| ==> keys[i] != keys[j]
    ensures |set i | 0 <= i < |keys| :: keys[i]| == |keys|
    decreases |keys|
  {
    if keys != [] {
      var init := keys[..|keys| - 1];
      DistinctCard(init);
      var s := set i | 0 <= i < |keys| :: keys[i];
      var t := set i | 0 <= i < |init| :: init[i];
      assert s == t + {keys[|keys| - 1]};
      assert keys[|keys| - 1] !in t;
    }
  }

  class SyncDict<V> {
    var m: map<Bytes, V>

    /** MakeSyncDict: an empty dictionary. */
    constructor ()
      ensures m == map[]
    {
      m := map[];
    }

    /** Get: the bound value, and whether the key exists. */
    function Get(key: Bytes): (r: Option<V>)
      reads this
      ensures r.Some? <==> key in m
      ensures r.Some? ==> r.value == m[key]
    {
      if key in m then Some(m[key]) else None
    }

    /** Len: counts the keys one by one. */
    method Len() returns (length: int)
      ensures length == |m|
    {
      length := 0;
      var unvisited := m.Keys;
      while unvisited != {}
        invariant unvisited <= m.Keys
        invariant length + |unvisited| == |m.Keys|
        decreases |unvisited|
      {
        var k :| k in unvisited;
        unvisited := unvisited - {k};
        length := length + 1;
      }
    }

    /** Put: always stores; returns 1 iff the key was new. */
    method Put(key: Bytes, val: V) returns (result: int)
      modifies this
      ensures m == old(m)[key := val]
      ensures result == Added(old(m), key)
    {
      var existed := key in m;
      m := m[key := val];
      result := if existed then 0 else 1;
    }

    /** PutIfAbsent: stores and returns 1 only for a new key. */
    method PutIfAbsent(key: Bytes, val: V) returns (result: int)
      modifies this
      ensures key in old(m) ==> m == old(m) && result == 0
      ensures key !in old(m) ==> m == old(m)[key := val] && result == 1
    {
      if key in m {
        return 0;
      }
      m := m[key := val];
      result := 1;
    }

    /** PutIfExists: stores and returns 1 only for a key already there. */
    method PutIfExists(key: Bytes, val: V) returns (result: int)
      modifies this
      ensures key in old(m) ==> m == old(m)[key := val] && result == 1
      ensures key !in old(m) ==> m == old(m) && result == 0
    {
      if key in m {
        m := m[key := val];
        return 1;
      }
      result := 0;
    }

    /** Remove: deletes the key; returns 1 iff it was there. */
    method Remove(key: Bytes) returns (result: int)
      modifies this
      ensures m == old(m) - {key}
      ensures result == 1 - Added(old(m), key)
    {
      var existed := key in m;
      m := m - {key};
      result := if existed then 1 else 0;
    }

    /** Keys: a slice of Len() entries, filled with each key as Range visits it. */
    method Keys() returns (keys: seq<Bytes>)
      ensures ListsEachOnce(keys, m.Keys)
      ensures forall k :: k in m <==> k in keys
    {
      var n := Len();
      var result := new Bytes[n];
      var i := 0;
      var unvisited := m.Keys;
      while unvisited != {}
        invariant unvisited <= m.Keys
        invariant i + |unvisited| == n
        invariant forall j :: 0 <= j < i ==> result[j] in m.Keys && result[j] !in unvisited
        invariant forall j, l :: 0 <= j < l < i ==> result[j] != result[l]
        decreases |unvisited|
      {
        var k :| k in unvisited;
        result[i] := k;
        unvisited := unvisited - {k};
        i := i + 1;
      }
      keys := result[..];
      DistinctListCovers(keys, m.Keys);
    }

    /** Clear: the dictionary is replaced by an empty one. */
    method Clear()
      modifies this
      ensures m == map[]
    {
      m := map[];
    }
  }
}

=== FILE: parser.dfy ===
/**
 * The streaming RESP parser of resp/parser/parser.go, over a finite input.
 * The helpers are functions on a value ReadState (the source passes a
 * *readState that they update); ParseStream is the parse0 loop.
 */
module Parser {
  import opened Wrappers
  import opened Wire
  import opened Replies

  /** Read failures: io.EOF, and io.ErrUnexpectedEOF from a short io.ReadFull. */
  datatype IoError = EOF | UnexpectedEOF

  datatype ParseError =
    | Io(ioErr: IoError)        // terminal: the stream ends after it
    | Protocol(line: Bytes)     // "protocol error: " + line; parsing continues

  /** A Payload has a Data reply, an Err, or (for an unknown first byte) neither. */
  datatype Payload = Payload(data: Option<Reply>, err: Option<ParseError>)

  function DataPayload(r: Reply): Payload { Payload(Some(r), None) }

  function ProtocolPayload(line: Bytes): Payload { Payload(None, Some(Protocol(line))) }

  predicate IsIoPayload(p: Payload) { p.err.Some? && p.err.value.Io? }

  /** readState. bulkLen is never negative between steps: a negative value is reset at once. */
  datatype ReadState = ReadState(
    readingMultiLine: bool,
    expectedArgsCount: nat,
    msgType: Byte,
    args: seq<Bytes>,
    bulkLen: nat)

  /** The zero readState{} the parser starts from and resets to. */
  const Zero: ReadState := ReadState(false, 0, 0 as char, [], 0)

  /** finished(): every expected argument has been read. */
  predicate Finished(st: ReadState)
  {
    st.expectedArgsCount > 0 && |st.args| == st.expectedArgsCount
  }

  /** Index of the first '\n' in s, or |s| when there is none. */
  function NewlineIndex(s: Bytes): (k: nat)
    ensures k <= |s|
    ensures forall i :: 0 <= i < k ==> s[i] != '\n'
    ensures k < |s| ==> s[k] == '\n'
  {
    if s == [] then 0 else if s[0] == '\n' then 0 else 1 + NewlineIndex(s[1..])
  }

  datatype LineResult =
    | Line(msg: Bytes, next: ReadState)   // a CRLF-terminated line
    | IoFailure(ioErr: IoError)
    | Malformed(msg: Bytes)               // the bytes read do not end in CRLF

  /**
   * The largest length make([]byte, n) accepts on a 64-bit platform (2^48);
   * a larger or negative (int64-wrapped) length makes it panic.
   */
  const MaxAlloc: nat := 0x1_0000_0000_0000

  /**
   * readLine panics on the one-byte line "\n" (msg[len(msg)-2] is out of
   * range), and, before reading anything, on a body length bulkLen+2 that
   * make cannot allocate: one above MaxAlloc, or one whose int64 sum wraps
   * negative, which as a mathematical sum is above MaxAlloc too.
   * Step reports both inputs as a crash.
   */
  predicate ReadLineCrashes(st: ReadState, rest: Bytes)
  {
    (st.bulkLen == 0 && 0 < |rest| && rest[0] == '\n') || st.bulkLen + 2 > MaxAlloc
  }

  /**
   * readLine: with bulkLen 0 read up to and including the next '\n'
   * (bufio.ReadBytes), otherwise read exactly bulkLen+2 bytes (io.ReadFull,
   * binary safe) and zero bulkLen.
   */
  function ReadLine(st: ReadState, rest: Bytes): (r: LineResult)
    requires !ReadLineCrashes(st, rest)
    ensures r.Line? ==> 2 <= |r.msg| <= |rest| && r.msg == rest[..|r.msg|]
    ensures r.Line? ==> r.msg[|r.msg| - 2..] == CRLF && r.next == st.(bulkLen := 0)
    ensures r.Line? && st.bulkLen == 0 ==> '\n' !in r.msg[..|r.msg| - 1]
    ensures r.Line? && st.bulkLen > 0 ==> |r.msg| == st.bulkLen + 2
    ensures r.Malformed? ==> 0 < |r.msg| <= |rest| && r.msg == rest[..|r.msg|]
    ensures r.IoFailure? <==>
              (if st.bulkLen == 0 then '\n' !in rest else |rest| < st.bulkLen + 2)
    ensures r.IoFailure? ==> (r.ioErr == EOF <==> st.bulkLen == 0 || rest == [])
  {
    if st.bulkLen == 0 then
      var k := NewlineIndex(rest);
      if k == |rest| then IoFailure(EOF)
      else
        var msg := rest[..k + 1];
        if msg[|msg| - 2] != '\r' then Malformed(msg) else Line(msg, st)
    else
      var n := st.bulkLen + 2;
      if |rest| < n then IoFailure(if |rest| == 0 then EOF else UnexpectedEOF)
      else
        var msg := rest[..n];
        if msg[n - 2] != '\r' || msg[n - 1] != '\n' then Malformed(msg)
        else Line(msg, st.(bulkLen := 0))
  }

  /** parseMultiBulkHeader: None is a protocol error. */
  function ParseMultiBulkHeader(msg: Bytes, st: ReadState): (r: Option<ReadState>)
    requires 3 <= |msg|
    ensures r.Some? <==> ParseUint(msg[1..|msg| - 2], MaxUint32).Some?
    ensures r.Some? && r.value.expectedArgsCount > 0 ==>
              r.value.readingMultiLine && r.value.msgType == msg[0] && r.value.args == []
              && r.value.bulkLen == st.bulkLen
  {
    match ParseUint(msg[1..|msg| - 2], MaxUint32)
    case None => None
    case Some(n) =>
      if n == 0 then Some(st.(expectedArgsCount := 0))
      else Some(st.(msgType := msg[0], readingMultiLine := true, expectedArgsCount := n, args := []))
  }

  datatype BulkHeader = HeaderError | NullBulkHeader | BodyNext(next: ReadState)

  /** parseBulkHeader: -1 is a null bulk, a positive length starts a body, anything else is an error. */
  function ParseBulkHeader(msg: Bytes, st: ReadState): (r: BulkHeader)
    requires 3 <= |msg|
    ensures r.NullBulkHeader? <==> ParseInt64(msg[1..|msg| - 2]) == Some(-1)
    ensures r.BodyNext? <==> (var n := ParseInt64(msg[1..|msg| - 2]); n.Some? && n.value > 0)
    ensures r.BodyNext? ==> r.next.bulkLen > 0 && r.next.expectedArgsCount == 1
                            && r.next.readingMultiLine && r.next.args == []
  {
    match ParseInt64(msg[1..|msg| - 2])
    case None => HeaderError
    case Some(n) =>
      if n == -1 then NullBulkHeader
      else if n > 0 then
        BodyNext(st.(msgType := msg[0], readingMultiLine := true, expectedArgsCount := 1,
                     args := [], bulkLen := n))
      else HeaderError
  }

  /**
   * parseSingleLineReply, with the payload parse0 builds from its result: a
   * status, an error or an integer reply, and neither data nor error for any
   * other first byte.
   */
  function ParseSingleLineReply(msg: Bytes): Payload
    requires 2 <= |msg| && msg[|msg| - 2..] == CRLF
  {
    if msg[0] == '+' then DataPayload(Status(msg[1..|msg| - 2]))
    else if msg[0] == '-' then DataPayload(Error(msg[1..|msg| - 2]))
    else if msg[0] == ':' then
      match ParseInt64(msg[1..|msg| - 2])
      case Some(v) => DataPayload(Int(v))
      case None => ProtocolPayload(msg)
    else Payload(None, None)
  }

  /**
   * readBody: a line starting with '$' is an element header (a length of 0 or
   * less appends an empty element); any other line is an element. It panics
   * on an empty line, which Step reports as a crash. A body line is handed to
   * it too, so a body that starts with '$' is read as a header.
   */
  function ReadBody(msg: Bytes, st: ReadState): (r: Option<ReadState>)
    requires 3 <= |msg|
    ensures r.Some? ==> r.value.readingMultiLine == st.readingMultiLine
                        && r.value.expectedArgsCount == st.expectedArgsCount
                        && r.value.msgType == st.msgType
    ensures r.Some? ==> r.value.args == st.args || r.value.args == st.args + [msg[..|msg| - 2]]
                        || r.value.args == st.args + [[]]
    ensures msg[0] != '$' ==> r == Some(st.(args := st.args + [msg[..|msg| - 2]]))
  {
    if msg[0] == '$' then
      match ParseInt64(msg[1..|msg| - 2])
      case None => None
      case Some(n) =>
        if n <= 0 then Some(st.(args := st.args + [[]], bulkLen := 0))
        else Some(st.(bulkLen := n))
    else Some(st.(args := st.args + [msg[..|msg| - 2]]))
  }

  /** The reply a finished state stands for: a MultiBulk for '*', a Bulk for '$'. */
  function Assemble(st: ReadState): Option<Reply>
    requires Finished(st)
  {
    if st.msgType == '*' then Some(MultiBulk(Elements(st.args)))
    else if st.msgType == '$' then Some(Bulk(st.args[0]))
    else None
  }

  /** What parse0 does with one CRLF-terminated line: maybe send a payload, and the next state. */
  datatype LineOutcome = LineOutcome(out: Option<Payload>, next: ReadState)

  /** The dispatch of parse0 on a line read without error. */
  function HandleLine(msg: Bytes, st: ReadState): (o: LineOutcome)
    requires 2 <= |msg| && msg[|msg| - 2..] == CRLF
    requires st.readingMultiLine ==> 3 <= |msg|
    ensures o.out.Some? ==> o.next == Zero && !IsIoPayload(o.out.value)
  {
    if !st.readingMultiLine then
      if msg[0] == '*' then
        match ParseMultiBulkHeader(msg, st)
        case None => LineOutcome(Some(ProtocolPayload(msg)), Zero)
        case Some(st2) =>
          if st2.expectedArgsCount == 0 then LineOutcome(Some(DataPayload(EmptyMultiBulk)), Zero)
          else LineOutcome(None, st2)
      else if msg[0] == '$' then
        match ParseBulkHeader(msg, st)
        case HeaderError => LineOutcome(Some(ProtocolPayload(msg)), Zero)
        case NullBulkHeader => LineOutcome(Some(DataPayload(NullBulk)), Zero)
        case BodyNext(st2) => LineOutcome(None, st2)
      else LineOutcome(Some(ParseSingleLineReply(msg)), Zero)
    else
      match ReadBody(msg, st)
      case None => LineOutcome(Some(ProtocolPayload(msg)), Zero)
      case Some(st2) =>
        if Finished(st2) then LineOutcome(Some(Payload(Assemble(st2), None)), Zero)
        else LineOutcome(None, st2)
  }

  /** One turn of parse0's loop. */
  datatype StepResult =
    | Continue(out: Option<Payload>, next: ReadState, used: nat)
    | Stop(last: Payload)   // an I/O error: sent, then the channel is closed
    | Crash                 // a panic: recovered and logged, nothing more is sent

  /**
   * The inputs on which parse0 panics: the one-byte line "\n" or an
   * unallocatable body length in readLine, and an empty line in readBody.
   */
  predicate StepCrashes(st: ReadState, rest: Bytes)
  {
    ReadLineCrashes(st, rest)
    || (var r := ReadLine(st, rest); r.Line? && st.readingMultiLine && |r.msg| == 2)
  }

  function Step(st: ReadState, rest: Bytes): (s: StepResult)
    ensures s.Crash? <==> StepCrashes(st, rest)
    ensures s.Continue? ==> 0 < s.used <= |rest|
    ensures s.Continue? && s.out.Some? ==> s.next == Zero && !IsIoPayload(s.out.value)
    ensures s.Stop? ==> IsIoPayload(s.last) && s.last.data.None?
  {
    if ReadLineCrashes(st, rest) then Crash
    else
      match ReadLine(st, rest)
      case IoFailure(e) => Stop(Payload(None, Some(Io(e))))
      case Malformed(msg) => Continue(Some(ProtocolPayload(msg)), Zero, |msg|)
      case Line(msg, st1) =>
        if st.readingMultiLine && |msg| == 2 then Crash
        else
          var o := HandleLine(msg, st1);
          Continue(o.out, o.next, |msg|)
  }

  function Emitted(out: Option<Payload>): seq<Payload>
  {
    if out.Some? then [out.value] else []
  }

  /** Every payload parse0 sends from state st over the rest of the input. */
  function Run(st: ReadState, rest: Bytes): seq<Payload>
    decreases |rest|
  {
    match Step(st, rest)
    case Crash => []
    case Stop(last) => [last]
    case Continue(out, next, used) => Emitted(out) + Run(next, rest[used..])
  }

  /** What ParseStream sends on its channel, in order, for the whole input. */
  function Parse(input: Bytes): seq<Payload>
  {
    Run(Zero, input)
  }

  /**
   * The payloads already sent, followed by every payload parse0 sends from
   * state st over the rest of the input: the loop's view of Run.
   */
  function Drain(st: ReadState, rest: Bytes, sent: seq<Payload>): seq<Payload>
    decreases |rest|
  {
    match Step(st, rest)
    case Crash => sent
    case Stop(last) => sent + [last]
    case Continue(out, next, used) => Drain(next, rest[used..], sent + Emitted(out))
  }

  lemma {:induction false} DrainIsRun(st: ReadState, rest: Bytes, sent: seq<Payload>)
    ensures Drain(st, rest, sent) == sent + Run(st, rest)
    decreases |rest|
  {
    match Step(st, rest)
    case Crash =>
    case Stop(last) =>
    case Continue(out, next, used) =>
      DrainIsRun(next, rest[used..], sent + Emitted(out));
  }

  /** ParseStream/parse0: read lines, dispatch on the state, send payloads. */
  method ParseStream(input: Bytes) returns (payloads: seq<Payload>)
    ensures payloads == Parse(input)
  {
    var state := Zero;
    var unread := input;
    payloads := [];
    while true
      invariant Drain(state, unread, payloads) == Drain(Zero, input, [])
      decreases |unread|
    {
      var out, next, used, stop := ParseStep(state, unread);
      payloads := payloads + Emitted(out);
      if stop {
        DrainIsRun(Zero, input, []);
        return;
      }
      state, unread := next, unread[used..];
    }
  }

  /** One turn of parse0's loop: read a line from unread, then send what it completes. */
  method ParseStep(st: ReadState, unread: Bytes) returns (out: Option<Payload>, next: ReadState, used: nat, stop: bool)
    ensures Step(st, unread) == if !stop then Continue(out, next, used)
                                else if out.Some? then Stop(out.value) else Crash
  {
    out, next, used, stop := None, st, 0, true;
    if ReadLineCrashes(st, unread) {
      return;
    }
    match ReadLine(st, unread)
    case IoFailure(e) =>
      out := Some(Payload(None, Some(Io(e))));
    case Malformed(msg) =>
      out, next, used, stop := Some(ProtocolPayload(msg)), Zero, |msg|, false;
    case Line(msg, st1) =>
      if st1.readingMultiLine && |msg| == 2 {
        return;
      }
      out, next := ParseLine(msg, st1);
      used, stop := |msg|, false;
  }

  /** The "parse line" half of parse0's loop body: dispatch on the state and the first byte. */
  method ParseLine(msg: Bytes, st: ReadState) returns (out: Option<Payload>, state: ReadState)
    requires 2 <= |msg| && msg[|msg| - 2..] == CRLF
    requires st.readingMultiLine ==> 3 <= |msg|
    ensures LineOutcome(out, state) == HandleLine(msg, st)
  {
    out := None;
    state := st;
    if !state.readingMultiLine {
      if msg[0] == '*' {
        var header := ParseMultiBulkHeader(msg, state);
        if header.None? {
          out, state := Some(ProtocolPayload(msg)), Zero;
          assert LineOutcome(out, state) == HandleLine(msg, st);
        } else if header.value.expectedArgsCount == 0 {
          out, state := Some(DataPayload(EmptyMultiBulk)), Zero;
          assert LineOutcome(out, state) == HandleLine(msg, st);
        } else {
          state := header.value;
          assert LineOutcome(out, state) == HandleLine(msg, st);
        }
      } else if msg[0] == '$' {
        var header := ParseBulkHeader(msg, state);
        if header.HeaderError? {
          out, state := Some(ProtocolPayload(msg)), Zero;
          assert LineOutcome(out, state) == HandleLine(msg, st);
        } else if header.NullBulkHeader? {
          out, state := Some(DataPayload(NullBulk)), Zero;
          assert LineOutcome(out, state) == HandleLine(msg, st);
        } else {
          state := header.next;
          assert LineOutcome(out, state) == HandleLine(msg, st);
        }
      } else {
        out, state := Some(ParseSingleLineReply(msg)), Zero;
        assert LineOutcome(out, state) == HandleLine(msg, st);
      }
    } else {
      var body := ReadBody(msg, state);
      if body.None? {
        out, state := Some(ProtocolPayload(msg)), Zero;
        assert LineOutcome(out, state) == HandleLine(msg, st);
      } else if Finished(body.value) {
        out, state := Some(Payload(Assemble(body.value), None)), Zero;
        assert LineOutcome(out, state) == HandleLine(msg, st);
      } else {
        state := body.value;
        assert LineOutcome(out, state) == HandleLine(msg, st);
      }
    }
  }
}

=== FILE: parser_properties.dfy ===
/**
 * What the streaming parser promises: an I/O error ends the stream, a
 * protocol error resets it, and every reply the server writes comes back
 * from the parser (decode after encode). The only exceptions come from
 * this encoder and parser, not from RESP itself, and each has a lemma:
 * DollarBodyIsReadAsHeader, EmptyElementCrashes, LastEmptyElement,
 * EmptyBulkIsNotNullBulk (an empty BulkReply is written as "$-1") and
 * HugeBulkCrashes.
 */
module ParserProperties {
  import opened Wrappers
  import opened Wire
  import opened Replies
  import opened Parser

  /** The payload parse0 sends when the input runs out between frames. */
  const EndOfInput: Payload := Payload(None, Some(Io(EOF)))

  /** An I/O error payload is the last one sent: nothing follows it. */
  lemma {:induction false} IoPayloadIsLast(st: ReadState, rest: Bytes)
    ensures forall i :: 0 <= i < |Run(st, rest)| && IsIoPayload(Run(st, rest)[i]) ==> i == |Run(st, rest)| - 1
    decreases |rest|
  {
    match Step(st, rest)
    case Crash =>
    case Stop(last) =>
    case Continue(out, next, used) =>
      IoPayloadIsLast(next, rest[used..]);
      var tail := Run(next, rest[used..]);
      assert Run(st, rest) == Emitted(out) + tail;
      forall i | 0 <= i < |Run(st, rest)| && IsIoPayload(Run(st, rest)[i])
        ensures i == |Run(st, rest)| - 1
      {
        if out.Some? {
          assert !IsIoPayload(out.value);
          assert i != 0;
          assert Run(st, rest)[i] == tail[i - 1];
        } else {
          assert Run(st, rest)[i] == tail[i];
        }
      }
  }

  /** A line ending in CRLF with no earlier '\n' is read whole in line mode. */
  lemma ReadLineInLineMode(st: ReadState, msg: Bytes, rest: Bytes)
    requires st.bulkLen == 0 && 2 <= |msg| && msg[|msg| - 2..] == CRLF
    requires forall i :: 0 <= i < |msg| - 1 ==> msg[i] != '\n'
    ensures !ReadLineCrashes(st, msg + rest)
    ensures ReadLine(st, msg + rest) == Line(msg, st)
  {
    var s := msg + rest;
    assert s[|msg| - 1] == '\n';
    var k := NewlineIndex(s);
    assert k == |msg| - 1;
    assert s[..k + 1] == msg;
  }

  /** In body mode exactly bulkLen+2 bytes are read, whatever they contain. */
  lemma ReadLineInBodyMode(st: ReadState, body: Bytes, rest: Bytes)
    requires st.bulkLen == |body| > 0 && |body| + 2 <= MaxAlloc
    ensures !ReadLineCrashes(st, body + CRLF + rest)
    ensures ReadLine(st, body + CRLF + rest) == Line(body + CRLF, st.(bulkLen := 0))
  {
    var s := body + CRLF + rest;
    assert s[..|body| + 2] == body + CRLF;
  }

  /** Run over a line that is read without error, does not crash the parser and has outcome o. */
  lemma RunOverLine(st: ReadState, msg: Bytes, rest: Bytes, o: LineOutcome)
    requires 2 <= |msg| && msg[|msg| - 2..] == CRLF
    requires !ReadLineCrashes(st, msg + rest) && ReadLine(st, msg + rest) == Line(msg, st.(bulkLen := 0))
    requires st.readingMultiLine ==> 3 <= |msg|
    requires HandleLine(msg, st.(bulkLen := 0)) == o
    ensures Run(st, msg + rest) == Emitted(o.out) + Run(o.next, rest)
  {
    assert (msg + rest)[|msg|..] == rest;
  }

  /** A header or text line: read up to its '\n' and dispatched with outcome o. */
  lemma RunOverTextLine(st: ReadState, msg: Bytes, rest: Bytes, o: LineOutcome)
    requires st.bulkLen == 0 && 3 <= |msg| && msg[|msg| - 2..] == CRLF
    requires forall i :: 0 <= i < |msg| - 1 ==> msg[i] != '\n'
    requires HandleLine(msg, st) == o
    ensures Run(st, msg + rest) == Emitted(o.out) + Run(o.next, rest)
  {
    ReadLineInLineMode(st, msg, rest);
    RunOverLine(st, msg, rest, o);
  }

  /** A body of bulkLen bytes and CRLF: read whole and dispatched with outcome o. */
  lemma RunOverBody(st: ReadState, body: Bytes, rest: Bytes, o: LineOutcome)
    requires st.bulkLen == |body| > 0 && |body| + 2 <= MaxAlloc
    requires HandleLine(body + CRLF, st.(bulkLen := 0)) == o
    ensures Run(st, body + CRLF + rest) == Emitted(o.out) + Run(o.next, rest)
  {
    ReadLineInBodyMode(st, body, rest);
    RunOverLine(st, body + CRLF, rest, o);
  }

  /** The header line "$n" or "*n" of a count n. */
  function Header(kind: Byte, n: nat): (h: Bytes)
    ensures 3 <= |h| && h[0] == kind && h[|h| - 2..] == CRLF && h[1..|h| - 2] == NatToDecimal(n)
    ensures kind != '\n' ==> forall i :: 0 <= i < |h| - 1 ==> h[i] != '\n'
  {
    [kind] + NatToDecimal(n) + CRLF
  }

  /** "*0\r\n" yields EmptyMultiBulkReply, and the parser starts afresh after it. */
  lemma EmptyMultiBulkFrame(rest: Bytes)
    ensures Run(Zero, "*0\r\n" + rest) == [DataPayload(EmptyMultiBulk)] + Run(Zero, rest)
  {
    var msg: Bytes := "*0\r\n";
    assert msg[1..|msg| - 2] == "0";
    assert ParseUint("0", MaxUint32) == Some(0);
    RunOverTextLine(Zero, msg, rest, LineOutcome(Some(DataPayload(EmptyMultiBulk)), Zero));
  }

  /** "$-1\r\n" yields NullBulkReply, and the parser starts afresh after it. */
  lemma NullBulkFrame(rest: Bytes)
    ensures Run(Zero, "$-1\r\n" + rest) == [DataPayload(NullBulk)] + Run(Zero, rest)
  {
    var msg: Bytes := "$-1\r\n";
    assert msg[1..|msg| - 2] == "-1";
    assert ParseUint("1", MaxInt64 + 1) == Some(1);
    RunOverTextLine(Zero, msg, rest, LineOutcome(Some(DataPayload(NullBulk)), Zero));
  }

  /** A line that does not end in CRLF is one protocol error; the next line is parsed from scratch. */
  lemma MalformedLineResets(st: ReadState, msg: Bytes, rest: Bytes)
    requires st.bulkLen == 0 && 2 <= |msg| && msg[|msg| - 1] == '\n' && msg[|msg| - 2] != '\r'
    requires forall i :: 0 <= i < |msg| - 1 ==> msg[i] != '\n'
    ensures Run(st, msg + rest) == [ProtocolPayload(msg)] + Run(Zero, rest)
  {
    var s := msg + rest;
    assert s[|msg| - 1] == '\n';
    var k := NewlineIndex(s);
    assert s[..k + 1] == msg;
    assert s[|msg|..] == rest;
  }

  /** The text of a status or error line: no '\n', which would end the line early. */
  predicate LineText(s: Bytes)
  {
    forall i :: 0 <= i < |s| ==> s[i] != '\n'
  }

  /** A bulk the parser reads back: non-empty, a body make can allocate, not starting with '$'. */
  predicate RoundTripArg(a: Bytes)
  {
    0 < |a| && |a| + 2 <= MaxAlloc && a[0] != '$'
  }

  /** An element of a multi-bulk reply the parser reads back: nil, or a RoundTripArg. */
  predicate RoundTripElement(e: Option<Bytes>)
  {
    e.None? || RoundTripArg(e.value)
  }

  /** The replies whose serialisation the parser reads back as one payload. */
  predicate Transmissible(r: Reply)
  {
    match r
    case Status(s) => LineText(s)
    case Error(s) => LineText(s)
    case Int(code) => IsInt64(code)
    case Bulk(arg) => RoundTripArg(arg)
    case MultiBulk(args) =>
      |args| <= MaxUint32 && forall i :: 0 <= i < |args| ==> RoundTripElement(args[i])
    case NoReply => false
    case _ => true
  }

  /** The element the parser reads back: a nil element comes back empty. */
  function Received(e: Option<Bytes>): Bytes
  {
    match e
    case None => []
    case Some(a) => a
  }

  function ReceivedAll(args: seq<Option<Bytes>>): (r: seq<Bytes>)
    ensures |r| == |args|
    ensures forall i :: 0 <= i < |args| ==> r[i] == Received(args[i])
  {
    if args == [] then [] else [Received(args[0])] + ReceivedAll(args[1..])
  }

  /** The reply the parser reads back from the bytes of r. */
  function Decoded(r: Reply): Reply
  {
    match r
    case Pong => Status("PONG")
    case Ok => Status("OK")
    case MultiBulk(args) =>
      if args == [] then EmptyMultiBulk else MultiBulk(Elements(ReceivedAll(args)))
    case _ => r
  }

  /** A state part way through a multi-bulk reply: no body pending, k of n elements in. */
  predicate InMultiBulk(st: ReadState)
  {
    st.readingMultiLine && st.msgType == '*' && st.bulkLen == 0 && |st.args| < st.expectedArgsCount
  }

  /** What HandleLine does once an element is appended to a reply in progress. */
  function Appended(st2: ReadState): LineOutcome
  {
    if Finished(st2) then LineOutcome(Some(DataPayload(MultiBulk(Elements(st2.args)))), Zero)
    else LineOutcome(None, st2)
  }

  /** A nil element "$-1\r\n" appends an empty element. */
  lemma NilElement(st: ReadState, rest: Bytes)
    requires InMultiBulk(st)
    ensures var st2 := st.(args := st.args + [[]]);
            Run(st, ElementFrame(None) + rest) == Emitted(Appended(st2).out) + Run(Appended(st2).next, rest)
  {
    var msg: Bytes := "$-1\r\n";
    assert ElementFrame(None) == msg;
    assert msg[1..|msg| - 2] == "-1";
    assert ParseUint("1", MaxInt64 + 1) == Some(1);
    RunOverTextLine(st, msg, rest, Appended(st.(args := st.args + [[]])));
  }

  /** The element header "$n" with n > 0 announces a body of n bytes. */
  lemma ElementHeaderHandled(st: ReadState, n: nat)
    requires InMultiBulk(st) && 0 < n <= MaxInt64
    ensures HandleLine(Header('$', n), st) == LineOutcome(None, st.(bulkLen := n))
  {
    ParseUintOfDecimal(n, MaxInt64);
  }

  /** A body that does not start with '$' is appended as one element. */
  lemma ElementBodyHandled(st: ReadState, a: Bytes)
    requires InMultiBulk(st) && RoundTripArg(a)
    ensures HandleLine(a + CRLF, st) == Appended(st.(args := st.args + [a]))
  {
    assert (a + CRLF)[..|a + CRLF| - 2] == a;
  }

  /** "$n\r\n" then n body bytes and CRLF appends the body as one element. */
  lemma BulkElement(st: ReadState, a: Bytes, rest: Bytes)
    requires InMultiBulk(st) && RoundTripArg(a)
    ensures var st2 := st.(args := st.args + [a]);
            Run(st, ElementFrame(Some(a)) + rest) == Emitted(Appended(st2).out) + Run(Appended(st2).next, rest)
  {
    var header := Header('$', |a|);
    assert ElementFrame(Some(a)) + rest == header + (a + CRLF + rest);
    ElementHeaderHandled(st, |a|);
    RunOverTextLine(st, header, a + CRLF + rest, LineOutcome(None, st.(bulkLen := |a|)));
    ElementBodyHandled(st, a);
    RunOverBody(st.(bulkLen := |a|), a, rest, Appended(st.(args := st.args + [a])));
  }

  /** One element of a multi-bulk reply appends what the parser receives for it. */
  lemma ElementRead(st: ReadState, e: Option<Bytes>, rest: Bytes)
    requires InMultiBulk(st) && RoundTripElement(e)
    ensures var st2 := st.(args := st.args + [Received(e)]);
            Run(st, ElementFrame(e) + rest) == Emitted(Appended(st2).out) + Run(Appended(st2).next, rest)
  {
    if e.None? {
      NilElement(st, rest);
    } else {
      BulkElement(st, e.value, rest);
    }
  }

  /** A multi-bulk reply in progress whose remaining elements are args. */
  predicate Pending(st: ReadState, args: seq<Option<Bytes>>)
  {
    InMultiBulk(st) && |st.args| + |args| == st.expectedArgsCount
    && forall i :: 0 <= i < |args| ==> RoundTripElement(args[i])
  }

  /** A reply with one element left: that element completes it, and the reply is sent. */
  lemma LastElementRead(st: ReadState, args: seq<Option<Bytes>>, rest: Bytes)
    requires Pending(st, args) && |args| == 1
    ensures Run(st, ElementFrames(args) + rest)
            == [DataPayload(MultiBulk(Elements(st.args + ReceivedAll(args))))] + Run(Zero, rest)
  {
    assert ElementFrames(args) + rest == ElementFrame(args[0]) + rest;
    assert st.args + ReceivedAll(args) == st.args + [Received(args[0])];
    ElementRead(st, args[0], rest);
  }

  /** An element before the last is appended to the reply and nothing is sent. */
  lemma InnerElementRead(st: ReadState, args: seq<Option<Bytes>>, rest: Bytes)
    requires Pending(st, args) && 1 < |args|
    ensures Pending(st.(args := st.args + [Received(args[0])]), args[1..])
    ensures Run(st, ElementFrames(args) + rest)
            == Run(st.(args := st.args + [Received(args[0])]), ElementFrames(args[1..]) + rest)
  {
    var tail := ElementFrames(args[1..]) + rest;
    assert ElementFrames(args) + rest == ElementFrame(args[0]) + tail;
    ElementRead(st, args[0], tail);
  }

  /** Receiving a list of elements is receiving its first, then the rest. */
  lemma ReceivedAllCons(prefix: seq<Bytes>, args: seq<Option<Bytes>>)
    requires args != []
    ensures prefix + ReceivedAll(args) == (prefix + [Received(args[0])]) + ReceivedAll(args[1..])
  {
  }

  /** The elements of a multi-bulk reply, read one after another, complete it. */
  lemma {:induction false} ElementsRead(st: ReadState, args: seq<Option<Bytes>>, rest: Bytes)
    requires Pending(st, args) && args != []
    ensures Run(st, ElementFrames(args) + rest)
            == [DataPayload(MultiBulk(Elements(st.args + ReceivedAll(args))))] + Run(Zero, rest)
    decreases |args|
  {
    if |args| == 1 {
      LastElementRead(st, args, rest);
    } else {
      var st2 := st.(args := st.args + [Received(args[0])]);
      InnerElementRead(st, args, rest);
      ElementsRead(st2, args[1..], rest);
      ReceivedAllCons(st.args, args);
    }
  }

  /** A status or error line is dispatched as that reply. */
  lemma TextLineHandled(r: Reply)
    requires (r.Status? || r.Error?) && LineText(r.status)
    ensures var msg := ToBytes(r);
            3 <= |msg| && msg[|msg| - 2..] == CRLF && (forall i :: 0 <= i < |msg| - 1 ==> msg[i] != '\n')
            && HandleLine(msg, Zero) == LineOutcome(Some(DataPayload(r)), Zero)
  {
    var msg := ToBytes(r);
    assert msg[1..|msg| - 2] == r.status;
  }

  /** A status or error line is read back unchanged. */
  lemma TextLineRoundTrip(r: Reply, rest: Bytes)
    requires (r.Status? || r.Error?) && LineText(r.status)
    ensures Run(Zero, ToBytes(r) + rest) == [DataPayload(r)] + Run(Zero, rest)
  {
    TextLineHandled(r);
    RunOverTextLine(Zero, ToBytes(r), rest, LineOutcome(Some(DataPayload(r)), Zero));
  }

  /** An integer line is dispatched as the same int64. */
  lemma IntHandled(code: int)
    requires IsInt64(code)
    ensures var msg := ToBytes(Int(code));
            3 <= |msg| && msg[|msg| - 2..] == CRLF && (forall i :: 0 <= i < |msg| - 1 ==> msg[i] != '\n')
            && HandleLine(msg, Zero) == LineOutcome(Some(DataPayload(Int(code))), Zero)
  {
    var msg := ToBytes(Int(code));
    assert msg[1..|msg| - 2] == FormatInt(code);
    ParseIntOfFormat(code);
  }

  /** An integer line is read back as the same int64. */
  lemma IntRoundTrip(code: int, rest: Bytes)
    requires IsInt64(code)
    ensures Run(Zero, ToBytes(Int(code)) + rest) == [DataPayload(Int(code))] + Run(Zero, rest)
  {
    IntHandled(code);
    RunOverTextLine(Zero, ToBytes(Int(code)), rest, LineOutcome(Some(DataPayload(Int(code))), Zero));
  }

  /** The state after the header of a bulk reply of n bytes. */
  function BulkBody(n: nat): ReadState
  {
    ReadState(true, 1, '$', [], n)
  }

  /** The header "$n" with n > 0, outside a multi-bulk reply, announces a bulk body. */
  lemma BulkHeaderHandled(n: nat)
    requires 0 < n <= MaxInt64
    ensures HandleLine(Header('$', n), Zero) == LineOutcome(None, BulkBody(n))
  {
    ParseUintOfDecimal(n, MaxInt64);
  }

  /** The body of a bulk reply completes it, unless it starts with '$'. */
  lemma BulkBodyHandled(a: Bytes)
    requires RoundTripArg(a)
    ensures HandleLine(a + CRLF, BulkBody(|a|).(bulkLen := 0)) == LineOutcome(Some(DataPayload(Bulk(a))), Zero)
  {
    assert (a + CRLF)[..|a + CRLF| - 2] == a;
  }

  /** A non-empty bulk: its header, then exactly its bytes and CRLF. */
  lemma BulkRoundTrip(a: Bytes, rest: Bytes)
    requires RoundTripArg(a)
    ensures Run(Zero, ToBytes(Bulk(a)) + rest) == [DataPayload(Bulk(a))] + Run(Zero, rest)
  {
    var header := Header('$', |a|);
    assert ToBytes(Bulk(a)) + rest == header + (a + CRLF + rest);
    BulkHeaderHandled(|a|);
    RunOverTextLine(Zero, header, a + CRLF + rest, LineOutcome(None, BulkBody(|a|)));
    BulkBodyHandled(a);
    RunOverBody(BulkBody(|a|), a, rest, LineOutcome(Some(DataPayload(Bulk(a))), Zero));
  }

  /** The header "*n" with 0 < n starts a multi-bulk reply of n elements. */
  lemma MultiBulkHeaderHandled(n: nat)
    requires 0 < n <= MaxUint32
    ensures HandleLine(Header('*', n), Zero) == LineOutcome(None, ReadState(true, n, '*', [], 0))
  {
    ParseUintOfDecimal(n, MaxUint32);
  }

  /** A multi-bulk reply: its header, then its elements one after another. */
  lemma MultiBulkRoundTrip(args: seq<Option<Bytes>>, rest: Bytes)
    requires Transmissible(MultiBulk(args))
    ensures Run(Zero, ToBytes(MultiBulk(args)) + rest) == [DataPayload(Decoded(MultiBulk(args)))] + Run(Zero, rest)
  {
    if args == [] {
      assert ToBytes(MultiBulk(args)) + rest == "*0\r\n" + rest;
      EmptyMultiBulkFrame(rest);
    } else {
      var header := Header('*', |args|);
      assert ToBytes(MultiBulk(args)) + rest == header + (ElementFrames(args) + rest);
      var st1 := ReadState(true, |args|, '*', [], 0);
      MultiBulkHeaderHandled(|args|);
      RunOverTextLine(Zero, header, ElementFrames(args) + rest, LineOutcome(None, st1));
      assert Pending(st1, args);
      ElementsRead(st1, args, rest);
      assert st1.args + ReceivedAll(args) == ReceivedAll(args);
    }
  }

  /**
   * Decode after encode: the parser reads back every transmissible reply as
   * one payload holding Decoded(r), and starts afresh on the bytes after it.
   */
  lemma RoundTrip(r: Reply, rest: Bytes)
    requires Transmissible(r)
    ensures Run(Zero, ToBytes(r) + rest) == [DataPayload(Decoded(r))] + Run(Zero, rest)
  {
    match r
    case Bulk(a) => BulkRoundTrip(a, rest);
    case MultiBulk(args) => MultiBulkRoundTrip(args, rest);
    case NullBulk => NullBulkFrame(rest);
    case EmptyMultiBulk => EmptyMultiBulkFrame(rest);
    case Status(_) => TextLineRoundTrip(r, rest);
    case Error(_) => TextLineRoundTrip(r, rest);
    case Int(code) => IntRoundTrip(code, rest);
    case Pong =>
      assert ToBytes(Pong) == ToBytes(Status("PONG"));
      TextLineRoundTrip(Status("PONG"), rest);
    case Ok =>
      assert ToBytes(Ok) == ToBytes(Status("OK"));
      TextLineRoundTrip(Status("OK"), rest);
  }

  /**
   * With no bytes left the parser sends io.EOF, whatever state it is in,
   * unless it is waiting for a body too long to allocate: then it panics.
   */
  lemma EndOfInputEnds(st: ReadState)
    ensures st.bulkLen + 2 <= MaxAlloc ==> Run(st, []) == [EndOfInput]
    ensures st.bulkLen + 2 > MaxAlloc ==> Run(st, []) == []
  {
    if st.bulkLen + 2 <= MaxAlloc {
      assert !StepCrashes(st, []);
    }
  }

  /**
   * A bulk header announcing 2^63-1 bytes is accepted, and the read of its
   * body then panics before consuming anything: nothing more is sent.
   */
  lemma HugeBulkCrashes(rest: Bytes)
    ensures Run(Zero, Header('$', MaxInt64) + rest) == []
  {
    BulkHeaderHandled(MaxInt64);
    RunOverTextLine(Zero, Header('$', MaxInt64), rest, LineOutcome(None, BulkBody(MaxInt64)));
  }

  /** The frame of the bulk "$1". */
  lemma DollarBulkBytes()
    ensures ToBytes(Bulk("$1")) == "$2\r\n" + "$1\r\n"
  {
    var a: Bytes := "$1";
    assert NatToDecimal(|a|) == "2";
  }

  /** The header "$2" announces a two-byte body. */
  lemma DollarHeaderRead(rest: Bytes)
    ensures Run(Zero, "$2\r\n" + rest) == Run(ReadState(true, 1, '$', [], 2), rest)
  {
    var header: Bytes := "$2\r\n";
    assert header[1..|header| - 2] == "2";
    assert ParseUint("2", MaxInt64) == Some(2);
    RunOverTextLine(Zero, header, rest, LineOutcome(None, ReadState(true, 1, '$', [], 2)));
  }

  /** The body "$1" is parsed as the header of a one-byte element. */
  lemma DollarBodyRead()
    ensures Run(ReadState(true, 1, '$', [], 2), "$1\r\n") == Run(ReadState(true, 1, '$', [], 1), [])
  {
    var st1 := ReadState(true, 1, '$', [], 2);
    var msg: Bytes := "$1\r\n";
    assert msg == "$1" + CRLF + [];
    assert msg[1..|msg| - 2] == "1";
    assert ParseUint("1", MaxInt64) == Some(1);
    RunOverBody(st1, "$1", [], LineOutcome(None, st1.(bulkLen := 1)));
  }

  /**
   * Why RoundTripArg excludes a leading '$': the bulk "$1" goes out as
   * "$2\r\n$1\r\n", its body is taken for the header of a one-byte element,
   * and the stream ends waiting for that element.
   */
  lemma DollarBodyIsReadAsHeader()
    ensures Run(Zero, ToBytes(Bulk("$1"))) == [EndOfInput]
  {
    DollarBulkBytes();
    DollarHeaderRead("$1\r\n");
    DollarBodyRead();
    EndOfInputEnds(ReadState(true, 1, '$', [], 1));
  }

  /**
   * Why RoundTripElement excludes the empty bulk: "$0\r\n" already appends an
   * empty element, so before the last element its CRLF body is read as an
   * empty line, on which readBody panics; the stream then ends with nothing
   * more sent. (For the last element, see LastEmptyElement.)
   */
  lemma EmptyElementCrashes(st: ReadState, rest: Bytes)
    requires InMultiBulk(st) && |st.args| + 1 < st.expectedArgsCount
    ensures Run(st, ElementFrame(Some([])) + rest) == []
  {
    ElementFrameCases(Some([]));
    assert ElementFrame(Some([])) + rest == "$0\r\n" + (CRLF + rest);
    ZeroHeaderAppendsEmpty(st, CRLF + rest);
    EmptyBodyLineCrashes(st.(args := st.args + [[]]), rest);
  }

  /**
   * An empty last element does not crash: "$0\r\n" completes the reply at
   * once, and its CRLF body is then read from the zero state as a line of
   * unknown type, which yields a payload with neither data nor error.
   */
  lemma LastEmptyElement(st: ReadState, rest: Bytes)
    requires InMultiBulk(st) && |st.args| + 1 == st.expectedArgsCount
    ensures Run(st, ElementFrame(Some([])) + rest)
            == [DataPayload(MultiBulk(Elements(st.args + [[]]))), Payload(None, None)] + Run(Zero, rest)
  {
    ElementFrameCases(Some([]));
    assert ElementFrame(Some([])) + rest == "$0\r\n" + (CRLF + rest);
    LastZeroHeaderCompletes(st, CRLF + rest);
    StrayLineEnd(rest);
  }

  /** The header "$0" for the last element completes the reply at once. */
  lemma LastZeroHeaderCompletes(st: ReadState, rest: Bytes)
    requires InMultiBulk(st) && |st.args| + 1 == st.expectedArgsCount
    ensures Run(st, "$0\r\n" + rest) == [DataPayload(MultiBulk(Elements(st.args + [[]])))] + Run(Zero, rest)
  {
    var header: Bytes := "$0\r\n";
    assert header[1..|header| - 2] == "0";
    assert ParseUint("0", MaxInt64) == Some(0);
    RunOverTextLine(st, header, rest, Appended(st.(args := st.args + [[]])));
  }

  /** A bare CRLF between replies has an unknown first byte: neither data nor error. */
  lemma StrayLineEnd(rest: Bytes)
    ensures Run(Zero, CRLF + rest) == [Payload(None, None)] + Run(Zero, rest)
  {
    ReadLineInLineMode(Zero, CRLF, rest);
    RunOverLine(Zero, CRLF, rest, LineOutcome(Some(Payload(None, None)), Zero));
  }

  /** In a multi-bulk reply, the header "$0" appends an empty element at once. */
  lemma ZeroHeaderAppendsEmpty(st: ReadState, rest: Bytes)
    requires InMultiBulk(st) && |st.args| + 1 < st.expectedArgsCount
    ensures Run(st, "$0\r\n" + rest) == Run(st.(args := st.args + [[]]), rest)
  {
    var header: Bytes := "$0\r\n";
    assert header[1..|header| - 2] == "0";
    assert ParseUint("0", MaxInt64) == Some(0);
    RunOverTextLine(st, header, rest, LineOutcome(None, st.(args := st.args + [[]])));
  }

  /** An empty line while reading a multi-bulk body is the readBody panic. */
  lemma EmptyBodyLineCrashes(st: ReadState, rest: Bytes)
    requires st.readingMultiLine && st.bulkLen == 0
    ensures Run(st, CRLF + rest) == []
  {
    ReadLineInLineMode(st, CRLF, rest);
    assert StepCrashes(st, CRLF + rest);
  }
}

=== FILE: replies.dfy ===
/**
 * The RESP2 replies of resp/reply and their wire encodings (ToBytes).
 * The Make* constructors of the source are this datatype's constructors:
 * each stores its argument unchanged.
 */
module Replies {
  import opened Wrappers
  import opened Wire

  datatype Reply =
    | Status(status: Bytes)               // StatusReply
    | Error(status: Bytes)                // StandardErrReply
    | Int(code: int)                      // IntReply, an int64 in the source
    | Bulk(arg: Bytes)                    // BulkReply; a nil Arg is the empty Arg
    | MultiBulk(args: seq<Option<Bytes>>) // MultiBulkReply; None is a nil element
    | Pong                                // PongReply
    | Ok                                  // OkReply
    | NullBulk                            // NullBulkReply
    | EmptyMultiBulk                      // EmptyMultiBulkReply
    | NoReply                             // NoReply

  /** What an empty BulkReply serialises to: "$-1" with no CRLF after it. */
  const NullBulkReplyBytes: Bytes := "$-1"

  const UnknownErrText: Bytes := "ERR unknown"

  /** UnknownErrReply, the reply for a command whose execution failed unexpectedly. */
  const UnknownErr: Reply := Error(UnknownErrText)

  /** MakeArgNumErrReply(cmd). */
  function ArgNumErr(cmd: Bytes): Reply
  {
    Error("ERR wrong number of arguments for '" + cmd + "' command")
  }

  /** MakeOkReply: the one shared OK reply. */
  function MakeOkReply(): (r: Reply)
    ensures ToBytes(r) == "+OK\r\n"
  {
    Ok
  }

  /** "$" ++ decimal(len) ++ CRLF ++ arg ++ CRLF. */
  function BulkFrame(arg: Bytes): Bytes
  {
    "$" + NatToDecimal(|arg|) + CRLF + arg + CRLF
  }

  /** One element of a multi-bulk reply: a nil element is a null bulk with its CRLF. */
  function ElementFrame(arg: Option<Bytes>): Bytes
  {
    match arg
    case None => "$-1" + CRLF
    case Some(a) => BulkFrame(a)
  }

  /** The elements of a multi-bulk reply, framed one after another in order. */
  function ElementFrames(args: seq<Option<Bytes>>): Bytes
  {
    if args == [] then [] else ElementFrame(args[0]) + ElementFrames(args[1..])
  }

  /** ToBytes of every reply type. */
  function ToBytes(r: Reply): (b: Bytes)
    ensures b == [] <==> r.NoReply?
    ensures b != [] ==> (b[0] == '-' <==> r.Error?)
    ensures b != [] ==> (b[0] == '+' <==> r.Status? || r.Pong? || r.Ok?)
  {
    match r
    case Status(s) => "+" + s + CRLF
    case Error(s) => "-" + s + CRLF
    case Int(code) => ":" + FormatInt(code) + CRLF
    case Bulk(arg) => if |arg| == 0 then NullBulkReplyBytes else BulkFrame(arg)
    case MultiBulk(args) => "*" + NatToDecimal(|args|) + CRLF + ElementFrames(args)
    case Pong => "+PONG\r\n"
    case Ok => "+OK\r\n"
    case NullBulk => "$-1\r\n"
    case EmptyMultiBulk => "*0\r\n"
    case NoReply => ""
  }

  /**
   * IsErrorReply: the first serialised byte is '-'. The source indexes the
   * serialisation, so a reply that serialises to nothing has no answer.
   */
  function IsErrorReply(r: Reply): (b: bool)
    requires ToBytes(r) != []
    ensures b <==> r.Error?
  {
    ToBytes(r)[0] == '-'
  }

  /** ErrorReply.Error() of a standard error reply: its text, unchanged. */
  function ErrorText(r: Reply): (s: Bytes)
    requires r.Error?
    ensures ToBytes(r) == "-" + s + CRLF
  {
    r.status
  }

  /** The elements of a command line, none of them nil. */
  function Elements(cmd: CmdLine): (args: seq<Option<Bytes>>)
    ensures |args| == |cmd|
    ensures forall i :: 0 <= i < |cmd| ==> args[i] == Some(cmd[i])
  {
    if cmd == [] then [] else [Some(cmd[0])] + Elements(cmd[1..])
  }

  /** MakeMultiBulkReply(cmdLine): the frame a command line travels in. */
  function CmdFrame(cmd: CmdLine): Bytes
  {
    ToBytes(MultiBulk(Elements(cmd)))
  }

  /** Framing the elements of two lists is framing each list in turn. */
  lemma {:induction false} ElementFramesAppend(a: seq<Option<Bytes>>, b: seq<Option<Bytes>>)
    ensures ElementFrames(a + b) == ElementFrames(a) + ElementFrames(b)
    decreases |a|
  {
    if a == [] {
      assert a + b == b;
    } else {
      assert (a + b)[0] == a[0] && (a + b)[1..] == a[1..] + b;
      ElementFramesAppend(a[1..], b);
    }
  }

  /** A nil element becomes "$-1\r\n" and an empty non-nil one "$0\r\n\r\n". */
  lemma ElementFrameCases(a: Option<Bytes>)
    ensures a.None? ==> ElementFrame(a) == "$-1\r\n"
    ensures a == Some([]) ==> ElementFrame(a) == "$0\r\n\r\n"
  {
    if a == Some([]) {
      assert NatToDecimal(0) == "0";
    }
  }

  /** EmptyMultiBulkReply and a MultiBulkReply with no elements are the same bytes. */
  lemma EmptyMultiBulkBytes()
    ensures ToBytes(EmptyMultiBulk) == ToBytes(MultiBulk([]))
  {
    assert NatToDecimal(0) == "0";
  }

  /** A NullBulkReply ends in CRLF, an empty BulkReply does not: they differ. */
  lemma EmptyBulkIsNotNullBulk()
    ensures ToBytes(Bulk([])) == "$-1" && ToBytes(NullBulk) == "$-1\r\n"
    ensures ToBytes(Bulk([])) != ToBytes(NullBulk)
  {
  }
}

=== FILE: standalone.dfy ===
/**
 * The standalone server of database/standalone_database.go: a list of DBs,
 * SELECT handled on the connection, every other command dispatched to the
 * DB the connection has selected, and the AOF replay at start-up, which
 * runs every logged command line through the same Exec with one fake
 * connection.
 */
module Standalone {
  import opened Wrappers
  import opened Wire
  import opened Replies
  import opened Parser
  import opened Aof
  import opened Database
  import opened Connection
  import opened Dict

  // ---------------------------------------------------------------------
  // Where each command line runs
  // ---------------------------------------------------------------------

  /** A line Exec handles as SELECT: its lower-cased name is "select". */
  predicate IsSelect(line: CmdLine)
  {
    |line| > 0 && ToLower(line[0]) == "select"
  }

  /**
   * The index the connection holds after SELECT arg: an argument Atoi
   * refuses, or an index >= count, leave it; any other index, negative ones
   * included, is taken.
   */
  function SelectTarget(arg: Bytes, db: int, count: int): int
  {
    match ParseInt64(arg)
    case None => db
    case Some(n) => if n >= count then db else n
  }

  /** The records a replay places, and the index the connection ends on. */
  datatype Placement = Placement(placed: seq<Record>, db: int)

  /**
   * One line through Exec with the connection on db: an empty line panics
   * and a SELECT moves the connection; any other line reaches DB db, or
   * panics when db is not an index of the list.
   */
  function PlaceLine(line: CmdLine, db: int, count: int): Placement
  {
    if line == [] then Placement([], db)
    else if IsSelect(line) then Placement([], if |line| == 2 then SelectTarget(line[1], db, count) else db)
    else if 0 <= db < count then Placement([Record(line, db)], db)
    else Placement([], db)
  }

  /** Lines through Exec in order, with one connection starting on db. */
  function Place(lines: seq<CmdLine>, db: int, count: int): Placement
  {
    if lines == [] then Placement([], db)
    else
      var p := Place(lines[..|lines| - 1], db, count);
      var q := PlaceLine(lines[|lines| - 1], p.db, count);
      Placement(p.placed + q.placed, q.db)
  }

  /** Replaying two logs one after the other: the second starts where the first left the connection. */
  lemma {:induction false} PlaceAppend(a: seq<CmdLine>, b: seq<CmdLine>, db: int, count: int)
    ensures var pa := Place(a, db, count);
            var pb := Place(b, pa.db, count);
            Place(a + b, db, count) == Placement(pa.placed + pb.placed, pb.db)
    decreases |b|
  {
    if b == [] {
      assert a + b == a;
    } else {
      var n := |b| - 1;
      assert (a + b)[..|a + b| - 1] == a + b[..n];
      assert (a + b)[|a + b| - 1] == b[n];
      PlaceAppend(a, b[..n], db, count);
      var pa := Place(a, db, count);
      var pi := Place(b[..n], pa.db, count);
      var q := PlaceLine(b[n], pi.db, count);
      Associative(pa.placed, pi.placed, q.placed);
    }
  }

  /**
   * A line on which Exec's recover leaves a nil reply: an empty line, or a
   * line other than SELECT with the connection on no DB of the list.
   */
  predicate ExecNil(line: CmdLine, db: int, count: int)
  {
    line == [] || (!IsSelect(line) && !(0 <= db < count))
  }

  /**
   * How many lines LoadAof replays before one whose Exec returns nil:
   * reply.IsErrorReply(nil) then panics, and the replay goes no further.
   */
  function ReplayedBeforeNil(lines: seq<CmdLine>, db: int, count: int): (n: nat)
    ensures n <= |lines|
  {
    if lines == [] then 0
    else
      var init := lines[..|lines| - 1];
      var k := ReplayedBeforeNil(init, db, count);
      if k < |init| || ExecNil(lines[|lines| - 1], Place(init, db, count).db, count) then k
      else |lines|
  }

  /**
   * The lines before the count all get a reply from Exec, and the line at
   * the count, if there is one, gets nil.
   */
  lemma {:induction false} NilStopsReplay(lines: seq<CmdLine>, db: int, count: int)
    ensures var n := ReplayedBeforeNil(lines, db, count);
            (forall i :: 0 <= i < n ==> !ExecNil(lines[i], Place(lines[..i], db, count).db, count))
            && (n < |lines| ==> ExecNil(lines[n], Place(lines[..n], db, count).db, count))
  {
    if lines != [] {
      var init := lines[..|lines| - 1];
      NilStopsReplay(init, db, count);
      forall i | 0 <= i < |init|
        ensures lines[..i] == init[..i] && lines[i] == init[i]
      {
      }
      assert lines[..|init|] == init;
    }
  }

  /** Once a prefix of the log stops at a nil reply, the whole log stops there. */
  lemma {:induction false} ReplayStopsAt(lines: seq<CmdLine>, j: nat, db: int, count: int)
    requires j <= |lines| && ReplayedBeforeNil(lines[..j], db, count) < j
    ensures ReplayedBeforeNil(lines, db, count) == ReplayedBeforeNil(lines[..j], db, count)
    decreases |lines|
  {
    if j == |lines| {
      assert lines[..j] == lines;
    } else {
      var init := lines[..|lines| - 1];
      assert init[..j] == lines[..j];
      ReplayStopsAt(init, j, db, count);
    }
  }

  /**
   * The log "SELECT -1; DEL a": Atoi accepts -1, which is below the count,
   * so the connection selects it, and the DEL after it gets nil from Exec.
   */
  lemma NegativeSelectStopsReplay()
    ensures var lines: seq<CmdLine> := [["SELECT", "-1"], ["del", "a"]];
            Replay(Parse(Frames(lines))) == lines && ReplayedBeforeNil(lines, 0, 16) == 1
  {
    var lines: seq<CmdLine> := [["SELECT", "-1"], ["del", "a"]];
    NegativeSelectParsed(lines);
    NegativeSelectCounted(lines);
  }

  /** The SELECT gets a reply, the DEL after it nil. */
  lemma NegativeSelectCounted(lines: seq<CmdLine>)
    requires lines == [["SELECT", "-1"], ["del", "a"]]
    ensures ReplayedBeforeNil(lines, 0, 16) == 1
  {
    NegativeSelectTaken();
    var first := lines[..1];
    assert first == [["SELECT", "-1"]] && first[..0] == [];
    assert !ExecNil(first[0], 0, 16) by { assert ToLower("SELECT") == "select"; }
    assert ReplayedBeforeNil(first, 0, 16) == 1;
    assert ExecNil(lines[1], -1, 16) by { assert ToLower("del") == "del"; }
  }

  /** The log's frames parse back to its two lines. */
  lemma NegativeSelectParsed(lines: seq<CmdLine>)
    requires lines == [["SELECT", "-1"], ["del", "a"]]
    ensures Replay(Parse(Frames(lines))) == lines
  {
    assert Replayable(lines[0]) && Replayable(lines[1]);
    LogReplayed(lines);
  }

  /** SELECT -1 through Exec moves the connection to -1. */
  lemma NegativeSelectTaken()
    ensures Place([["SELECT", "-1"]], 0, 16) == Placement([], -1)
  {
    var lines: seq<CmdLine> := [["SELECT", "-1"]];
    assert ToLower("SELECT") == "select";
    var arg: Bytes := "-1";
    assert arg[1..] == "1";
    assert ParseUint("1", MaxInt64 + 1) == Some(1);
    assert lines[..0] == [];
  }

  // ---------------------------------------------------------------------
  // The writer's SELECT frames against the replay
  // ---------------------------------------------------------------------

  /** A record the writer gets from a DB: a command other than SELECT, from a DB of the list. */
  predicate Loggable(rec: Record, count: int)
  {
    rec.cmdLine != [] && !IsSelect(rec.cmdLine) && 0 <= rec.dbIndex < count
  }

  /**
   * The writer's currentDB and the replaying connection's index agree: they
   * are equal, or currentDB is no index of the list, so that the next record
   * is preceded by a SELECT whatever the connection holds.
   */
  predicate Agrees(writerDB: int, connDB: int, count: int)
  {
    writerDB == connDB || !(0 <= writerDB < count)
  }

  /** The SELECT line of an index of the list is a SELECT that moves the connection there. */
  lemma SelectLineSelects(k: int, db: int, count: int)
    requires 0 <= k < count <= MaxInt64
    ensures IsSelect(SelectLine(k)) && |SelectLine(k)| == 2 && SelectTarget(SelectLine(k)[1], db, count) == k
  {
    assert ToLower("SELECT") == "select";
    ParseIntOfFormat(k);
  }

  /** One turn of the writer, replayed: the records it keeps land in their own DB, and agreement is kept. */
  lemma RecordPlaced(rec: Record, fault: Fault, d: int, y: int, count: int)
    requires Loggable(rec, count) && count <= MaxInt64 && Agrees(d, y, count)
    ensures var r := WriteRecord(rec, fault, d);
            var p := Place(r.lines, y, count);
            p.placed == r.kept && Agrees(r.db, p.db, count)
  {
    var k := rec.dbIndex;
    var line := rec.cmdLine;
    SelectLineSelects(k, y, count);
    assert PlaceLine(SelectLine(k), y, count) == Placement([], k);
    assert PlaceLine(line, k, count) == Placement([rec], k);
    if k != d {
      if !fault.selectFails && fault.cmdFails {
        var one: seq<CmdLine> := [SelectLine(k)];
        assert one[..0] == [];
      } else if !fault.selectFails {
        var lines: seq<CmdLine> := [SelectLine(k), line];
        var first: seq<CmdLine> := lines[..1];
        assert first == [SelectLine(k)] && first[..0] == [];
        assert Place(lines[..1], y, count) == Placement([], k);
      }
    } else if !fault.cmdFails {
      assert d == y;
      var one: seq<CmdLine> := [line];
      assert one[..0] == [];
    }
  }

  /**
   * A log the writer appends, replayed from a connection that agrees with
   * the writer's currentDB, places exactly the records whose command frame
   * reached the file, each in the DB it was executed in.
   */
  lemma {:induction false} WriterPlaced(recs: seq<Record>, faults: seq<Fault>, db0: int, x: int, count: int)
    requires forall i :: 0 <= i < |recs| ==> Loggable(recs[i], count)
    requires count <= MaxInt64 && Agrees(db0, x, count)
    ensures var w := WriteLog(recs, faults, db0);
            var p := Place(w.lines, x, count);
            p.placed == w.kept && Agrees(w.db, p.db, count)
    decreases |recs|
  {
    if recs != [] {
      var n := |recs| - 1;
      var w := WriteLog(recs[..n], faults, db0);
      WriterPlaced(recs[..n], faults, db0, x, count);
      var p := Place(w.lines, x, count);
      var r := WriteRecord(recs[n], FaultAt(faults, n), w.db);
      RecordPlaced(recs[n], FaultAt(faults, n), w.db, p.db, count);
      PlaceAppend(w.lines, r.lines, x, count);
    }
  }

  /** Without write failures the writer keeps every record. */
  lemma {:induction false} NoFaultKeepsAll(recs: seq<Record>, db0: int)
    ensures WriteLog(recs, [], db0).kept == recs
    decreases |recs|
  {
    if recs != [] {
      NoFaultKeepsAll(recs[..|recs| - 1], db0);
      assert recs == recs[..|recs| - 1] + [recs[|recs| - 1]];
    }
  }

  /** The writer of a fresh log (StartWriting, currentDB 0) against a replay from index 0. */
  lemma FreshLogPlaced(recs: seq<Record>, faults: seq<Fault>, count: int)
    requires forall i :: 0 <= i < |recs| ==> Loggable(recs[i], count)
    requires count <= MaxInt64
    ensures var w := WriteLog(recs, faults, 0);
            Place(w.lines, 0, count).placed == w.kept
  {
    WriterPlaced(recs, faults, 0, 0, count);
  }

  /**
   * handleAof as written, after a restart: the old log leaves the
   * connection on DB 1 while the new writer starts at currentDB 0, so a
   * record for DB 0 is appended without a SELECT and replays in DB 1.
   */
  lemma RestartMisplaces()
    ensures var oldLog := [SelectLine(1), ["del", "a"]];
            var recs := [Record(["del", "b"], 0)];
            var w := WriteLog(recs, [], 0);
            w.kept == recs
            && Place(oldLog + w.lines, 0, 16).placed == [Record(["del", "a"], 1), Record(["del", "b"], 1)]
            && Place(oldLog + w.lines, 0, 16).placed != Place(oldLog, 0, 16).placed + recs
  {
    var oldLog: seq<CmdLine> := [SelectLine(1), ["del", "a"]];
    var recs := [Record(["del", "b"], 0)];
    var w := WriteLog(recs, [], 0);
    OneRecordWritten();
    OldLogPlaced();
    AppendedLinePlaced();
    PlaceAppend(oldLog, w.lines, 0, 16);
    assert (Place(oldLog, 0, 16).placed + recs)[1] == Record(["del", "b"], 0);
  }

  /** The writer at currentDB 0 appends a DB 0 record without a SELECT. */
  lemma OneRecordWritten()
    ensures WriteLog([Record(["del", "b"], 0)], [], 0) == Written([["del", "b"]], [Record(["del", "b"], 0)], 0)
  {
    var recs := [Record(["del", "b"], 0)];
    assert recs[..0] == [];
  }

  /** The old log leaves the connection on DB 1, its DEL placed there. */
  lemma OldLogPlaced()
    ensures Place([SelectLine(1), ["del", "a"]], 0, 16) == Placement([Record(["del", "a"], 1)], 1)
  {
    var oldLog: seq<CmdLine> := [SelectLine(1), ["del", "a"]];
    SelectLineSelects(1, 0, 16);
    assert ToLower("del") == "del";
    assert !IsSelect(["del", "a"]);
    var first: seq<CmdLine> := oldLog[..1];
    assert first == [SelectLine(1)] && first[..0] == [];
    assert Place(first, 0, 16) == Placement([], 1);
  }

  /** The appended DEL, replayed with the connection on DB 1, is placed in DB 1. */
  lemma AppendedLinePlaced()
    ensures Place([["del", "b"]], 1, 16) == Placement([Record(["del", "b"], 1)], 1)
  {
    var lines: seq<CmdLine> := [["del", "b"]];
    assert ToLower("del") == "del";
    assert !IsSelect(["del", "b"]);
    assert lines[..0] == [];
  }

  /**
   * The writer started at currentDB -1 (StartWritingSelected) after a
   * restart: whatever the old log leaves the connection on, the appended
   * records replay in their own DBs, after the old log's.
   */
  lemma RestartPlaced(oldLog: seq<CmdLine>, recs: seq<Record>, faults: seq<Fault>, count: int)
    requires forall i :: 0 <= i < |recs| ==> Loggable(recs[i], count)
    requires count <= MaxInt64
    ensures var w := WriteLog(recs, faults, -1);
            Place(oldLog + w.lines, 0, count).placed == Place(oldLog, 0, count).placed + w.kept
  {
    var w := WriteLog(recs, faults, -1);
    var x := Place(oldLog, 0, count).db;
    PlaceAppend(oldLog, w.lines, 0, count);
    WriterPlaced(recs, faults, -1, x, count);
  }

  /**
   * The whole restart: an old log the writer produced, then the records of
   * the new run appended by StartWritingSelected's writer; parsing the file
   * gives back every line, and the replay places the new records after the
   * old ones, each in its own DB.
   */
  lemma RestartReplayed(oldLog: seq<CmdLine>, recs: seq<Record>, faults: seq<Fault>, count: int)
    requires AllReplayable(oldLog)
    requires forall i :: 0 <= i < |recs| ==> Loggable(recs[i], count) && Replayable(recs[i].cmdLine)
    requires count <= MaxInt64
    ensures var w := WriteLog(recs, faults, -1);
            var file := Frames(oldLog) + Frames(w.lines);
            Replay(Parse(file)) == oldLog + w.lines && ClosesChannel(Parse(file))
            && Place(Replay(Parse(file)), 0, count).placed == Place(oldLog, 0, count).placed + w.kept
  {
    var w := WriteLog(recs, faults, -1);
    WrittenReplayable(recs, faults, -1);
    FramesAppend(oldLog, w.lines);
    var all := oldLog + w.lines;
    forall i | 0 <= i < |all|
      ensures Replayable(all[i])
    {
      if i >= |oldLog| {
        assert all[i] == w.lines[i - |oldLog|];
      }
    }
    LogReplayed(all);
    RestartPlaced(oldLog, recs, faults, count);
  }

  // ---------------------------------------------------------------------
  // The server
  // ---------------------------------------------------------------------

  /**
   * How NewStandaloneDatabase ends: it returns, it panics, or the replay
   * blocks on a channel that is never closed. At start-up no other
   * goroutine runs, so Go's deadlock detector then aborts the process.
   */
  datatype Boot = Ready | Panicked | Deadlocked

  /**
   * The configured database count (viper.GetInt, so any int), with 0
   * meaning the default of 16; a negative count is kept, and make panics on it.
   */
  function DatabaseCount(databases: int): (n: int)
    ensures databases == 0 ==> n == 16
    ensures databases != 0 ==> n == databases
    ensures n > 0 <==> databases >= 0
  {
    if databases == 0 then 16 else databases
  }

  class StandaloneDatabase {
    const dbSet: seq<DB>
    var aofHandler: AofHandler?
    /** The command lines handed to a DB, with the index of that DB, in order. */
    ghost var dispatched: seq<Record>

    /** Each DB sits at its own index, forwards to the server's handler, and has a dictionary of its own. */
    ghost predicate Valid()
      reads this, dbSet
    {
      (forall i :: 0 <= i < |dbSet| ==> dbSet[i].index == i && dbSet[i].aof == aofHandler)
      && (forall i, j :: 0 <= i < j < |dbSet| ==> dbSet[i].data != dbSet[j].data)
    }

    /** The dictionaries of the DBs. */
    function Dicts(): set<SyncDict<Entity>>
    {
      set i | 0 <= i < |dbSet| :: dbSet[i].data
    }

    constructor (dbs: seq<DB>)
      requires forall i :: 0 <= i < |dbs| ==> dbs[i].index == i && dbs[i].aof == null
      requires forall i, j :: 0 <= i < j < |dbs| ==> dbs[i].data != dbs[j].data
      ensures dbSet == dbs && aofHandler == null && dispatched == [] && Valid()
    {
      dbSet := dbs;
      aofHandler := null;
      dispatched := [];
    }

    /**
     * Exec: an empty line panics (None, after recover); SELECT is answered
     * on the connection; any other line goes to the DB the connection has
     * selected, or panics when that index is not in the list.
     */
    method Exec(c: Connection, cmdLine: CmdLine) returns (result: Option<Reply>)
      requires Valid()
      modifies this`dispatched, c, Dicts(), aofHandler
      ensures Valid()
      ensures var p := PlaceLine(cmdLine, old(c.selectedDB), |dbSet|);
              dispatched == old(dispatched) + p.placed && c.selectedDB == p.db
      ensures c.written == old(c.written)
      ensures cmdLine == [] ==> result.None?
      ensures result != Some(NoReply)
      ensures IsSelect(cmdLine) && |cmdLine| != 2 ==> result == Some(ArgNumErr("select"))
      ensures IsSelect(cmdLine) && |cmdLine| == 2 ==> result == Some(SelectReply(cmdLine[1], |dbSet|))
      ensures cmdLine != [] && !IsSelect(cmdLine) ==> (result.Some? <==> 0 <= old(c.selectedDB) < |dbSet|)
      ensures forall j :: 0 <= j < |dbSet| && (IsSelect(cmdLine) || j != old(c.selectedDB)) ==>
                dbSet[j].data.m == old(dbSet[j].data.m)
      ensures cmdLine == [] || IsSelect(cmdLine) || !(0 <= old(c.selectedDB) < |dbSet|) ==>
                (forall j :: 0 <= j < |dbSet| ==> dbSet[j].data.m == old(dbSet[j].data.m))
                && (aofHandler != null ==> aofHandler.queue == old(aofHandler.queue))
    {
      if |cmdLine| == 0 {
        return None;
      }
      var cmdName := ToLower(cmdLine[0]);
      if cmdName == "select" {
        if |cmdLine| != 2 {
          return Some(ArgNumErr("select"));
        }
        var r := ExecSelect(c, cmdLine[1..], |dbSet|);
        return Some(r);
      }
      var dbIndex := c.GetDBIndex();
      if !(0 <= dbIndex < |dbSet|) {
        return None;
      }
      var selectedDB := dbSet[dbIndex];
      var r := selectedDB.Exec(cmdLine);
      dispatched := dispatched + [Record(cmdLine, dbIndex)];
      result := Some(r);
    }

    /**
     * The replay half of LoadAof: every parsed line through Exec with one
     * connection, so that a replayed SELECT holds for the lines after it.
     * A nil reply makes reply.IsErrorReply panic: the replay stops there,
     * and panicked reports it.
     */
    method ReplayLines(fakeConn: Connection, cmds: seq<CmdLine>) returns (panicked: bool)
      requires Valid()
      modifies this`dispatched, fakeConn, Dicts(), aofHandler
      ensures Valid()
      ensures var n := ReplayedBeforeNil(cmds, old(fakeConn.selectedDB), |dbSet|);
              var p := Place(cmds[..n], old(fakeConn.selectedDB), |dbSet|);
              (panicked <==> n < |cmds|)
              && dispatched == old(dispatched) + p.placed && fakeConn.selectedDB == p.db
    {
      ghost var db0 := fakeConn.selectedDB;
      panicked := false;
      var i := 0;
      while i < |cmds|
        invariant 0 <= i <= |cmds| && Valid()
        invariant ReplayedBeforeNil(cmds[..i], db0, |dbSet|) == i
        invariant var p := Place(cmds[..i], db0, |dbSet|);
                  dispatched == old(dispatched) + p.placed && fakeConn.selectedDB == p.db
      {
        assert cmds[..i + 1][..i] == cmds[..i];
        var ret := Exec(fakeConn, cmds[i]);
        if ret.None? {
          ReplayStopsAt(cmds, i + 1, db0, |dbSet|);
          panicked := true;
          return;
        }
        i := i + 1;
      }
      assert cmds[..i] == cmds;
    }
  }

  /** execSelect's reply for an index argument. */
  function SelectReply(arg: Bytes, count: int): Reply
  {
    match ParseInt64(arg)
    case None => Error("ERR invalid DB index")
    case Some(n) => if n >= count then Error("ERR DB index is out of range") else Ok
  }

  /**
   * execSelect: Atoi on the argument; a failure or an index >= count is an
   * error that leaves the connection; otherwise the index is selected.
   */
  method ExecSelect(c: Connection, args: seq<Bytes>, count: int) returns (r: Reply)
    requires |args| > 0
    modifies c
    ensures r == SelectReply(args[0], count)
    ensures c.selectedDB == SelectTarget(args[0], old(c.selectedDB), count)
    ensures c.written == old(c.written)
  {
    var dbIndex := ParseInt64(args[0]);
    if dbIndex.None? {
      return Error("ERR invalid DB index");
    }
    if dbIndex.value >= count {
      return Error("ERR DB index is out of range");
    }
    c.SelectDB(dbIndex.value);
    r := Ok;
  }

  /**
   * SELECT answers OK exactly when its argument is an int64 below the
   * count, and then the connection holds that index; after an error reply
   * it holds the index it had.
   */
  lemma SelectReplyAgrees(arg: Bytes, db: int, count: int)
    ensures SelectReply(arg, count) == Ok <==> (exists n :: ParseInt64(arg) == Some(n) && n < count)
    ensures SelectReply(arg, count) == Ok ==> SelectTarget(arg, db, count) == ParseInt64(arg).value
    ensures SelectReply(arg, count) != Ok ==> SelectTarget(arg, db, count) == db
  {
  }

  /**
   * What a boot leaves behind: with append-only on, the log's lines up to
   * the first nil reply are replayed into the DBs from DB 0, before any
   * handler is installed; the boot panics on that nil reply, then waits for
   * ever if the parser never closed its channel, then panics if the file
   * cannot be opened to append.
   */
  ghost predicate Booted(mdb: StandaloneDatabase, boot: Boot, appendOnly: bool, file: Bytes, readFails: bool, appendFails: bool)
    reads mdb
  {
    var lines := if appendOnly && !readFails then Replay(Parse(file)) else [];
    var n := ReplayedBeforeNil(lines, 0, |mdb.dbSet|);
    mdb.dispatched == Place(lines[..n], 0, |mdb.dbSet|).placed
    && (!appendOnly ==> boot == Ready && mdb.aofHandler == null)
    && (appendOnly ==>
          (boot == Panicked <==> n < |lines| || ((readFails || ClosesChannel(Parse(file))) && appendFails))
          && (boot == Deadlocked <==> n == |lines| && !readFails && !ClosesChannel(Parse(file))))
  }

  /**
   * NewStandaloneDatabase with the configured count, the AOF settings and
   * file, and whether opening the file to read and to append fail. With
   * append-only on, the log is replayed through Exec before the handler is
   * installed, so the replay logs nothing; then handleAof starts with
   * currentDB 0 (StartWriting), which RestartMisplaces shows wrong after a
   * restart.
   */
  method NewStandaloneDatabase(databases: int, appendOnly: bool, file: Bytes, readFails: bool, appendFails: bool)
    returns (mdb: StandaloneDatabase, boot: Boot)
    ensures mdb.Valid() && forall i :: 0 <= i < |mdb.dbSet| ==> mdb.dbSet[i].index == i
    ensures databases < 0 ==> boot == Panicked
    ensures databases >= 0 ==>
              |mdb.dbSet| == DatabaseCount(databases) && Booted(mdb, boot, appendOnly, file, readFails, appendFails)
    ensures boot == Ready && appendOnly ==>
              mdb.aofHandler != null && mdb.aofHandler.queueOpen && mdb.aofHandler.queue == []
              && mdb.aofHandler.file == file && mdb.aofHandler.currentDB == 0
  {
    var handler;
    mdb, boot, handler := LoadDatabases(databases, appendOnly, file, readFails, appendFails);
    if boot == Ready && appendOnly {
      handler.StartWriting();
      InstallHandler(mdb, handler);
    }
  }

  /**
   * NewStandaloneDatabase with the writer started by StartWritingSelected,
   * so that records appended after a restart replay in their own DB
   * (RestartPlaced).
   */
  method NewStandaloneDatabaseSelected(databases: int, appendOnly: bool, file: Bytes, readFails: bool, appendFails: bool)
    returns (mdb: StandaloneDatabase, boot: Boot)
    ensures mdb.Valid() && forall i :: 0 <= i < |mdb.dbSet| ==> mdb.dbSet[i].index == i
    ensures databases < 0 ==> boot == Panicked
    ensures databases >= 0 ==>
              |mdb.dbSet| == DatabaseCount(databases) && Booted(mdb, boot, appendOnly, file, readFails, appendFails)
    ensures boot == Ready && appendOnly ==>
              mdb.aofHandler != null && mdb.aofHandler.queueOpen && mdb.aofHandler.queue == []
              && mdb.aofHandler.file == file && mdb.aofHandler.currentDB == -1
  {
    var handler;
    mdb, boot, handler := LoadDatabases(databases, appendOnly, file, readFails, appendFails);
    if boot == Ready && appendOnly {
      handler.StartWritingSelected();
      InstallHandler(mdb, handler);
    }
  }

  /**
   * The boot up to the writer's start: the DBs, then with append-only on a
   * handler over the file (NewAOFHandler), its log replayed (LoadAof) and
   * the append open; a Ready boot hands back the handler, not yet writing.
   */
  method LoadDatabases(databases: int, appendOnly: bool, file: Bytes, readFails: bool, appendFails: bool)
    returns (mdb: StandaloneDatabase, boot: Boot, handler: AofHandler?)
    ensures mdb.Valid() && forall i :: 0 <= i < |mdb.dbSet| ==> mdb.dbSet[i].index == i
    ensures databases < 0 ==> boot == Panicked
    ensures databases >= 0 ==>
              |mdb.dbSet| == DatabaseCount(databases) && Booted(mdb, boot, appendOnly, file, readFails, appendFails)
    ensures mdb.aofHandler == null
    ensures boot == Ready && appendOnly ==>
              handler != null && fresh(handler) && !handler.queueOpen && handler.file == file
              && handler.appendOnly
    ensures fresh(mdb) && forall i :: 0 <= i < |mdb.dbSet| ==> fresh(mdb.dbSet[i])
  {
    var count := DatabaseCount(databases);
    if count < 0 {
      mdb := new StandaloneDatabase([]);
      boot, handler := Panicked, null;
      return;
    }
    var dbs := MakeDBs(count);
    mdb := new StandaloneDatabase(dbs);
    boot, handler := Ready, null;
    if appendOnly {
      handler := new AofHandler(appendOnly, file);
      var cmds, closed := handler.LoadAof(readFails);
      var fakeConn := new Connection();
      var panicked := mdb.ReplayLines(fakeConn, cmds);
      if panicked {
        boot := Panicked;
        return;
      }
      if !closed {
        boot := Deadlocked;
        return;
      }
      if appendFails {
        boot := Panicked;
        return;
      }
    }
  }

  /** The dbSet loop: DB i at position i, each with a fresh dictionary and the no-op AOF callback. */
  method MakeDBs(count: nat) returns (dbs: seq<DB>)
    ensures |dbs| == count
    ensures forall j :: 0 <= j < count ==> dbs[j].index == j && dbs[j].aof == null && fresh(dbs[j]) && fresh(dbs[j].data)
    ensures forall j, l :: 0 <= j < l < count ==> dbs[j].data != dbs[l].data
  {
    dbs := [];
    var i := 0;
    while i < count
      invariant 0 <= i <= count && |dbs| == i
      invariant forall j :: 0 <= j < i ==> dbs[j].index == j && dbs[j].aof == null && fresh(dbs[j]) && fresh(dbs[j].data)
      invariant forall j, l :: 0 <= j < l < i ==> dbs[j].data != dbs[l].data
    {
      var singleDB := new DB(i);
      dbs := dbs + [singleDB];
      i := i + 1;
    }
  }

  /** Points every DB's addAof at the handler, with the DB's own index. */
  method InstallHandler(mdb: StandaloneDatabase, handler: AofHandler)
    requires mdb.Valid()
    modifies mdb`aofHandler, mdb.dbSet
    ensures mdb.aofHandler == handler && mdb.Valid()
    ensures forall i :: 0 <= i < |mdb.dbSet| ==> mdb.dbSet[i].aof == handler
  {
    mdb.aofHandler := handler;
    var i := 0;
    while i < |mdb.dbSet|
      invariant 0 <= i <= |mdb.dbSet|
      invariant mdb.aofHandler == handler
      invariant forall j :: 0 <= j < i ==> mdb.dbSet[j].aof == handler
    {
      mdb.dbSet[i].aof := handler;
      i := i + 1;
    }
  }
}

=== FILE: wildcard.dfy ===
/**
 * The glob patterns of lib/wildcard/wildcard.go, used by KEYS: a compiler
 * from pattern text to items, the membership test of bracket items, and the
 * dynamic-programming matcher, each proved against a reference definition.
 */
module Wildcard {
  import opened Wire

  /** The item kinds, in the order of the source's iota constants. */
  datatype ItemType = Normal | All | Any | SetSymbol | RangeSymbol | NegSymbol

  /** A bracket item: a set, a range or a negation. */
  predicate IsBracket(t: ItemType) { t.SetSymbol? || t.RangeSymbol? || t.NegSymbol? }

  /** item: the byte of a normal item, and the members of a bracket item. */
  datatype Item = Item(typeCode: ItemType, character: Byte, members: set<Byte>)

  datatype Pattern = Pattern(items: seq<Item>)

  function NormalItem(c: Byte): Item { Item(Normal, c, {}) }
  const AllItem: Item := Item(All, 0 as char, {})
  const AnyItem: Item := Item(Any, 0 as char, {})

  // ---------------------------------------------------------------------
  // item.contains
  // ---------------------------------------------------------------------

  /**
   * What contains(c) answers: membership for a set; membership or lying
   * between two members for a range; non-membership otherwise.
   */
  predicate InItem(it: Item, c: Byte)
  {
    match it.typeCode
    case SetSymbol => c in it.members
    case RangeSymbol => c in it.members || exists lo, hi :: lo in it.members && hi in it.members && lo <= c <= hi
    case _ => c !in it.members
  }

  /**
   * The loop of contains that finds the least and the greatest member,
   * starting from 255 and 0.
   */
  method Bounds(members: set<Byte>) returns (min: Byte, max: Byte)
    ensures members == {} ==> min == 255 as char && max == 0 as char
    ensures members != {} ==> min in members && max in members
    ensures forall k :: k in members ==> min <= k <= max
  {
    min, max := 255 as char, 0 as char;
    var unvisited := members;
    ghost var visited: set<Byte> := {};
    while unvisited != {}
      invariant visited + unvisited == members
      invariant forall k :: k in visited ==> min <= k <= max
      invariant visited == {} ==> min == 255 as char && max == 0 as char
      invariant visited != {} ==> min in visited && max in visited
      decreases |unvisited|
    {
      var k :| k in unvisited;
      if min > k {
        min := k;
      }
      if max < k {
        max := k;
      }
      unvisited := unvisited - {k};
      visited := visited + {k};
    }
  }

  /** contains: for a range, the bounds of the members are found first. */
  method Contains(it: Item, c: Byte) returns (b: bool)
    ensures b == InItem(it, c)
  {
    if it.typeCode == SetSymbol {
      return c in it.members;
    } else if it.typeCode == RangeSymbol {
      if c in it.members {
        return true;
      }
      var min, max := Bounds(it.members);
      b := c >= min && c <= max;
      if b {
        assert it.members != {};
        assert min in it.members && max in it.members && min <= c <= max;
      } else {
        forall lo, hi | lo in it.members && hi in it.members
          ensures !(lo <= c <= hi)
        {
          assert min <= lo && hi <= max;
        }
      }
    } else {
      return c !in it.members;
    }
  }

  // ---------------------------------------------------------------------
  // CompilePattern
  // ---------------------------------------------------------------------

  /** The loop variables of CompilePattern: the items so far, escape, inSet and the open set. */
  datatype CompileState = CompileState(items: seq<Item>, escape: bool, inSet: bool, members: set<Byte>)

  const Start: CompileState := CompileState([], false, false, {})

  /** byte(v): a rune is truncated to its low byte. */
  function LowByte(v: char): Byte
  {
    (v as int % 256) as char
  }

  /** The bracket item a closing ']' makes of the open set. */
  function CloseSet(members: set<Byte>): (it: Item)
    ensures IsBracket(it.typeCode)
    ensures it.members == members - {'-', '^'}
    ensures it.typeCode.NegSymbol? <==> '^' in members
    ensures it.typeCode.RangeSymbol? <==> '-' in members && '^' !in members
  {
    var t := if '-' in members then RangeSymbol else SetSymbol;
    var t2 := if '^' in members then NegSymbol else t;
    Item(t2, 0 as char, members - {'-'} - {'^'})
  }

  /** One turn of CompilePattern's loop, on the rune v. */
  function CompileRune(st: CompileState, v: char): CompileState
  {
    var c := LowByte(v);
    if st.escape then st.(items := st.items + [NormalItem(c)], escape := false)
    else if c == '*' then st.(items := st.items + [AllItem])
    else if c == '?' then st.(items := st.items + [AnyItem])
    else if c == '\\' then st.(escape := true)
    else if c == '[' then
      if !st.inSet then st.(inSet := true, members := {}) else st.(members := st.members + {c})
    else if c == ']' then
      if st.inSet then
        var it := CloseSet(st.members);
        st.(inSet := false, members := it.members, items := st.items + [it])
      else st.(items := st.items + [NormalItem(c)])
    else if st.inSet then st.(members := st.members + {c})
    else st.(items := st.items + [NormalItem(c)])
  }

  /** The loop of CompilePattern run over the runes src from the state st. */
  function CompileFrom(st: CompileState, src: seq<char>): CompileState
    decreases |src|
  {
    if src == [] then st else CompileFrom(CompileRune(st, src[0]), src[1..])
  }

  /** The items CompilePattern makes of src. */
  function Compiled(src: seq<char>): seq<Item>
  {
    CompileFrom(Start, src).items
  }

  /** Compiling src1 + src2 is compiling src1, then src2 from where it stopped. */
  lemma {:induction false} CompileFromAppend(st: CompileState, src1: seq<char>, src2: seq<char>)
    ensures CompileFrom(st, src1 + src2) == CompileFrom(CompileFrom(st, src1), src2)
    decreases |src1|
  {
    if src1 == [] {
      assert src1 + src2 == src2;
    } else {
      assert (src1 + src2)[1..] == src1[1..] + src2;
      CompileFromAppend(CompileRune(st, src1[0]), src1[1..], src2);
    }
  }

  /**
   * CompilePattern, over the runes that `range src` yields (decoding the
   * UTF-8 of src is not modelled).
   */
  method CompilePattern(src: seq<char>) returns (p: Pattern)
    ensures p.items == Compiled(src)
  {
    var items: seq<Item> := [];
    var escape := false;
    var inSet := false;
    var members: set<Byte> := {};
    var i := 0;
    while i < |src|
      invariant 0 <= i <= |src|
      invariant CompileFrom(CompileState(items, escape, inSet, members), src[i..]) == CompileFrom(Start, src)
    {
      ghost var before := CompileState(items, escape, inSet, members);
      var c := LowByte(src[i]);
      if escape {
        items := items + [NormalItem(c)];
        escape := false;
      } else if c == '*' {
        items := items + [AllItem];
      } else if c == '?' {
        items := items + [AnyItem];
      } else if c == '\\' {
        escape := true;
      } else if c == '[' {
        if !inSet {
          inSet := true;
          members := {};
        } else {
          members := members + {c};
        }
      } else if c == ']' {
        if inSet {
          ghost var open := members;
          inSet := false;
          var typeCode := SetSymbol;
          if '-' in members {
            typeCode := RangeSymbol;
            members := members - {'-'};
          }
          if '^' in members {
            typeCode := NegSymbol;
            members := members - {'^'};
          }
          assert Item(typeCode, 0 as char, members) == CloseSet(open);
          items := items + [Item(typeCode, 0 as char, members)];
        } else {
          items := items + [NormalItem(c)];
        }
      } else {
        if inSet {
          members := members + {c};
        } else {
          items := items + [NormalItem(c)];
        }
      }
      assert CompileState(items, escape, inSet, members) == CompileRune(before, src[i]);
      assert src[i..] == [src[i]] + src[i + 1..];
      i := i + 1;
    }
    p := Pattern(items);
  }

  // ---------------------------------------------------------------------
  // IsMatch
  // ---------------------------------------------------------------------

  /** Whether one non-star item accepts the byte c. */
  predicate ItemMatches(it: Item, c: Byte)
  {
    it.typeCode == Any
    || (it.typeCode == Normal && c == it.character)
    || (IsBracket(it.typeCode) && InItem(it, c))
  }

  /**
   * Glob matching, by the last item: a star matches nothing more or one more
   * byte; any other item matches exactly the last byte.
   */
  predicate Matches(items: seq<Item>, s: Bytes)
    decreases |items| + |s|
  {
    if |items| == 0 then |s| == 0
    else if items[|items| - 1].typeCode == All then
      Matches(items[..|items| - 1], s) || (|s| > 0 && Matches(items, s[..|s| - 1]))
    else
      |s| > 0 && ItemMatches(items[|items| - 1], s[|s| - 1])
      && Matches(items[..|items| - 1], s[..|s| - 1])
  }

  /** The recurrence IsMatch fills its table with, read off Matches on prefixes. */
  lemma MatchesPrefix(items: seq<Item>, s: Bytes, i: nat, j: nat)
    requires i <= |s| && 1 <= j <= |items|
    ensures Matches(items[..j], s[..i])
            == if items[j - 1].typeCode == All then
                 (i > 0 && Matches(items[..j], s[..i - 1])) || Matches(items[..j - 1], s[..i])
               else
                 i > 0 && Matches(items[..j - 1], s[..i - 1]) && ItemMatches(items[j - 1], s[i - 1])
  {
    assert items[..j][..j - 1] == items[..j - 1];
    if i > 0 {
      assert s[..i][..i - 1] == s[..i - 1];
    }
  }

  /** The first `rows` rows of the table hold Matches of the matching prefixes. */
  ghost predicate RowsAgree(table: array2<bool>, items: seq<Item>, s: Bytes, rows: nat)
    reads table
    requires table.Length0 == |s| + 1 && table.Length1 == |items| + 1 && rows <= table.Length0
  {
    forall k, l :: 0 <= k < rows && 0 <= l <= |items| ==> table[k, l] == Matches(items[..l], s[..k])
  }

  /** One turn of IsMatch's outer loop: fills row i from row i-1. */
  method FillRow(table: array2<bool>, items: seq<Item>, s: Bytes, i: nat)
    requires table.Length0 == |s| + 1 && table.Length1 == |items| + 1 && 1 <= i <= |s|
    requires RowsAgree(table, items, s, i)
    modifies table
    ensures RowsAgree(table, items, s, i + 1)
  {
    var n := |items|;
    table[i, 0] := false;
    var j := 1;
    while j < n + 1
      invariant 1 <= j <= n + 1
      invariant RowsAgree(table, items, s, i)
      invariant forall l :: 0 <= l < j ==> table[i, l] == Matches(items[..l], s[..i])
    {
      var it := items[j - 1];
      if it.typeCode == All {
        table[i, j] := table[i - 1, j] || table[i, j - 1];
      } else {
        var inSet := false;
        if IsBracket(it.typeCode) {
          inSet := Contains(it, s[i - 1]);
        }
        table[i, j] := table[i - 1, j - 1]
                       && (it.typeCode == Any || (it.typeCode == Normal && s[i - 1] == it.character) || inSet);
      }
      MatchesPrefix(items, s, i, j);
      j := j + 1;
    }
  }

  /** IsMatch: table[i][j] holds when the first i bytes match the first j items. */
  method IsMatch(p: Pattern, s: Bytes) returns (b: bool)
    ensures b == Matches(p.items, s)
  {
    if |p.items| == 0 {
      return |s| == 0;
    }
    var m := |s|;
    var n := |p.items|;
    var table := new bool[m + 1, n + 1];
    table[0, 0] := true;
    var j := 1;
    while j < n + 1
      invariant 1 <= j <= n + 1
      invariant forall l :: 0 <= l < j ==> table[0, l] == Matches(p.items[..l], s[..0])
    {
      table[0, j] := table[0, j - 1] && p.items[j - 1].typeCode == All;
      MatchesPrefix(p.items, s, 0, j);
      j := j + 1;
    }
    var i := 1;
    while i < m + 1
      invariant 1 <= i <= m + 1
      invariant RowsAgree(table, p.items, s, i)
    {
      FillRow(table, p.items, s, i);
      i := i + 1;
    }
    assert p.items[..n] == p.items && s[..m] == s;
    b := table[m, n];
  }

  // ---------------------------------------------------------------------
  // What the patterns mean
  // ---------------------------------------------------------------------

  /** The empty pattern matches exactly the empty string. */
  lemma EmptyPatternMatchesOnlyEmpty(s: Bytes)
    ensures Matches([], s) <==> s == []
  {
  }

  /** A pattern of stars only, at least one, matches every string. */
  lemma {:induction false} StarsMatchEverything(items: seq<Item>, s: Bytes)
    requires |items| > 0 && forall i :: 0 <= i < |items| ==> items[i].typeCode == All
    ensures Matches(items, s)
    decreases |items| + |s|
  {
    if |s| > 0 {
      StarsMatchEverything(items, s[..|s| - 1]);
    } else if |items| > 1 {
      StarsMatchEverything(items[..|items| - 1], s);
    }
  }

  /** The string a pattern of normal items spells. */
  function Spelled(items: seq<Item>): (s: Bytes)
    requires forall i :: 0 <= i < |items| ==> items[i].typeCode == Normal
    ensures |s| == |items| && forall i :: 0 <= i < |items| ==> s[i] == items[i].character
  {
    if items == [] then [] else Spelled(items[..|items| - 1]) + [items[|items| - 1].character]
  }

  /** A pattern of normal items matches exactly the string it spells. */
  lemma {:induction false} LiteralMatchesExactly(items: seq<Item>, s: Bytes)
    requires forall i :: 0 <= i < |items| ==> items[i].typeCode == Normal
    ensures Matches(items, s) <==> s == Spelled(items)
    decreases |items|
  {
    if items != [] && |s| > 0 {
      var k := |items| - 1;
      LiteralMatchesExactly(items[..k], s[..|s| - 1]);
      var w := Spelled(items);
      if s == w {
        assert s[..|s| - 1] == Spelled(items[..k]);
      }
      if Matches(items, s) {
        assert s == s[..|s| - 1] + [s[|s| - 1]];
      }
    }
  }

  /** An any item consumes exactly one byte. */
  lemma AnyConsumesOne(items: seq<Item>, s: Bytes)
    ensures Matches(items + [AnyItem], s) <==> |s| > 0 && Matches(items, s[..|s| - 1])
  {
    assert (items + [AnyItem])[..|items|] == items;
  }

  /** A star may stand for any run of bytes after a prefix the rest matches. */
  lemma {:induction false} StarAbsorbs(items: seq<Item>, s: Bytes, t: Bytes)
    requires Matches(items, s)
    ensures Matches(items + [AllItem], s + t)
    decreases |t|
  {
    var p := items + [AllItem];
    assert p[..|p| - 1] == items;
    if t == [] {
      assert s + t == s;
    } else {
      StarAbsorbs(items, s, t[..|t| - 1]);
      assert (s + t)[..|s + t| - 1] == s + t[..|t| - 1];
    }
  }

  // ---------------------------------------------------------------------
  // What the compiler makes
  // ---------------------------------------------------------------------

  /** The bytes the compiler treats specially outside a bracket. */
  predicate Special(c: Byte) { c == '*' || c == '?' || c == '\\' || c == '[' || c == ']' }

  /** Pattern text of bytes none of which is special outside a bracket. */
  predicate Plain(src: Bytes) { forall i :: 0 <= i < |src| ==> !Special(src[i]) }

  /** Text with no special byte compiles to the normal items that spell it. */
  lemma {:induction false} PlainTextCompiles(st: CompileState, src: Bytes)
    requires !st.escape && !st.inSet
    requires Plain(src)
    ensures var r := CompileFrom(st, src);
            && !r.escape && !r.inSet && |r.items| == |st.items| + |src|
            && r.items[..|st.items|] == st.items
            && forall i :: 0 <= i < |src| ==> r.items[|st.items| + i] == NormalItem(src[i])
    decreases |src|
  {
    if src != [] {
      var st1 := CompileRune(st, src[0]);
      assert LowByte(src[0]) == src[0];
      assert st1.items == st.items + [NormalItem(src[0])];
      PlainTextCompiles(st1, src[1..]);
      var r := CompileFrom(st, src);
      assert r.items[..|st.items|] == r.items[..|st1.items|][..|st.items|];
      forall i | 0 <= i < |src| ensures r.items[|st.items| + i] == NormalItem(src[i]) {
        if i > 0 {
          assert src[1..][i - 1] == src[i];
        }
      }
    }
  }

  /** Plain text as a pattern matches exactly itself. */
  lemma PlainPatternMatchesItself(src: Bytes, s: Bytes)
    requires Plain(src)
    ensures Matches(Compiled(src), s) <==> s == src
  {
    PlainTextCompiles(Start, src);
    var items := Compiled(src);
    assert |Start.items| == 0;
    forall i | 0 <= i < |items| ensures items[i].typeCode == Normal && items[i].character == src[i] {
      assert items[|Start.items| + i] == NormalItem(src[i]);
    }
    LiteralMatchesExactly(items, s);
    assert Spelled(items) == src;
  }

  /** "*" compiles to one star and so matches every string. */
  lemma StarPatternMatchesEverything(s: Bytes)
    ensures Compiled("*") == [AllItem]
    ensures Matches(Compiled("*"), s)
  {
    assert Compiled("*") == [AllItem];
    StarsMatchEverything([AllItem], s);
  }

  /** A backslash makes the next rune a normal item; a trailing one adds nothing. */
  lemma EscapeCompiles(v: char)
    ensures Compiled(['\\', v]) == [NormalItem(LowByte(v))]
    ensures Compiled(['\\']) == []
  {
    var st1 := CompileRune(Start, '\\');
    assert st1 == Start.(escape := true);
    assert ['\\', v][1..] == [v];
    assert CompileFrom(Start, ['\\', v]) == CompileFrom(st1, [v]);
    assert CompileFrom(st1, [v]) == CompileRune(st1, v);
  }

  /** A closed bracket: "-" makes a range, "^" a negation (which wins); both markers go. */
  lemma BracketCompiles(inner: Bytes)
    requires Plain(inner)
    ensures var bracket := set i | 0 <= i < |inner| :: inner[i];
            Compiled(['['] + inner + [']']) == [CloseSet(bracket)]
  {
    var bracket := set i | 0 <= i < |inner| :: inner[i];
    var open := CompileRune(Start, '[');
    assert open == CompileState([], false, true, {});
    InBracket(open, inner);
    CompileFromAppend(Start, ['['], inner + [']']);
    assert ['['] + inner + [']'] == ['['] + (inner + [']']);
    CompileFromAppend(open, inner, [']']);
    var inside := CompileFrom(open, inner);
    assert inside == CompileState([], false, true, bracket);
    assert CompileFrom(inside, [']']) == CompileRune(inside, ']');
  }

  /** Inside a bracket, plain runes are collected as members. */
  lemma {:induction false} InBracket(st: CompileState, inner: Bytes)
    requires !st.escape && st.inSet
    requires Plain(inner)
    ensures CompileFrom(st, inner)
            == st.(members := st.members + set i | 0 <= i < |inner| :: inner[i])
    decreases |inner|
  {
    if inner != [] {
      assert LowByte(inner[0]) == inner[0];
      InBracket(CompileRune(st, inner[0]), inner[1..]);
      assert (set i | 0 <= i < |inner| :: inner[i])
             == {inner[0]} + set i | 0 <= i < |inner[1..]| :: inner[1..][i];
    }
  }

  /** A '[' never closed adds no item. */
  lemma UnclosedBracketAddsNothing(inner: Bytes)
    requires Plain(inner)
    ensures Compiled(['['] + inner) == []
  {
    var open := CompileRune(Start, '[');
    InBracket(open, inner);
    CompileFromAppend(Start, ['['], inner);
  }
}

=== FILE: wire.dfy ===
/**
 * Byte strings and the decimal conversions of Go's strconv package that the
 * RESP codec, the AOF writer and the SELECT command rely on.
 */
module Wire {
  import opened Wrappers

  /** One byte of a Go string or []byte. */
  type Byte = c: char | c as int < 256
  type Bytes = seq<Byte>
  /** A command line: the command name followed by its arguments. */
  type CmdLine = seq<Bytes>

  const CRLF: Bytes := "\r\n"

  const MaxUint32: nat := 0xFFFF_FFFF
  const MaxInt64: nat := 0x7FFF_FFFF_FFFF_FFFF
  const MinInt64: int := -0x8000_0000_0000_0000

  predicate IsInt64(i: int) { MinInt64 <= i <= MaxInt64 }

  predicate IsDigit(c: Byte) { '0' <= c <= '9' }

  predicate AllDigits(s: Bytes) { forall i :: 0 <= i < |s| ==> IsDigit(s[i]) }

  function DigitValue(c: Byte): (d: nat)
    requires IsDigit(c)
    ensures d < 10
  {
    c as int - '0' as int
  }

  function DigitChar(d: nat): (c: Byte)
    requires d < 10
    ensures IsDigit(c) && DigitValue(c) == d
  {
    ('0' as int + d) as char
  }

  /** strconv.Itoa of a non-negative number: shortest decimal, no sign. */
  function NatToDecimal(n: nat): (s: Bytes)
    ensures 0 < |s| && AllDigits(s)
    ensures '\n' !in s && '\r' !in s
    decreases n
  {
    if n < 10 then [DigitChar(n)] else NatToDecimal(n / 10) + [DigitChar(n % 10)]
  }

  /** strconv.Itoa / strconv.FormatInt(i, 10): a '-' sign for negatives, then the digits. */
  function FormatInt(i: int): (s: Bytes)
    ensures 0 < |s| && '\n' !in s && '\r' !in s
  {
    if i < 0 then "-" + NatToDecimal(-i) else NatToDecimal(i)
  }

  /** The number an all-digit string spells, most significant digit first. */
  function DecimalValue(s: Bytes): nat
    requires AllDigits(s)
  {
    if s == [] then 0 else DecimalValue(s[..|s| - 1]) * 10 + DigitValue(s[|s| - 1])
  }

  /**
   * strconv.ParseUint(s, 10, bitSize) with max = 2^bitSize - 1: at least one
   * digit, nothing else (no sign, no spaces), and no more than max.
   */
  function ParseUint(s: Bytes, max: nat): Option<nat>
  {
    if 0 < |s| && AllDigits(s) && DecimalValue(s) <= max then Some(DecimalValue(s)) else None
  }

  /**
   * strconv.ParseInt(s, 10, 64), and strconv.Atoi on a 64-bit platform: an
   * optional '+' or '-' sign, then the digits of ParseUint, within int64.
   */
  function ParseInt64(s: Bytes): (r: Option<int>)
    ensures r.Some? ==> IsInt64(r.value)
  {
    if |s| == 0 then None
    else
      var negative := s[0] == '-';
      var digits := if s[0] == '-' || s[0] == '+' then s[1..] else s;
      match ParseUint(digits, if negative then MaxInt64 + 1 else MaxInt64)
      case None => None
      case Some(u) => Some(if negative then -(u as int) else u)
  }

  lemma {:induction false} DecimalRoundTrip(n: nat)
    ensures DecimalValue(NatToDecimal(n)) == n
    decreases n
  {
    if n >= 10 {
      DecimalRoundTrip(n / 10);
      var s := NatToDecimal(n);
      assert s[..|s| - 1] == NatToDecimal(n / 10);
    }
  }

  /** Parsing what Itoa printed gives the number back. */
  lemma ParseUintOfDecimal(n: nat, max: nat)
    requires n <= max
    ensures ParseUint(NatToDecimal(n), max) == Some(n)
  {
    DecimalRoundTrip(n);
  }

  /** strconv.ParseInt inverts strconv.FormatInt on every int64. */
  lemma ParseIntOfFormat(i: int)
    requires IsInt64(i)
    ensures ParseInt64(FormatInt(i)) == Some(i)
  {
    var s := FormatInt(i);
    if i < 0 {
      assert s[1..] == NatToDecimal(-i);
      ParseUintOfDecimal(-i, MaxInt64 + 1);
    } else {
      assert s[0] != '-' && s[0] != '+';
      ParseUintOfDecimal(i, MaxInt64);
    }
  }

  /** 10^k. */
  function Pow10(k: nat): (p: nat)
    ensures 0 < p
  {
    if k == 0 then 1 else 10 * Pow10(k - 1)
  }

  /** Itoa of a number below 10^k needs at most k digits. */
  lemma {:induction false} DecimalLength(n: nat, k: nat)
    requires 0 < k && n < Pow10(k)
    ensures |NatToDecimal(n)| <= k
    decreases n
  {
    if n >= 10 {
      assert k > 1;
      DecimalLength(n / 10, k - 1);
    }
  }

  /** An ASCII capital letter. */
  predicate IsUpper(c: Byte)
  {
    'A' <= c <= 'Z'
  }

  /** The ASCII case folding of one byte, as Go's strings.ToLower does it for ASCII. */
  function LowerByte(c: Byte): (d: Byte)
    ensures !IsUpper(d)
    ensures !IsUpper(c) ==> d == c
    ensures d == c || d as int == c as int + 32
  {
    if IsUpper(c) then (c as int + 32) as char else c
  }

  /** strings.ToLower on ASCII input: every capital folded, every other byte kept. */
  function ToLower(s: Bytes): (r: Bytes)
    ensures |r| == |s|
    ensures forall i :: 0 <= i < |s| ==> !IsUpper(r[i]) && (!IsUpper(s[i]) ==> r[i] == s[i])
    ensures forall i :: 0 <= i < |s| ==> r[i] == s[i] || r[i] as int == s[i] as int + 32
  {
    seq(|s|, i requires 0 <= i < |s| => LowerByte(s[i]))
  }

  /** Two bytes that are the same letter, whatever the case of each. */
  predicate SameUpToCase(a: Byte, b: Byte)
  {
    a == b || (IsUpper(a) && b as int == a as int + 32) || (IsUpper(b) && a as int == b as int + 32)
  }

  /** Two names lower-case to the same name exactly when they differ only in the case of letters. */
  lemma ToLowerMatches(s: Bytes, t: Bytes)
    ensures ToLower(s) == ToLower(t) <==> |s| == |t| && forall i :: 0 <= i < |s| ==> SameUpToCase(s[i], t[i])
  {
    if |s| == |t| && forall i :: 0 <= i < |s| ==> SameUpToCase(s[i], t[i]) {
      assert forall i :: 0 <= i < |s| ==> ToLower(s)[i] == ToLower(t)[i];
    }
    if ToLower(s) == ToLower(t) {
      forall i | 0 <= i < |s|
        ensures SameUpToCase(s[i], t[i])
      {
        assert LowerByte(s[i]) == LowerByte(t[i]);
      }
    }
  }

  /** Lower-casing twice is lower-casing once. */
  lemma ToLowerIdempotent(s: Bytes)
    ensures ToLower(ToLower(s)) == ToLower(s)
  {
  }
}

=== FILE: wrappers.dfy ===
/** Optional values, standing in for Go's nil pointers and (value, ok) pairs. */
module Wrappers {

  datatype Option<+T> = None | Some(value: T)
}
